=== FILE: README.md ===
# MYOHAND core, modelled in Dafny

MYOHAND drives a prosthetic hand from a Myo EMG armband. This project
models the sequential logic underneath the device, model, web and cloud
glue, and proves properties of it:

- the real-time classifiers: a bounded FIFO of 100 eight-channel samples,
  the 0..1023 min-max scaling, the 0.5 confidence gate, the dispatch
  payload and the clear-on-dispatch buffer (`RealTimeTestv2.py`, both
  copies); and the averaging, print-on-change variant (`RealTimeTest.py`);
- the device lifecycle around the real-time callback: handler reset,
  registration, and which exits reach `disconnect`;
- the capture jobs of the three `data_collector.py` files: the nine-column
  dataset, `csvcreate`, labelled records, the time-boxed pump loop, the
  append flush and the read-concat-write flush, the per-label driver
  loops, and the V1 start-up A/B prompt, which every spawned worker
  process runs again;
- the Flask server's decisions: `collect_data` validation and its bounded
  retry loop, the `/api/realtime` toggle, the status codes of reconnect,
  get-accuracy, train-model and power-off, and the timed connection probe
  of `reconectar.py`;
- the training-set construction of `LSTMnn.py`: sliding windows and their
  labels, one-hot labels, and the deterministic shape of segment
  permutation, partial flip, temporal dropout and class-selective
  augmentation;
- the React client `App.tsx`: the six-step calibration wizard, menu
  gating, the training and execution buttons, the connection indicator and
  the power switch's confirmation flow.

The classifier, the device, the clock, the process runtime, the random
draws and every fetch outcome are parameters of the model. The dataset file
is its decoded table; HTTP replies are (status, reply) pairs.

Modules: `Basics` (option, max/argmax, last-n), `EmgWindow`,
`GatedPipeline`, `RealtimeSession`, `MeanPipeline`, `Dataset`,
`CaptureJob`, `StartupPrompt`, `PyJson`, `Probe`, `Server`,
`TrainingWindows`, `Augmentation`, `App`, one per file.

Where the code and its design description disagree, the model follows the
code:

- A capture job has no exception handling. A pump that raises ends the
  worker before the flush, so the batch is lost; it is not flushed
  best-effort (`CaptureJob.Collect`, `Crashed`).
- Scaling divides by 1023. It is stateless, but not idempotent: scaling
  twice divides twice.
- A failing `requests.put` is not swallowed. It leaves `process_data`
  and the callback and ends the real-time session through the `except`
  in `tiemporeal` (`RealtimeSession.TiempoReal` with `Raised(AtPump)`).
- The client flips its execution button whenever the realtime reply's
  JSON was read, whatever the status; it does not check `response.ok`.
- Stopping the real-time worker does not disconnect the armband. The
  server stops it with `terminate()`, and `tiemporeal` installs no signal
  handler, so neither its `except` nor its `finally` runs
  (`RealtimeSession.Terminated`, `Server.StopLeavesDeviceConnected`).
- In the V1 collector the A/B prompt sits at module level, outside the
  `__main__` guard. The `msvcrt` import pins the collector to Windows,
  where `multiprocessing` spawns each label's worker by re-running the
  module. So every worker asks again before it collects. B in a worker
  deletes the rows of the earlier labels. A worker whose prompt runs out
  of input ends before collecting, and its label's batch is lost
  (`StartupPrompt.DriverV1`).

## Model

| member | source | states |
|---|---|---|
| Basics.Max | project/RealTimeTestv2.py:66 | the result bounds every probability and is one of them |
| Basics.ArgMax | project/RealTimeTestv2.py:67 | the result is the first index holding the maximum (numpy breaks ties to the left) |
| Basics.ArgMaxAttainsMax | project/RealTimeTestv2.py:66-67 | the dispatched label's probability is the dispatched confidence |
| Basics.FirstMaxIsArgMax | project/RealTimeTestv2.py:67 | the first maximum is unique, so any index with that property is the argmax |
| Basics.LastN | project/RealTimeTestv2.py:40 | the last n elements, or all of a shorter sequence, as a suffix |
| Basics.LastNAbsorbs | project/RealTimeTestv2.py:40 | trimming to the last n before extending changes nothing after a final trim |
| EmgWindow.Append | project/RealTimeTestv2.py:114-115 | appending to the bounded deque keeps at most 100 samples, the most recent ones |
| EmgWindow.AppendAllKeepsMostRecent | project/RealTimeTestv2.py:40 | after any run of appends the deque holds exactly the 100 most recent samples in arrival order |
| EmgWindow.Normalize | project/RealTimeTestv2.py:28-29 | the scaler fitted on rows of 0 and 1023 maps x to x/1023, into [0, 1] for in-range readings |
| EmgWindow.NormalizeWindow | project/RealTimeTestv2.py:62 | the scaled window has the same shape, with every reading divided by 1023 |
| EmgWindow.NormalizeWindowInUnitRange | project/RealTimeTestv2.py:62 | a window of readings in 0..1023 scales into [0, 1] |
| EmgWindow.ChunksPartition | project/RealTimeTestv2.py:92 | the cleared windows and the leftover partition the stream, with exactly n/100 windows |
| GatedPipeline.ProcessData | project/RealTimeTestv2.py:49-95 | no-op below 100 samples; dispatches iff the window is full and max ≥ 0.5, with the first-max label, which is one of the six named labels, speed 1, and clears the buffer; a rejected result leaves the state unchanged |
| GatedPipeline.AddToQueue | project/RealTimeTestv2.py:114-117 | the callback appends, then classifies iff the deque is full; a dispatched label is always named; keeps the buffer bounded, so a rejected full window slides by one on the next sample |
| GatedPipeline.DispatchesAreNamed | project/RealTimeTestv2.py:15-22 | every label put to the endpoint is a key of prediccion_etiquetas, so the name lookup before the put never raises |
| GatedPipeline.DispatchesNeedFullWindows | project/RealTimeTestv2.py:55-56 | 100 × dispatches plus what is buffered never exceeds the samples seen |
| GatedPipeline.SilentRunIsFifo | project/RealTimeTestv2.py:115 | a run without dispatches leaves the 100 most recent samples and the last prediction untouched |
| GatedPipeline.ShortFeedIsSilent | project/RealTimeTestv2.py:116-117 | fewer than 100 samples in total produce no dispatch and only accumulate |
| GatedPipeline.LastLabelTracksDispatches | project/RealTimeTestv2.py:82-83 | the last-prediction state changes only on a dispatch and then names that dispatch's label |
| GatedPipeline.CompletingSampleDispatches | project/RealTimeTestv2.py:66-80 | the sample that completes a confident window dispatches {mensaje: first-max label, velocidad: 1} and empties the buffer |
| GatedPipeline.CompletingAWindowDispatches | project/RealTimeTestv2.py:116-117 | topping a partial buffer up to 100 samples yields exactly one dispatch when the model is confident |
| GatedPipeline.ConfidentModelDispatchesEveryWindow | project/RealTimeTestv2.py:70-92 | with an always-confident model, one dispatch per consecutive 100-sample window, in order, and the remainder stays buffered |
| GatedPipeline.ZeroFeedScenario | project/RealTimeTestv2.py:49-95 | 150 zero samples with a confident model: one dispatch of label 0 and 50 samples buffered |
| RealtimeSession.RegisterHandlers | pyomyo/DatasetExtractV2/RealTimeTestv2.py:107-122 | the reset followed by add_emg_handler leaves the queue callback last, with one more queue callback than the reset left |
| RealtimeSession.ResetLeavesOneHandler | pyomyo/DatasetExtractV2/RealTimeTestv2.py:107-108 | with the handler attribute present, whatever was registered before, exactly one handler is active afterwards and it is the queue callback |
| RealtimeSession.PriorSurvivesWithoutReset | pyomyo/DatasetExtractV2/RealTimeTestv2.py:122 | a hypothetical case: a device object without the handler list (the pyomyo `Myo` class, which is not part of this model, is expected to have one) keeps every earlier handler, so an earlier queue callback would run twice per sample |
| RealtimeSession.MainV2 | pyomyo/DatasetExtractV2/RealTimeTestv2.py:98-139 | disconnect is reached iff the session ended inside the run loop by Ctrl+C or an exception, and is then the last call; an exception escapes iff one was raised or the disconnect in `finally` raised, so a terminated process neither disconnects nor escapes |
| RealtimeSession.TiempoReal | project/RealTimeTestv2.py:98-141 | disconnect is reached iff the exit is neither a failure to create the device nor a termination, and is then the last call; nothing escapes, a failing disconnect included |
| RealtimeSession.TerminatedNeverDisconnects | project/RealTimeTestv2.py:101-141 | a terminated `tiemporeal` makes the calls of the stage it reached and no disconnect, and raises nothing; an exception at that stage would have added the disconnect |
| RealtimeSession.FailedCloseAfterInterrupt | pyomyo/DatasetExtractV2/RealTimeTestv2.py:133-139 | after Ctrl+C, a failing disconnect escapes V2 main but is swallowed by tiemporeal, with the same calls made |
| RealtimeSession.SessionOrdering | pyomyo/DatasetExtractV2/RealTimeTestv2.py:104-132 | in both versions the handler is registered once, after connect and before the first pump, disconnect happens at most once, last, and once registered the active handlers are those of reset-then-register: exactly the queue callback when the attribute exists |
| MeanPipeline.WindowLength | pyomyo/DatasetExtract/RealTimeTest.py:25-27 | int(0.5 × 200) is the 100-sample window |
| MeanPipeline.ChannelMeanBounds | pyomyo/DatasetExtract/RealTimeTest.py:49 | the mean of in-range readings of a channel is in 0..1023 |
| MeanPipeline.MeanRowInUnitRange | pyomyo/DatasetExtract/RealTimeTest.py:46-52 | the classifier input is one row of 8 scaled channel means, each in [0, 1] |
| MeanPipeline.ProcessData | pyomyo/DatasetExtract/RealTimeTest.py:35-66 | no-op below 100 samples; otherwise classifies with the argmax, announces only a changed label, and clears; a changed label outside the four-entry name table raises before any update, leaving the state as it was |
| MeanPipeline.AddToQueue | pyomyo/DatasetExtract/RealTimeTest.py:85-93 | classification happens iff the deque is full after the append and naming the label does not raise; a raise leaves the full deque and the last announcement |
| MeanPipeline.CrashOnlyOnUnnamedLabel | pyomyo/DatasetExtract/RealTimeTest.py:59-61 | every announced label has a name, and a run that ended on a KeyError stopped on a full window whose changed label has none |
| MeanPipeline.NamedModelNeverCrashes | pyomyo/DatasetExtract/RealTimeTest.py:10-15 | a model whose argmax is always one of the four named labels never ends the session |
| MeanPipeline.FifthClassEndsSession | pyomyo/DatasetExtract/RealTimeTest.py:60 | a five-way model answering class 4 ends the session on the first window, with nothing classified and the window still buffered |
| MeanPipeline.AnnouncementsCollapseRepeats | pyomyo/DatasetExtract/RealTimeTest.py:58-61 | the announcements are the classifications with repeats of the previous announcement removed |
| MeanPipeline.CollapseHasNoRepeats | pyomyo/DatasetExtract/RealTimeTest.py:33 | no label is announced twice in a row, and from None the first classification is always announced |
| MeanPipeline.ShortFeedAccumulates | pyomyo/DatasetExtract/RealTimeTest.py:42-43 | fewer than 100 samples in total are only buffered |
| MeanPipeline.OneWindowOneClassification | pyomyo/DatasetExtract/RealTimeTest.py:90-93 | a full window into an empty buffer is classified once, on its last sample, unless its changed label has no name; then it stays buffered and the session ends |
| MeanPipeline.ClassifiesEachWindowOnce | pyomyo/DatasetExtract/RealTimeTest.py:63-66 | classifications are the labels of the consecutive non-overlapping windows, in order; without a crash all n/100 of them with the remainder buffered, after a crash the window that raised is the one buffered |
| Dataset.HeaderShape | project/data_collector.py:25-26 | nine distinct columns, the label last |
| Dataset.CsvCreateForgetsPrior | project/data_collector.py:29-35 | the result does not depend on what existed before, and recreating is idempotent |
| Dataset.Tag | project/data_collector.py:47-48 | a record is the sample's eight channels followed by the label |
| Dataset.TagRoundTrip | project/data_collector.py:48 | the channel part and the label come back out of a record |
| Dataset.TagAll | project/data_collector.py:45-48 | one record per sample, in arrival order |
| Dataset.TagAllLabelled | project/data_collector.py:48 | every record has nine fields and the job's label |
| Dataset.AppendRows | project/data_collector.py:68-69 | the header and earlier rows are kept and the records follow; on a missing file no header is written |
| Dataset.AppendIsAppendOnly | project/data_collector.py:69 | the old rows are a prefix of the new file and the records the rest |
| Dataset.AppendRowsTwice | pyomyo/DatasetExtractV2/data_collector.py:74-75 | two appends are one append of the concatenation |
| Dataset.ReadConcatWrite | pyomyo/DatasetExtract/data_collector.py:84-88 | fails on a missing file; on the nine-column file the rows become old rows ++ records |
| Dataset.FlushStylesAgree | pyomyo/DatasetExtract/data_collector.py:86-88 | on a file with the header, read-concat-write equals the append flush |
| CaptureJob.DataWorker | project/data_collector.py:39-71 | the loop computes the job's end: flushed records, a crash, or still running |
| CaptureJob.CollectFlushesAtExpiry | project/data_collector.py:58-69 | pumping goes on while elapsed < seconds; at the first expired check the samples gathered so far are flushed once, tagged |
| CaptureJob.CollectFlushOnlyAtExpiry | pyomyo/DatasetExtractV2/data_collector.py:64-77 | a flush happens only at the first expired check, after pumps that all delivered |
| CaptureJob.JobRecordsLabelled | project/data_collector.py:45-69 | a flushed job had a device and a known label, and every record carries that label; the frame count is the number of rows |
| CaptureJob.UnknownLabelWritesNothing | project/data_collector.py:55 | a label outside the name table raises before the loop and collects nothing |
| CaptureJob.Persist | pyomyo/DatasetExtract/data_collector.py:84-88 | a flushed job writes its records with the driver's flush style; a crashed job, or a rewrite whose read of a missing file raises, leaves the file as it was; a rewrite over a file with other columns is reported as unrepresented |
| CaptureJob.UnrepresentedOnlyForOtherColumns | pyomyo/DatasetExtract/data_collector.py:86-88 | only a flushed rewrite over a present file whose columns are not the nine is unrepresented; appending always yields a file |
| CaptureJob.PersistAppends | pyomyo/DatasetExtract/data_collector.py:84-88 | on a file with the header both flush styles append the job's batch |
| CaptureJob.CollectedOrdered | pyomyo/DatasetExtractV2/data_collector.py:88-96 | the collected rows' Output column never decreases and stays in the driver's label range |
| CaptureJob.RunLabelsAppendsBatches | pyomyo/DatasetExtractV2/data_collector.py:88-96 | on a headed file, when every job ends, the driver finishes with old rows ++ batch(from) ++ batch(from+1) ++ …; it blocks iff some job never ends, and is never unrepresented |
| CaptureJob.DriverV2Dataset | pyomyo/DatasetExtractV2/data_collector.py:80-100 | a complete session leaves the header over batch0 ++ … ++ batch5, in label order |
| CaptureJob.FlushModesAgree | pyomyo/DatasetExtract/data_collector.py:97-105 | with the header in place, the read-concat-write driver loop ends in the same file as appending |
| CaptureJob.OtherColumnsStopRewrite | pyomyo/DatasetExtract/data_collector.py:86-88 | the V1 loop over a kept file with other columns becomes unrepresented at the first job that flushes |
| CaptureJob.AppendAlwaysRepresented | project/data_collector.py:67-69 | the append loop never meets an unrepresented rewrite, whatever the file |
| StartupPrompt.Strip | pyomyo/DatasetExtract/data_collector.py:29 | the result is the input's slice after its leading whitespace, with whitespace only after it, and no whitespace at either end |
| StartupPrompt.StripTrimmed | pyomyo/DatasetExtract/data_collector.py:29 | a string with no whitespace at either end is its own strip |
| StartupPrompt.StripIdempotent | pyomyo/DatasetExtract/data_collector.py:29 | stripping twice is stripping once |
| StartupPrompt.Upper | pyomyo/DatasetExtract/data_collector.py:29 | same length, ASCII lower-case letters raised |
| StartupPrompt.NormaliseAccepts | pyomyo/DatasetExtract/data_collector.py:29-30 | the answer is A iff its strip is "a" or "A", and likewise for B |
| StartupPrompt.Ask | pyomyo/DatasetExtract/data_collector.py:28-32 | the prompt stops at the first accepted line, and fails only if no line is accepted |
| StartupPrompt.AskIsFirstValid | pyomyo/DatasetExtract/data_collector.py:28-32 | the first accepted line is the one Ask returns |
| StartupPrompt.StartupV1 | pyomyo/DatasetExtract/data_collector.py:22-43 | a missing file gets the header; on an existing file B resets it and A keeps it; the run fails only if the prompt runs out of input |
| StartupPrompt.ChildChoice | pyomyo/DatasetExtract/data_collector.py:22-43 | a worker's re-run of the prompt keeps the file iff it accepts A, resets it iff it accepts B, and ends the worker iff no line is accepted |
| StartupPrompt.ChildRepeatsStartup | pyomyo/DatasetExtract/data_collector.py:22-43 | on the existing file a worker finds, its start-up keeps the file, replaces it by the bare header, or fails, as its choice says |
| StartupPrompt.KeptByEveryChild | pyomyo/DatasetExtract/data_collector.py:97-105 | when every worker answers A, the per-label loop is the plain rewrite driver |
| StartupPrompt.ResetFirstKeepsOwnBatches | pyomyo/DatasetExtract/data_collector.py:34-43 | a B in the first worker and A in the rest leave the header and the batches of this session only |
| StartupPrompt.ChildResetDiscardsEarlier | pyomyo/DatasetExtract/data_collector.py:34-43 | a B in worker k and A after it leave the header and batch k ++ … ++ batch3: every earlier row is gone |
| StartupPrompt.ChildrenWithoutReset | pyomyo/DatasetExtract/data_collector.py:28-32 | without a B, a completed session appends the batches of exactly the workers whose prompt was answered |
| StartupPrompt.SurvivorsOfKeepers | pyomyo/DatasetExtract/data_collector.py:97-105 | when every worker answers A, every label's batch survives, in label order |
| StartupPrompt.DriverV1Dataset | pyomyo/DatasetExtract/data_collector.py:93-109 | a complete V1 session whose workers all answer A leaves the start-up rows followed by batch0 ++ … ++ batch3, in label order |
| StartupPrompt.DriverV1ChildReset | pyomyo/DatasetExtract/data_collector.py:22-43 | a B in worker k with A after it leaves the header and batch k ++ … ++ batch3, in label order from k |
| StartupPrompt.DriverV1LosesSilentChildren | pyomyo/DatasetExtract/data_collector.py:28-32 | without a B in any worker, a completed session leaves the start-up rows and the batches of the workers that got an answer |
| PyJson.Get | project/server.py:107 | absent iff no field has the key; otherwise the last field with that key |
| PyJson.GetAfterPut | project/server.py:106-107 | a key written last is read back |
| PyJson.AsIndex | project/server.py:109 | a value in range(n) compares equal to an index below n |
| PyJson.InRangeIffIndex | project/server.py:109 | `x in range(n)` holds iff x equals one of 0..n-1 (bools and integral floats included) |
| Probe.WorkerCalls | project/reconectar.py:4-7 | the probe child connects first, and disconnects iff connect returned |
| Probe.OutcomeOf | project/reconectar.py:12-14 | a child is alive at the deadline iff its connect blocked |
| Probe.IntentarConectar | project/reconectar.py:9-18 | one child started and waited on for the timeout; False iff it is still alive, after terminating and joining it; no child alive afterwards |
| Probe.RaisedConnectReportsSuccess | project/reconectar.py:18 | a connect that raised is still reported as a connection, with no disconnect made |
| Probe.ProbeAnswer | project/reconectar.py:9-18 | the answer is True iff the child did not block |
| Server.StepOf | project/server.py:107-110 | a valid step is a label below 6 |
| Server.RetryOutcome | project/server.py:120-130 | 200 with the step iff some attempt exited in time, at the first one; 500 iff every remaining attempt was alive at its deadline |
| Server.RetryLog | project/server.py:120-126 | at most three launches, each waited on for 25 s and ended before the next, and no dataset reset |
| Server.CollectData | project/server.py:104-130 | an invalid step does nothing (400, or Flask's HTML 500 page exactly when the body is not a JSON object); the dataset is reset iff step is 0, once, before any attempt |
| Server.InvalidStepRejected | project/server.py:109-110 | a step that is missing or outside 0..5 is answered 400 before anything runs |
| Server.CollectDataRetries | project/server.py:117-130 | for a valid step: 200 at the first exited attempt, 500 iff all three timed out, at most three launches, never overlapping |
| Server.AttemptOf | project/server.py:123-124 | the server sees a job as alive at the join deadline iff it is still running |
| Server.CrashedJobReportedCompleted | project/server.py:124-128 | a job that crashed is answered 200 completed, since the exit status is not inspected |
| Server.CollectDataFile | project/server.py:112-123 | label 0 recreates the file before the job's flush; other labels only append |
| Server.ClientSessionMatchesDriver | project/server.py:104-130 | requests for steps k..5 that each complete append batch k ++ … ++ batch5 |
| Server.ClientSessionIsDriverV2 | project/server.py:112-114 | a client session of steps 0..5 builds the same dataset as the standalone V2 collector |
| Server.StopLeavesDeviceConnected | project/server.py:61-64 | stopping a live worker answers 200 stopped, and the terminated session has made no disconnect and raised nothing |
| Server.Toggle | project/server.py:52-64 | after a successful import of the worker module, starts a worker when the slot is empty or dead, otherwise stops the live one, both with 200, and, for requests handled one at a time, at most one worker stays live; a first import that raises answers Flask's 500 page and changes nothing |
| Server.Dies | project/server.py:57 | a worker ending on its own changes only its own liveness |
| Server.OneRealtimeWorker | project/server.py:50-64 | for requests handled one at a time, at most one realtime worker is ever alive, and it is the one in the slot |
| Server.ToggleTwice | project/server.py:55-64 | two toggles with nothing in between start and then stop a worker; the second reuses the cached module whatever a fresh import would do |
| Server.FailedImportRetried | project/server.py:55 | a failed import is not cached, so the next request retries it, and nothing starts while it keeps failing |
| Server.Reconnect | project/server.py:26-34 | 200 iff the probe says True, 408 iff it says False, 500 iff it raised |
| Server.ReconnectFollowsProbe | project/server.py:29-32 | reconnect answers 408 exactly when the probe child was still blocked |
| Server.GetAccuracy | project/server.py:37-48 | 200 with the value iff the metadata object has a non-null accuracy; 404 iff it lacks one; 500 otherwise |
| Server.TrainModel | project/server.py:67-81 | 200 iff training succeeded, which rewrites the metadata with the accuracy; 501 on failure and 500 on an exception, with the metadata unchanged |
| Server.TrainThenGetAccuracy | project/server.py:74-75 | the accuracy stored by a successful training is the one get-accuracy returns |
| TrainingWindows.Inputs | project/LSTMnn.py:26 | the channel part of each row |
| TrainingWindows.Labels | project/LSTMnn.py:27 | the Output column of each row |
| TrainingWindows.SplitUndoesTag | project/LSTMnn.py:26-27 | splitting the columns gives back the collector's samples and its label |
| TrainingWindows.SlidingWindows | project/LSTMnn.py:36-46 | max(0, n − 100) windows; window i is rows i..i+99 and its label is row i+100 |
| TrainingWindows.SlidingWindowsReference | project/LSTMnn.py:41-43 | the loop builds exactly the reference windows and labels |
| TrainingWindows.WindowBounds | project/LSTMnn.py:42-43 | every window entry and label is in bounds, and the last row is never inside a window |
| TrainingWindows.WindowsSlide | project/LSTMnn.py:41-42 | consecutive windows share 99 rows |
| TrainingWindows.OneHot | project/LSTMnn.py:28 | six entries with a single 1 at the label |
| TrainingWindows.OneHotArgMax | project/LSTMnn.py:52 | argmax recovers the class from its one-hot row |
| TrainingWindows.ToCategorical | project/LSTMnn.py:28 | labels 0..5 are one-hot; −6..−1 wrap from the end; anything else fails |
| TrainingWindows.CollectedLabelsRoundTrip | project/LSTMnn.py:28 | the collectors' labels 0..5 survive one-hot encoding and argmax |
| TrainingWindows.WindowsOfOneJob | project/LSTMnn.py:26-43 | a window over one job's rows holds that job's scaled samples and is labelled with the job's label |
| Augmentation.Segment | project/LSTMnn.py:98-99 | each segment has ⌊n/4⌋ rows |
| Augmentation.PermuteSegments | project/LSTMnn.py:94-101 | the four segments concatenated in the shuffled order, 4·⌊n/4⌋ rows |
| Augmentation.PermuteIdentity | project/LSTMnn.py:98-101 | the identity order gives the series without its n mod 4 trailing rows |
| Augmentation.OrderIsPermutationOfSegments | project/LSTMnn.py:100 | a shuffle of four distinct segment indices is a permutation of 0..3 |
| Augmentation.PermutePreservesRows | project/LSTMnn.py:94-101 | the output is a permutation of the first 4·⌊n/4⌋ rows |
| Augmentation.FlipSize | project/LSTMnn.py:107-108 | int(n × 0.3) is below n for a non-empty series |
| Augmentation.PartialFlip | project/LSTMnn.py:103-112 | fails on an empty series; otherwise keeps the length, reverses rows start..start+flip_size−1 and leaves the rest |
| Augmentation.PartialFlipInvolution | project/LSTMnn.py:111 | flipping the same stretch twice restores the series |
| Augmentation.PartialFlipKeepsLastRow | project/LSTMnn.py:109 | with randint's exclusive bound the last row is never flipped |
| Augmentation.TemporalDropout | project/LSTMnn.py:114-119 | same shape; every entry is the original or 0 as the mask says |
| Augmentation.DropoutIdempotent | project/LSTMnn.py:118-119 | reapplying a mask changes nothing, and a keep-all mask is the identity |
| Augmentation.Sources | project/LSTMnn.py:139-144 | every source of a copy is an index of the zipped range |
| Augmentation.SourcesSound | project/LSTMnn.py:139-144 | the sources are taken in increasing index order and each carries a target label |
| Augmentation.SourcesCount | project/LSTMnn.py:139-144 | there are times × (number of target samples) copies |
| Augmentation.SourcesCopies | project/LSTMnn.py:141-144 | every target sample has exactly `times` copies and no other sample has any |
| Augmentation.OneHots | project/LSTMnn.py:148-151 | one one-hot row per label |
| Augmentation.AugmentSpecificClasses | project/LSTMnn.py:121-156 | the originals come first, unchanged, and one label row is added per appended copy; `AugmentShape` gives the full shape |
| Augmentation.AugmentSpecificClassesAsWritten | project/LSTMnn.py:146-153 | when it does not fail it returns the corrected result; when it fails the corrected version appends nothing (`AsWrittenFailsWithoutTargets` proves the converse) |
| Augmentation.AugmentShape | project/LSTMnn.py:121-156 | originals first, unchanged and with their labels; then the copies, each carrying its source's label |
| Augmentation.AsWrittenFailsWithoutTargets | project/LSTMnn.py:146-153 | as written it fails iff no copy is made, and otherwise agrees with the corrected version |
| Augmentation.AsWrittenCounterexample | project/LSTMnn.py:177 | a training split whose only class is 1 makes train() fail |
| App.StepsIndexed | project/src/App.tsx:14-21 | six steps, each id equal to its index and none completed; the last step is the server's last label |
| App.Mounted | project/src/App.tsx:65-79 | the client starts on the menu at step 0 with progress from /api/check, or no progress if that request failed |
| App.StartCalibration | project/src/App.tsx:92-120 | posts step = currentStep; success advances below step 5 and at step 5 completes calibration and opens training; failure only clears isCollecting |
| App.StartTraining | project/src/App.tsx:122-148 | success marks the model trained and ready; isTraining is cleared on every path |
| App.ExecutionToggle | project/src/App.tsx:448-464 | sends the mensaje; isRunning flips iff a response body was read, whatever its status; nothing else changes |
| App.HandleReconnect | project/src/App.tsx:258-275 | the indicator is green iff the reply was ok with a body, red otherwise |
| App.Step | project/src/App.tsx:312-346 | training opens from the menu only when calibration is complete, execution only when the model is ready; back returns to the menu |
| App.MountedValid | project/src/App.tsx:50-79 | the mounted state satisfies the client invariant |
| App.StepKeepsValid | project/src/App.tsx:106-111 | every event keeps the step in 0..5 and the sections gated, and never takes progress back |
| App.RunKeepsValid | project/src/App.tsx:52 | over any event sequence the invariant holds and the step never decreases |
| App.RequestsNeverGoBack | project/src/App.tsx:98 | every collect request names a step between the current one and 5 |
| App.CalibrationProgress | project/src/App.tsx:101-119 | before the last step succeeds, the step is the start plus the successes, and request k names start + successes before it |
| App.FullCalibration | project/src/App.tsx:106-110 | six successes from step 0 send steps 0..5 in order, then complete calibration and open training |
| App.StepBodyResets | project/server.py:112-114 | the request for step j is valid with label j, and it resets the dataset iff j is 0 |
| App.ResetOnlyBeforeFirstSuccess | project/src/App.tsx:98-119 | from step 0, a request resends step 0 and resets the dataset iff no earlier capture succeeded |
| App.ServerAnswerAdvances | project/src/App.tsx:101-111 | a capture advances the wizard iff one of the server's three attempts ended in time |
| App.ToggleFollowsServer | project/src/App.tsx:457-459 | a button in step with the server's realtime slot stays in step after a toggle |
| App.CrashedWorkerInvertsButton | project/src/App.tsx:448-464 | after the realtime worker dies on its own, pressing Pausar starts a new worker while the button turns to Iniciar |
| App.ReconnectIndicator | project/src/App.tsx:262-274 | the indicator is green exactly when the server's probe reported a connection |
| App.TrainingUnlocksExecution | project/src/App.tsx:131-134 | a successful training unlocks the execution section; a failed one leaves it as it was |
| App.PowerStep | project/src/App.tsx:198-221 | a click while on only opens the confirmation, a click while off turns on; power-off is posted only from the open confirmation, which closes on every path; the switch goes off only then, on a resolved fetch |
| App.OffNeedsConfirmation | project/src/App.tsx:202-215 | the switch goes off only after a click that opened the confirmation and a confirmation whose request resolved |
| App.FirstOff | project/src/App.tsx:210-215 | the first event turning the switch off is a confirmation whose request resolved |
| App.PowerOffOutcomeInvisible | project/server.py:96-101 | both outcomes of power_off_myo give the client the same reply, and confirming with it turns the switch off and closes the dialog |
| App.ConfirmedPowerOff | project/src/App.tsx:210-220 | since the server always answers power-off, click and confirm turn the switch off with the dialog closed |

## Left out

- Myo device I/O (connect, run, LEDs, vibration, battery handlers): the sample stream, the pump outcomes and the session's exit point are inputs.
- The Keras model: loading, `predict`, `fit`, `evaluate` and the network itself; the classifier is a function parameter returning a non-empty probability vector. Whether the model file loads at all is the import outcome of `Server.Toggle`.
- GatedPipeline.ProcessData: the classifier has exactly six outputs, the width of the softmax layer that `LSTMnn.py` trains and checkpoints as `modelo_LSTM.keras`; a model file of another width, whose argmax could miss the six-entry name table and raise KeyError, is not modelled.
- GatedPipeline.AddToQueue: relies on the same six-output classifier as `GatedPipeline.ProcessData`.
- Floating point: probabilities and scaled readings are reals, with no rounding; the float32 cast of the buffer is exact for readings in 0..1023.
- The random augmentations `add_gaussian_noise`, `apply_jitter`, `scale_signal` and `time_warping`, `augment_data`'s random choice of which ones apply, and `train_test_split`: random float numerics; every random draw of the modelled augmentations is a parameter.
- The Firebase `requests.put`, printing, stdout redirection and `time.sleep`: a dispatch is a trace event.
- The multiprocessing runtime and the wall clock: each attempt is its state at its deadline, and a job's clock is a supplied sequence of elapsed times; `terminate` without `join` in `collect_data` is treated as immediate.
- Server.RetryLog: "ended before the next" assumes `terminate()` takes effect at once; the source does not `join` a terminated attempt, so it may still be exiting when the next one starts.
- Server.CollectDataRetries: "never overlapping" rests on the same assumption that a terminated attempt has ended before the next launch.
- CaptureJob.Job: a job still running at the server's 25 s deadline is one whose clock never passes the time box in the supplied ticks; how long pumps take is not modelled.
- Flask routing, CORS, JSON encoding and `request.get_json` failure modes other than a non-object body; the module-level `selfbuffer` load.
- `/api/check`: `check_existence` is not part of this model, so its reply is an input of `App.Mounted`.
- `train()` itself beyond its (success, accuracy) outcome, and the `iloc[:, :9]` truncation (the dataset always has nine columns here).
- pandas CSV serialisation: the file is its decoded table; labels are integers (pandas may read them back as floats); pandas' column alignment of a file with other headers (union of columns, NaN for the gaps) is not represented: `CaptureJob.Persist` returns None and the driver ends `Unrepresented`.
- Dataset.AppendRows: an append to a missing file creates it without a header; this never happens in the drivers, which create the file first.
- `msvcrt.getch` before each label in the drivers: waiting for a key does not change the dataset.
- The console input a spawned V1 worker reads for its own A/B prompt: each worker's lines are a parameter, as are the parent's.
- StartupPrompt.Strip: knows ASCII whitespace, 0x1c-0x1f, NEL and NBSP, not the other Unicode spaces of `str.strip`; `StartupPrompt.Upper` raises ASCII letters only.
- `pyomyo/DatasetExtract/TiempoReal.py`, `project/poweroff.py` and `project/suboff.py`: serial-port GUI, subprocess wrapper and power-off script.
- App.tsx presentation: rendering, CSS, the background video and the DOM loader.
- `fetchAccuracy` and the accuracy display: they only show a value.
- The retraining confirmation dialog: a `Train` event stands for both the first training and a confirmed retraining.
- App.Mounted: the /api/check reply is applied before any user action; a reply arriving later is not modelled.
- App.Step: each request is settled before the next event, so the disabled buttons while `isCollecting` or `isTraining` are true never matter and those flags are false between events.
- App.PowerStep: `ToggleSwitch` is declared inside `App`, so React remounts it on every render of `App` and resets its state; the model keeps its state across App renders.
- Server.OneRealtimeWorker: each route call is modelled as atomic. `app.run` serves each request on its own thread, and the client's execution button is never disabled, so two overlapping `/api/realtime` toggles could both see an empty slot and start two workers, one of them no longer reachable from the slot; overlapping requests are not modelled.
- Server.Toggle: "at most one worker stays live" rests on the same one-request-at-a-time assumption as `Server.OneRealtimeWorker`. The `mensaje` sent by the client is ignored by the server and is not part of its model; whether a first import succeeds is one outcome per request.
- RealtimeSession.ClearHandlers: whether the device object has `emg_handlers` is a parameter; the Myo class is not part of this model.
- RealtimeSession.Attempted: setup failures (handler registration, LEDs, vibration) are one stage, `AtSetup`.

## Findings

| source | as written | input that shows it | evidently intended | confidence | as-written member | corrected member |
|---|---|---|---|---|---|---|
| project/LSTMnn.py:146-153 | `X_aug = np.array(X_aug)` of an empty list is one-dimensional, and `np.concatenate([X, X_aug])` with the three-dimensional `X` raises | a training split with no window of class 0, 2 or 3 (for instance every label 1), or `times_per_sample = 0` | the originals returned unchanged with no copies appended | not executed | Augmentation.AugmentSpecificClassesAsWritten (shown by Augmentation.AsWrittenCounterexample and Augmentation.AsWrittenFailsWithoutTargets) | Augmentation.AugmentSpecificClasses (proved by Augmentation.AugmentShape) |

=== FILE: app.dfy ===
/** The state machine of the web client, project/src/App.tsx: the six-step
    calibration wizard that drives /api/collect-data, the menu that unlocks
    training and execution, the training, execution and reconnect buttons,
    and the power switch with its confirmation. Every fetch is replaced by
    what it resolved to, and the asynchronous handlers by their effect
    once the request has settled. */
module App {
  import opened Basics
  import opened PyJson
  import Server
  import Probe
  import CaptureJob

  datatype CalibrationStep = CalibrationStep(id: nat, movement: string, description: string, completed: bool)

  /** calibrationSteps: one entry per gesture label of the dataset. */
  const CalibrationSteps: seq<CalibrationStep> := [
    CalibrationStep(0, "Mano Abierta", "Mantén la mano completamente abierta", false),
    CalibrationStep(1, "Mano Cerrada", "Cierra el puño completamente", false),
    CalibrationStep(2, "Punzada Fina", "Realiza un agarre de precisión", false),
    CalibrationStep(3, "Punzada Gruesa", "Realiza un agarre fuerte", false),
    CalibrationStep(4, "Mano Adentro", "Dobla tu muñeca hacia tu antebrazo", false),
    CalibrationStep(5, "Mano Afuera", "Dobla tu muñeca hacia la parte exterior del brazo", false)
  ]

  /** calibrationSteps.length - 1. */
  const LastStep: nat := |CalibrationSteps| - 1

  /** There are six steps, each with the id of its position, none completed;
      the last one is step 5, the server's last label. */
  lemma StepsIndexed()
    ensures |CalibrationSteps| == 6 && LastStep == 5 && LastStep + 1 == CaptureJob.ProjectLabels
    ensures forall i :: 0 <= i < |CalibrationSteps| ==> CalibrationSteps[i].id == i && !CalibrationSteps[i].completed
  {
  }

  datatype Section = Menu | CalibrationView | TrainingView | ExecutionView

  datatype Progress = Progress(calibrationCompleted: bool, trainingCompleted: bool, modelReady: bool)

  /** The App component's state. */
  datatype Ui = Ui(section: Section, currentStep: nat, isCollecting: bool, isTraining: bool,
                   progress: Progress, isRunning: bool, isConnected: Option<bool>)

  /** What a fetch settled to: a response with its status and whether its
      body parsed as JSON, or a rejected promise. */
  datatype Fetch = Responded(status: int, json: bool) | NetworkError

  /** response.ok and a body that response.json() could read. */
  predicate Succeeded(f: Fetch) {
    f.Responded? && 200 <= f.status <= 299 && f.json
  }

  /** The server's answer as the client sees it: every reply the routes
      build is JSON; Flask's page for an uncaught exception is not. */
  function Answered(resp: Server.Response): (f: Fetch)
    ensures f.Responded? && f.status == resp.status
    ensures f.json <==> !resp.reply.Unhandled?
  {
    Responded(resp.status, !resp.reply.Unhandled?)
  }

  /** The requests the client sends. */
  datatype Request = CollectRequest(body: Json) | TrainRequest | RealtimeRequest(body: Json) | ReconnectRequest

  /** The reply of /api/check: whether MyoDataset.csv and modelo_LSTM.keras exist. */
  datatype CheckReply = CheckReply(dataset: bool, model: bool)

  /** The state once the mount-time /api/check has settled (None: it failed). */
  function Mounted(check: Option<CheckReply>): (ui: Ui)
    ensures ui.section == Menu && ui.currentStep == 0 && !ui.isCollecting && !ui.isRunning && ui.isConnected.None?
    ensures check.None? ==> ui.progress == Progress(false, false, false)
    ensures check.Some? ==> ui.progress == Progress(check.value.dataset, check.value.model, check.value.model)
  {
    var progress := if check.None? then Progress(false, false, false)
      else Progress(check.value.dataset, check.value.model, check.value.model);
    Ui(Menu, 0, false, false, progress, false, None)
  }

  /** startCalibration: post the current step; on success advance, or after
      the last step mark calibration complete and open training; a failure
      of any kind only clears isCollecting. */
  function StartCalibration(ui: Ui, reply: Fetch): (r: (Ui, Request))
    ensures r.1 == CollectRequest(Server.StepBody(ui.currentStep))
    ensures !r.0.isCollecting
    ensures !Succeeded(reply) ==> r.0 == ui.(isCollecting := false)
    ensures Succeeded(reply) && ui.currentStep < LastStep ==>
      r.0 == ui.(isCollecting := false, currentStep := ui.currentStep + 1)
    ensures Succeeded(reply) && ui.currentStep >= LastStep ==>
      r.0 == ui.(isCollecting := false, section := TrainingView, progress := ui.progress.(calibrationCompleted := true))
  {
    var collecting := ui.(isCollecting := true);
    var sent := CollectRequest(Server.StepBody(collecting.currentStep));
    var settled := collecting.(isCollecting := false);
    if !Succeeded(reply) then (settled, sent)
    else if settled.currentStep < LastStep then (settled.(currentStep := settled.currentStep + 1), sent)
    else (settled.(progress := settled.progress.(calibrationCompleted := true), section := TrainingView), sent)
  }

  /** startTraining: a successful training marks the model trained and ready. */
  function StartTraining(ui: Ui, reply: Fetch): (r: Ui)
    ensures !r.isTraining
    ensures Succeeded(reply) ==> r == ui.(isTraining := false, progress := Progress(ui.progress.calibrationCompleted, true, true))
    ensures !Succeeded(reply) ==> r == ui.(isTraining := false)
  {
    var busy := ui.(isTraining := true);
    var trained := if Succeeded(reply) then busy.(progress := busy.progress.(trainingCompleted := true, modelReady := true)) else busy;
    trained.(isTraining := false)
  }

  /** The mensaje field of the realtime request. */
  function Mensaje(running: bool): (m: string)
    ensures m == (if running then "Pausar" else "Iniciar ejecución")
  {
    if running then "Pausar" else "Iniciar ejecución"
  }

  /** handleExecutionToggle: isRunning flips once the reply's JSON is read,
      whatever its status; a rejected fetch or an unreadable body changes nothing. */
  function ExecutionToggle(ui: Ui, reply: Fetch): (r: (Ui, Request))
    ensures r.1 == RealtimeRequest(JObject([("mensaje", JString(Mensaje(ui.isRunning)))]))
    ensures r.0.isRunning != ui.isRunning <==> reply.Responded? && reply.json
    ensures r.0 == ui.(isRunning := r.0.isRunning)
  {
    var sent := RealtimeRequest(JObject([("mensaje", JString(Mensaje(ui.isRunning)))]));
    if reply.Responded? && reply.json then (ui.(isRunning := !ui.isRunning), sent) else (ui, sent)
  }

  /** handleReconnect: the indicator turns green on success and red on any failure. */
  function HandleReconnect(ui: Ui, reply: Fetch): (r: Ui)
    ensures r.isConnected == Some(Succeeded(reply))
    ensures r == ui.(isConnected := r.isConnected)
  {
    ui.(isConnected := Some(Succeeded(reply)))
  }

  /** What the user does: the menu buttons, a back arrow, and the buttons
      of each section together with how their request settled. */
  datatype Event =
    | OpenCalibration
    | OpenTraining
    | OpenExecution
    | Back
    | Calibrate(reply: Fetch)
    | Train(reply: Fetch)
    | ToggleExecution(reply: Fetch)
    | Reconnect(reply: Fetch)

  /** One event; a button that is not on screen (or is disabled) does nothing. */
  function Step(ui: Ui, e: Event): (r: (Ui, Option<Request>))
    ensures r.1.Some? ==> (r.1.value.CollectRequest? <==> e.Calibrate?)
    ensures ui.section == Menu && e == OpenTraining ==>
      r.0.section == (if ui.progress.calibrationCompleted then TrainingView else Menu)
    ensures ui.section == Menu && e == OpenExecution ==>
      r.0.section == (if ui.progress.modelReady then ExecutionView else Menu)
    ensures ui.section != Menu && e == Back ==> r.0 == ui.(section := Menu)
  {
    match e
    case OpenCalibration => (if ui.section == Menu then ui.(section := CalibrationView) else ui, None)
    case OpenTraining =>
      (if ui.section == Menu && ui.progress.calibrationCompleted then ui.(section := TrainingView) else ui, None)
    case OpenExecution =>
      (if ui.section == Menu && ui.progress.modelReady then ui.(section := ExecutionView) else ui, None)
    case Back => (if ui.section != Menu then ui.(section := Menu) else ui, None)
    case Calibrate(reply) =>
      if ui.section == CalibrationView && !ui.isCollecting then
        var c := StartCalibration(ui, reply);
        (c.0, Some(c.1))
      else (ui, None)
    case Train(reply) =>
      if ui.section == TrainingView && !ui.isTraining then (StartTraining(ui, reply), Some(TrainRequest)) else (ui, None)
    case ToggleExecution(reply) =>
      if ui.section == ExecutionView then
        var t := ExecutionToggle(ui, reply);
        (t.0, Some(t.1))
      else (ui, None)
    case Reconnect(reply) =>
      if ui.section == Menu then (HandleReconnect(ui, reply), Some(ReconnectRequest)) else (ui, None)
  }

  function Run(ui: Ui, es: seq<Event>): (r: (Ui, seq<Request>))
    decreases |es|
  {
    if es == [] then (ui, [])
    else
      var s := Step(ui, es[0]);
      var rest := Run(s.0, es[1..]);
      (rest.0, OptSeq(s.1) + rest.1)
  }

  function OptSeq<T>(o: Option<T>): (r: seq<T>)
    ensures o.Some? ==> r == [o.value]
    ensures o.None? ==> r == []
  {
    if o.Some? then [o.value] else []
  }

  lemma {:induction false} RunSplit(ui: Ui, a: seq<Event>, b: seq<Event>)
    ensures Run(ui, a + b).0 == Run(Run(ui, a).0, b).0
    ensures Run(ui, a + b).1 == Run(ui, a).1 + Run(Run(ui, a).0, b).1
    decreases |a|
  {
    if a == [] {
      assert a + b == b;
    } else {
      assert (a + b)[0] == a[0] && (a + b)[1..] == a[1..] + b;
      var s := Step(ui, a[0]);
      RunSplit(s.0, a[1..], b);
      ConcatAssoc(OptSeq(s.1), Run(s.0, a[1..]).1, Run(Run(s.0, a[1..]).0, b).1);
    }
  }

  /** What holds between events: the step indexes calibrationSteps, no
      request is pending, training and readiness go together, and the
      training and execution sections are only open once unlocked. */
  ghost predicate Valid(ui: Ui) {
    && ui.currentStep <= LastStep
    && !ui.isCollecting && !ui.isTraining
    && ui.progress.trainingCompleted == ui.progress.modelReady
    && (ui.section == TrainingView ==> ui.progress.calibrationCompleted)
    && (ui.section == ExecutionView ==> ui.progress.modelReady)
  }

  lemma MountedValid(check: Option<CheckReply>)
    ensures Valid(Mounted(check))
  {
  }

  /** Progress only grows: the step never goes back and an unlocked section stays unlocked. */
  ghost predicate Advances(ui: Ui, next: Ui) {
    && ui.currentStep <= next.currentStep
    && (ui.progress.calibrationCompleted ==> next.progress.calibrationCompleted)
    && (ui.progress.modelReady ==> next.progress.modelReady)
  }

  lemma StepKeepsValid(ui: Ui, e: Event)
    requires Valid(ui)
    ensures Valid(Step(ui, e).0) && Advances(ui, Step(ui, e).0)
  {
  }

  /** Over any sequence of events the invariant holds and progress never goes back. */
  lemma {:induction false} RunKeepsValid(ui: Ui, es: seq<Event>)
    requires Valid(ui)
    ensures Valid(Run(ui, es).0) && Advances(ui, Run(ui, es).0)
    decreases |es|
  {
    if es != [] {
      StepKeepsValid(ui, es[0]);
      RunKeepsValid(Step(ui, es[0]).0, es[1..]);
    }
  }

  /** Every collect request of any session from a valid state names a step
      between the current one and the last: the wizard never goes back. */
  lemma {:induction false} RequestsNeverGoBack(ui: Ui, es: seq<Event>)
    requires Valid(ui)
    ensures forall k :: 0 <= k < |Run(ui, es).1| && Run(ui, es).1[k].CollectRequest? ==>
      exists j :: ui.currentStep <= j <= LastStep && Run(ui, es).1[k].body == Server.StepBody(j)
    decreases |es|
  {
    if es != [] {
      var s := Step(ui, es[0]);
      StepKeepsValid(ui, es[0]);
      RequestsNeverGoBack(s.0, es[1..]);
      var rest := Run(s.0, es[1..]).1;
      var all := Run(ui, es).1;
      assert all == OptSeq(s.1) + rest;
      forall k | 0 <= k < |all| && all[k].CollectRequest?
        ensures exists j :: ui.currentStep <= j <= LastStep && all[k].body == Server.StepBody(j)
      {
        if k < |OptSeq(s.1)| {
          assert all[k] == s.1.value;
          assert all[k].body == Server.StepBody(ui.currentStep);
        } else {
          assert all[k] == rest[k - |OptSeq(s.1)|];
        }
      }
    }
  }

  /** The number of successful replies. */
  function Successes(rs: seq<Fetch>): (n: nat)
    ensures n <= |rs|
    decreases |rs|
  {
    if rs == [] then 0 else (if Succeeded(rs[0]) then 1 else 0) + Successes(rs[1..])
  }

  /** Pressing the calibration button once per reply. */
  function Calibrates(rs: seq<Fetch>): (es: seq<Event>)
    ensures |es| == |rs| && forall k :: 0 <= k < |rs| ==> es[k] == Calibrate(rs[k])
  {
    seq(|rs|, k requires 0 <= k < |rs| => Calibrate(rs[k]))
  }

  /** Before the last step succeeds, the wizard stays open, sits at the start
      step plus the number of successes so far, and request k carries exactly
      that step: a failed step is sent again. */
  lemma CalibrationProgress(ui: Ui, rs: seq<Fetch>)
    requires Valid(ui) && ui.section == CalibrationView
    requires ui.currentStep + Successes(rs) <= LastStep
    ensures Run(ui, Calibrates(rs)).0 == ui.(currentStep := ui.currentStep + Successes(rs))
    ensures |Run(ui, Calibrates(rs)).1| == |rs|
    ensures forall k :: 0 <= k < |rs| ==>
      Run(ui, Calibrates(rs)).1[k] == CollectRequest(Server.StepBody(ui.currentStep + Successes(rs[..k])))
  {
    CalibrationRun(ui, rs);
    StepRequestsAt(ui.currentStep, rs);
  }

  /** The collect requests a calibration run sends from step `start`: one per
      reply, and the step moves on only after a success. */
  function StepRequests(start: nat, rs: seq<Fetch>): (r: seq<Request>)
    ensures |r| == |rs|
    decreases |rs|
  {
    if rs == [] then []
    else [CollectRequest(Server.StepBody(start))] + StepRequests(start + (if Succeeded(rs[0]) then 1 else 0), rs[1..])
  }

  /** A calibration run ends at the start step plus the successes and sends
      exactly `StepRequests`. */
  lemma {:induction false} CalibrationRun(ui: Ui, rs: seq<Fetch>)
    requires Valid(ui) && ui.section == CalibrationView
    requires ui.currentStep + Successes(rs) <= LastStep
    ensures Run(ui, Calibrates(rs)) == (ui.(currentStep := ui.currentStep + Successes(rs)), StepRequests(ui.currentStep, rs))
    decreases |rs|
  {
    if |rs| > 0 {
      var d := if Succeeded(rs[0]) then 1 else 0;
      assert Successes(rs) == d + Successes(rs[1..]);
      CalibrationHead(ui, rs);
      CalibrationRun(ui.(currentStep := ui.currentStep + d), rs[1..]);
    }
  }

  /** Request k of `StepRequests` names the start step plus the successes
      before reply k. */
  lemma {:induction false} StepRequestsAt(start: nat, rs: seq<Fetch>)
    ensures forall k :: 0 <= k < |rs| ==>
      StepRequests(start, rs)[k] == CollectRequest(Server.StepBody(start + Successes(rs[..k])))
    decreases |rs|
  {
    if |rs| > 0 {
      var d := if Succeeded(rs[0]) then 1 else 0;
      StepRequestsAt(start + d, rs[1..]);
      RequestsShift(start, rs, StepRequests(start + d, rs[1..]));
    }
  }

  /** The first press of a calibration run: it sends the current step and
      moves on by one on success; the rest of the run starts from there. */
  lemma CalibrationHead(ui: Ui, rs: seq<Fetch>)
    requires Valid(ui) && ui.section == CalibrationView && |rs| > 0
    requires ui.currentStep + (if Succeeded(rs[0]) then 1 else 0) <= LastStep
    ensures var next := ui.(currentStep := ui.currentStep + (if Succeeded(rs[0]) then 1 else 0));
      var rest := Run(next, Calibrates(rs[1..]));
      && Valid(next) && next.section == CalibrationView
      && Run(ui, Calibrates(rs)) == (rest.0, [CollectRequest(Server.StepBody(ui.currentStep))] + rest.1)
  {
    var es := Calibrates(rs);
    CalibratesCons(rs);
    var next := ui.(currentStep := ui.currentStep + (if Succeeded(rs[0]) then 1 else 0));
    CalibrateStepAt(ui, rs[0]);
    assert Step(ui, es[0]) == (next, Some(CollectRequest(Server.StepBody(ui.currentStep))));
    RunCons(ui, es);
  }

  /** The requests of a calibration run: the first names the current step,
      the later ones the step reached after the first reply. */
  lemma RequestsShift(start: nat, rs: seq<Fetch>, rest: seq<Request>)
    requires |rs| > 0 && |rest| == |rs| - 1
    requires forall k :: 0 <= k < |rest| ==>
      rest[k] == CollectRequest(Server.StepBody(start + (if Succeeded(rs[0]) then 1 else 0) + Successes(rs[1..][..k])))
    ensures var all := [CollectRequest(Server.StepBody(start))] + rest;
      forall k :: 0 <= k < |rs| ==> all[k] == CollectRequest(Server.StepBody(start + Successes(rs[..k])))
  {
    var all := [CollectRequest(Server.StepBody(start))] + rest;
    forall k | 0 <= k < |rs|
      ensures all[k] == CollectRequest(Server.StepBody(start + Successes(rs[..k])))
    {
      if k == 0 {
        assert |rs[..0]| == 0;
      } else {
        SuccessesCons(rs, k);
        assert all[k] == rest[k - 1];
      }
    }
  }

  /** One press of the calibration button while the wizard is open. */
  lemma CalibrateStepAt(ui: Ui, r: Fetch)
    requires Valid(ui) && ui.section == CalibrationView
    requires ui.currentStep + (if Succeeded(r) then 1 else 0) <= LastStep
    ensures Step(ui, Calibrate(r)) ==
      (ui.(currentStep := ui.currentStep + (if Succeeded(r) then 1 else 0)), Some(CollectRequest(Server.StepBody(ui.currentStep))))
  {
  }

  lemma CalibratesCons(rs: seq<Fetch>)
    requires |rs| > 0
    ensures Calibrates(rs)[0] == Calibrate(rs[0]) && Calibrates(rs)[1..] == Calibrates(rs[1..])
  {
  }

  lemma SuccessesCons(rs: seq<Fetch>, k: nat)
    requires 0 < k <= |rs|
    ensures Successes(rs[..k]) == (if Succeeded(rs[0]) then 1 else 0) + Successes(rs[1..][..k - 1])
  {
    assert rs[..k][0] == rs[0] && rs[..k][1..] == rs[1..][..k - 1];
  }

  /** Run on a non-empty sequence of events: the first step, then the rest. */
  lemma RunCons(ui: Ui, es: seq<Event>)
    requires Valid(ui) && |es| > 0
    ensures Valid(Step(ui, es[0]).0)
    ensures Run(ui, es) == (Run(Step(ui, es[0]).0, es[1..]).0, OptSeq(Step(ui, es[0]).1) + Run(Step(ui, es[0]).0, es[1..]).1)
  {
    StepKeepsValid(ui, es[0]);
  }

  lemma {:induction false} AllSucceed(rs: seq<Fetch>)
    requires forall k :: 0 <= k < |rs| ==> Succeeded(rs[k])
    ensures Successes(rs) == |rs|
    decreases |rs|
  {
    if rs != [] {
      AllSucceed(rs[1..]);
    }
  }

  /** Six successful captures from step 0 send steps 0, 1, 2, 3, 4, 5 in
      order, then mark calibration complete and open the training section. */
  lemma FullCalibration(ui: Ui, rs: seq<Fetch>)
    requires Valid(ui) && ui.section == CalibrationView && ui.currentStep == 0
    requires |rs| == 6 && forall k :: 0 <= k < |rs| ==> Succeeded(rs[k])
    ensures |Run(ui, Calibrates(rs)).1| == 6
    ensures forall k :: 0 <= k < 6 ==> Run(ui, Calibrates(rs)).1[k] == CollectRequest(Server.StepBody(k))
    ensures var done := Run(ui, Calibrates(rs)).0;
      done.section == TrainingView && done.progress.calibrationCompleted && done.currentStep == LastStep
  {
    var first := rs[..5];
    AllSucceed(first);
    CalibrationProgress(ui, first);
    forall k | 0 <= k < 5
      ensures Successes(first[..k]) == k
    {
      AllSucceed(first[..k]);
    }
    assert rs == first + [rs[5]];
    assert Calibrates(rs) == Calibrates(first) + Calibrates([rs[5]]);
    RunSplit(ui, Calibrates(first), Calibrates([rs[5]]));
    var mid := Run(ui, Calibrates(first)).0;
    assert mid.currentStep == LastStep;
    assert Calibrates([rs[5]]) == [Calibrate(rs[5])];
    assert Calibrates([rs[5]])[1..] == [];
  }

  /** Label 0 makes the server recreate the dataset; any other step only appends. */
  lemma StepBodyResets(j: nat, outcome: nat -> Probe.Attempt)
    requires j <= LastStep
    ensures Server.StepValid(Server.StepBody(j)) && Server.StepOf(Server.StepBody(j)) == j
    ensures Server.ResetDataset in Server.CollectData(Server.StepBody(j), outcome).actions <==> j == 0
  {
    assert Get(Server.StepBody(j).fields, "step") == Some(JInt(j));
  }

  /** A calibration from step 0 resets the server's dataset with request k
      exactly when no earlier capture succeeded: failed first attempts reset
      again, and once step 0 succeeded the dataset is never reset. */
  lemma ResetOnlyBeforeFirstSuccess(ui: Ui, rs: seq<Fetch>, k: nat, outcome: nat -> Probe.Attempt)
    requires Valid(ui) && ui.section == CalibrationView && ui.currentStep == 0
    requires Successes(rs) <= LastStep && k < |rs|
    ensures |Run(ui, Calibrates(rs)).1| == |rs| && Run(ui, Calibrates(rs)).1[k].CollectRequest?
    ensures Server.ResetDataset in Server.CollectData(Run(ui, Calibrates(rs)).1[k].body, outcome).actions
      <==> Successes(rs[..k]) == 0
  {
    CalibrationProgress(ui, rs);
    SuccessesPrefix(rs, k);
    StepBodyResets(Successes(rs[..k]), outcome);
  }

  lemma {:induction false} SuccessesPrefix(rs: seq<Fetch>, k: nat)
    requires k <= |rs|
    ensures Successes(rs[..k]) <= Successes(rs)
    decreases k
  {
    if k > 0 {
      assert rs[..k][0] == rs[0] && rs[..k][1..] == rs[1..][..k - 1];
      SuccessesPrefix(rs[1..], k - 1);
    }
  }

  /** A capture request for a valid step is answered 200, and so advances
      the wizard, exactly when one of the server's three attempts ended in time. */
  lemma ServerAnswerAdvances(ui: Ui, outcome: nat -> Probe.Attempt)
    requires Valid(ui) && ui.section == CalibrationView
    ensures var reply := Answered(Server.CollectData(Server.StepBody(ui.currentStep), outcome).response);
      (Step(ui, Calibrate(reply)).0.currentStep > ui.currentStep || Step(ui, Calibrate(reply)).0.section == TrainingView)
        <==> exists j :: Server.FirstExitAt(0, j, outcome)
  {
    var body := Server.StepBody(ui.currentStep);
    StepBodyResets(ui.currentStep, outcome);
    Server.CollectDataRetries(body, outcome);
    var resp := Server.CollectData(body, outcome).response;
    assert resp.status in {200, 500};
    assert Succeeded(Answered(resp)) <==> resp.status == 200;
    var next := Step(ui, Calibrate(Answered(resp))).0;
    if !Succeeded(Answered(resp)) {
      assert next == ui;
    }
  }

  /** Whether the server's realtime slot holds a live worker. */
  ghost predicate SlotLive(rt: Server.Realtime) {
    |rt.procs| > 0 && rt.procs[|rt.procs| - 1]
  }

  /** The button follows the server while nothing else happens: a client in
      step with the server's slot stays in step after a toggle. */
  lemma ToggleFollowsServer(ui: Ui, rt: Server.Realtime, imports: bool)
    requires ui.section == ExecutionView && ui.isRunning == SlotLive(rt)
    ensures var t := Server.Toggle(rt, imports);
      Step(ui, ToggleExecution(Answered(t.1))).0.isRunning == SlotLive(t.0)
  {
  }

  /** The client never asks the server for its state: after the worker dies
      on its own, the button still shows Pausar, and pressing it starts a new
      worker while the button switches to Iniciar Ejecución. */
  lemma CrashedWorkerInvertsButton(ui: Ui, rt: Server.Realtime, imports: bool)
    requires ui.section == ExecutionView && ui.isRunning && SlotLive(rt)
    requires Server.StartedAfterImport(rt)
    ensures var dead := Server.Dies(rt, |rt.procs| - 1);
      var t := Server.Toggle(dead, imports);
      && !SlotLive(dead)
      && Mensaje(ui.isRunning) == "Pausar"
      && t.1.reply == Server.RealtimeStarted && SlotLive(t.0)
      && !Step(ui, ToggleExecution(Answered(t.1))).0.isRunning
  {
    var dead := Server.Dies(rt, |rt.procs| - 1);
    assert !dead.procs[|dead.procs| - 1];
  }

  /** The connection dot is green exactly when the server's probe reported a connection. */
  lemma ReconnectIndicator(ui: Ui, probe: Option<bool>)
    requires ui.section == Menu
    ensures Step(ui, Reconnect(Answered(Server.Reconnect(probe)))).0.isConnected == Some(probe == Some(true))
  {
  }

  /** A successful training unlocks execution; a failed one leaves it as it was. */
  lemma TrainingUnlocksExecution(ui: Ui, m: Server.Metadata, t: Server.TrainOutcome)
    requires Valid(ui) && ui.section == TrainingView
    ensures var es := [Train(Answered(Server.TrainModel(m, t).1)), Back, OpenExecution];
      Run(ui, es).0.section == ExecutionView <==> (t.Trained? && t.success) || ui.progress.modelReady
  {
    var es := [Train(Answered(Server.TrainModel(m, t).1)), Back, OpenExecution];
    assert es[1..] == [Back, OpenExecution];
    assert es[1..][1..] == [OpenExecution];
    assert es[1..][1..][1..] == [];
    var reply := Answered(Server.TrainModel(m, t).1);
    assert Succeeded(reply) <==> t.Trained? && t.success;
    var trained := Step(ui, es[0]).0;
    var menu := Step(trained, Back).0;
    assert menu == trained.(section := Menu);
    assert trained.progress.modelReady <==> (t.Trained? && t.success) || ui.progress.modelReady;
    var last := Step(menu, OpenExecution).0;
    assert Run(menu, es[1..][1..]).0 == Run(last, []).0;
    assert Run(trained, es[1..]).0 == Run(menu, es[1..][1..]).0;
    assert Run(ui, es).0 == Run(trained, es[1..]).0;
  }

  /** ToggleSwitch: whether the armband counts as on, and whether the
      confirmation is open. */
  datatype Power = Power(isActive: bool, showConfirm: bool)

  const PowerStart: Power := Power(true, false)

  datatype PowerEvent = PowerClick | PowerCancel | PowerConfirm(reply: Fetch)

  /** One event on the switch, and whether it posted /api/power-off. Clicking
      while on only opens the confirmation; clicking while off turns on at
      once; confirming turns off once the fetch resolves, whatever its
      status; the confirmation closes on every path. */
  function PowerStep(p: Power, e: PowerEvent): (r: (Power, bool))
    ensures r.1 <==> e.PowerConfirm? && p.showConfirm
    ensures e.PowerClick? && p.isActive ==> r.0 == p.(showConfirm := true)
    ensures e.PowerClick? && !p.isActive ==> r.0 == p.(isActive := true)
    ensures !e.PowerClick? && p.showConfirm ==> !r.0.showConfirm
    ensures r.0.isActive != p.isActive ==>
      (!p.isActive && e.PowerClick?) || (p.isActive && r.1 && e.reply.Responded?)
  {
    match e
    case PowerClick => if p.isActive then (p.(showConfirm := true), false) else (p.(isActive := true), false)
    case PowerCancel => (p.(showConfirm := false), false)
    case PowerConfirm(reply) =>
      if !p.showConfirm then (p, false)
      else (Power(if reply.Responded? then false else p.isActive, false), true)
  }

  function PowerRun(p: Power, es: seq<PowerEvent>): (r: Power)
    decreases |es|
  {
    if es == [] then p else PowerRun(PowerStep(p, es[0]).0, es[1..])
  }

  /** The switch only goes off through a click that opened the confirmation
      followed by a confirmation whose request resolved. */
  lemma {:induction false} OffNeedsConfirmation(p: Power, es: seq<PowerEvent>)
    requires p.isActive && !p.showConfirm
    requires !PowerRun(p, es).isActive
    ensures exists i, j :: 0 <= i < j < |es| && es[i] == PowerClick && es[j].PowerConfirm? && es[j].reply.Responded?
    decreases |es|
  {
    if es == [] {
      assert false;
    } else {
      var q := PowerStep(p, es[0]).0;
      if es[0] == PowerClick {
        var j := FirstOff(q, es[1..]);
        assert es[j + 1] == es[1..][j];
        assert 0 < j + 1 < |es| && es[0] == PowerClick && es[j + 1].PowerConfirm? && es[j + 1].reply.Responded?;
      } else {
        assert q == p;
        OffNeedsConfirmation(q, es[1..]);
        var i, j :| 0 <= i < j < |es[1..]| && es[1..][i] == PowerClick && es[1..][j].PowerConfirm? && es[1..][j].reply.Responded?;
        assert es[i + 1] == es[1..][i] && es[j + 1] == es[1..][j];
        assert 0 <= i + 1 < j + 1 < |es| && es[i + 1] == PowerClick && es[j + 1].PowerConfirm? && es[j + 1].reply.Responded?;
      }
    }
  }

  /** Where an active switch first goes off: at a confirmation whose request resolved. */
  lemma {:induction false} FirstOff(p: Power, es: seq<PowerEvent>) returns (j: nat)
    requires p.isActive
    requires !PowerRun(p, es).isActive
    ensures j < |es| && es[j].PowerConfirm? && es[j].reply.Responded?
    decreases |es|
  {
    if es == [] {
      assert false;
    } else {
      var q := PowerStep(p, es[0]).0;
      if !q.isActive {
        j := 0;
      } else {
        var k := FirstOff(q, es[1..]);
        assert es[k + 1] == es[1..][k];
        j := k + 1;
      }
    }
  }

  /** Both branches of /api/power-off build the same reply, so what the
      switch does on confirmation does not depend on whether the armband
      was switched off: it closes the dialog and goes off either way. */
  lemma PowerOffOutcomeInvisible(poweredOff: bool)
    ensures Answered(Server.PowerOff(poweredOff)) == Answered(Server.PowerOff(!poweredOff))
    ensures PowerStep(Power(true, true), PowerConfirm(Answered(Server.PowerOff(poweredOff)))).0 == Power(false, false)
  {
  }

  /** The server answers 200 to power-off, so a confirmation always turns the switch off. */
  lemma ConfirmedPowerOff(poweredOff: bool)
    ensures var p := PowerRun(PowerStart, [PowerClick, PowerConfirm(Answered(Server.PowerOff(poweredOff)))]);
      !p.isActive && !p.showConfirm
  {
    var es := [PowerClick, PowerConfirm(Answered(Server.PowerOff(poweredOff)))];
    var asking := PowerStep(PowerStart, es[0]).0;
    assert asking == Power(true, true);
    assert PowerRun(PowerStart, es) == PowerRun(asking, es[1..]);
    assert es[1..] == [es[1]] && es[1..][1..] == [];
    assert PowerStep(asking, es[1]).0 == Power(false, false);
    assert PowerRun(asking, es[1..]) == PowerRun(Power(false, false), []);
  }
}

=== FILE: augmentation.dfy ===
/** The deterministic shape of the augmentations in project/LSTMnn.py.
    Every random draw (the segment order, the flip start, the dropout mask,
    the augmented copy itself) is a parameter; what is proved is what the
    transformation does with it. */
module Augmentation {
  import opened Basics
  import opened TrainingWindows

  /** n_segments of permute_segments. */
  const NumSegments: nat := 4

  /** Segment j of the series: rows j*L .. (j+1)*L with L = n // 4. */
  function Segment<T>(data: seq<T>, j: nat): (r: seq<T>)
    requires j < NumSegments
    ensures |r| == |data| / NumSegments
  {
    var len := |data| / NumSegments;
    data[j * len..(j + 1) * len]
  }

  /** np.random.shuffle of the four segments yields an ordering of 0..3. */
  ghost predicate IsOrder(order: seq<nat>) {
    && |order| == NumSegments
    && (forall i :: 0 <= i < |order| ==> order[i] < NumSegments)
    && (forall i, j :: 0 <= i < j < |order| ==> order[i] != order[j])
  }

  /** The segments, taken in the given order, concatenated. */
  function Concat<T>(data: seq<T>, order: seq<nat>): (r: seq<T>)
    requires forall i :: 0 <= i < |order| ==> order[i] < NumSegments
    ensures |r| == |order| * (|data| / NumSegments)
    decreases |order|
  {
    if |order| == 0 then []
    else
      MulPred(|order|, |data| / NumSegments);
      Segment(data, order[0]) + Concat(data, order[1..])
  }

  lemma MulPred(n: nat, a: nat)
    requires n > 0
    ensures n * a == a + (n - 1) * a
  {
  }

  /** Concatenating the segments of a four-element order. */
  lemma {:induction false} ConcatFour<T>(data: seq<T>, order: seq<nat>)
    requires IsOrder(order)
    ensures Concat(data, order) == Segment(data, order[0]) + Segment(data, order[1]) + Segment(data, order[2]) + Segment(data, order[3])
  {
    var o1 := order[1..];
    var o2 := o1[1..];
    var o3 := o2[1..];
    assert o1[0] == order[1] && o2[0] == order[2] && o3[0] == order[3];
    assert o3[1..] == [];
    assert Concat(data, o3) == Segment(data, order[3]);
    assert Concat(data, o2) == Segment(data, order[2]) + Segment(data, order[3]);
    assert Concat(data, o1) == Segment(data, order[1]) + (Segment(data, order[2]) + Segment(data, order[3]));
  }

  /** permute_segments with the shuffle's outcome given: the four segments in that order. */
  function PermuteSegments<T>(data: seq<T>, order: seq<nat>): (r: seq<T>)
    requires IsOrder(order)
    ensures |r| == NumSegments * (|data| / NumSegments)
    ensures r == Segment(data, order[0]) + Segment(data, order[1]) + Segment(data, order[2]) + Segment(data, order[3])
  {
    ConcatFour(data, order);
    Concat(data, order)
  }

  lemma Adjacent<T>(data: seq<T>, a: nat, b: nat, c: nat)
    requires a <= b <= c <= |data|
    ensures data[a..b] + data[b..c] == data[a..c]
  {
  }

  /** The identity order gives back the series without its n mod 4 trailing rows. */
  lemma PermuteIdentity<T>(data: seq<T>)
    ensures PermuteSegments(data, [0, 1, 2, 3]) == data[..NumSegments * (|data| / NumSegments)]
  {
    var len := |data| / NumSegments;
    assert IsOrder([0, 1, 2, 3]);
    Adjacent(data, 0, len, 2 * len);
    Adjacent(data, 0, 2 * len, 3 * len);
    Adjacent(data, 0, 3 * len, 4 * len);
    assert data[..4 * len] == data[0..4 * len];
  }

  function SegmentBag<T>(data: seq<T>, order: seq<nat>): multiset<T>
    requires forall i :: 0 <= i < |order| ==> order[i] < NumSegments
    decreases |order|
  {
    if order == [] then multiset{} else multiset(Segment(data, order[0])) + SegmentBag(data, order[1..])
  }

  lemma {:induction false} ConcatBag<T>(data: seq<T>, order: seq<nat>)
    requires forall i :: 0 <= i < |order| ==> order[i] < NumSegments
    ensures multiset(Concat(data, order)) == SegmentBag(data, order)
    decreases |order|
  {
    if order != [] {
      ConcatBag(data, order[1..]);
    }
  }

  lemma {:induction false} SegmentBagConcat<T>(data: seq<T>, a: seq<nat>, b: seq<nat>)
    requires forall i :: 0 <= i < |a| ==> a[i] < NumSegments
    requires forall i :: 0 <= i < |b| ==> b[i] < NumSegments
    ensures SegmentBag(data, a + b) == SegmentBag(data, a) + SegmentBag(data, b)
    decreases |a|
  {
    if a == [] {
      assert a + b == b;
    } else {
      assert (a + b)[0] == a[0] && (a + b)[1..] == a[1..] + b;
      SegmentBagConcat(data, a[1..], b);
    }
  }

  /** Taking the same element out of two equal bags leaves equal bags. */
  lemma RemoveMatched(a: seq<nat>, b: seq<nat>, k: nat)
    requires |a| > 0 && k < |b| && b[k] == a[0]
    requires multiset(a) == multiset(b)
    ensures multiset(a[1..]) == multiset(b[..k] + b[k + 1..])
  {
    var x := a[0];
    var rest := b[..k] + b[k + 1..];
    assert b == b[..k] + ([x] + b[k + 1..]);
    assert a == [a[0]] + a[1..];
    forall v
      ensures multiset(a[1..])[v] == multiset(rest)[v]
    {
      assert multiset(a)[v] == multiset{x}[v] + multiset(a[1..])[v];
      assert multiset(b)[v] == multiset(b[..k])[v] + multiset{x}[v] + multiset(b[k + 1..])[v];
      assert multiset(rest)[v] == multiset(b[..k])[v] + multiset(b[k + 1..])[v];
    }
    assert multiset(a[1..]) == multiset(rest);
  }

  /** Taking segment k out of an order takes its rows out of the bag. */
  lemma SegmentBagRemove<T>(data: seq<T>, b: seq<nat>, k: nat)
    requires forall i :: 0 <= i < |b| ==> b[i] < NumSegments
    requires k < |b|
    ensures var rest := b[..k] + b[k + 1..];
      && (forall i :: 0 <= i < |rest| ==> rest[i] < NumSegments)
      && SegmentBag(data, b) == multiset(Segment(data, b[k])) + SegmentBag(data, rest)
  {
    var x, pre, post := b[k], b[..k], b[k + 1..];
    assert b == pre + ([x] + post);
    SegmentBagConcat(data, pre, [x] + post);
    assert ([x] + post)[0] == x && ([x] + post)[1..] == post;
    SegmentBagConcat(data, pre, post);
  }

  /** The bag of segments depends only on which segments are taken, not their order. */
  lemma {:induction false} SegmentBagReorder<T>(data: seq<T>, a: seq<nat>, b: seq<nat>)
    requires forall i :: 0 <= i < |a| ==> a[i] < NumSegments
    requires forall i :: 0 <= i < |b| ==> b[i] < NumSegments
    requires multiset(a) == multiset(b)
    ensures SegmentBag(data, a) == SegmentBag(data, b)
    decreases |a|
  {
    if a != [] {
      assert a[0] in multiset(b);
      var k :| 0 <= k < |b| && b[k] == a[0];
      SegmentBagRemove(data, b, k);
      RemoveMatched(a, b, k);
      SegmentBagReorder(data, a[1..], b[..k] + b[k + 1..]);
    }
  }

  /** Four distinct values below four are 0, 1, 2 and 3 in some order. */
  lemma PigeonFour(a: nat, b: nat, c: nat, d: nat, v: nat)
    requires a < 4 && b < 4 && c < 4 && d < 4
    requires a != b && a != c && a != d && b != c && b != d && c != d
    requires v < 4
    ensures v == a || v == b || v == c || v == d
  {
  }

  /** Four distinct values below four hit every v below four exactly once. */
  lemma CountFour(a: nat, b: nat, c: nat, d: nat, v: nat)
    requires a < 4 && b < 4 && c < 4 && d < 4
    requires a != b && a != c && a != d && b != c && b != d && c != d
    ensures (if v == a then 1 else 0) + (if v == b then 1 else 0) + (if v == c then 1 else 0) + (if v == d then 1 else 0)
      == if v < 4 then 1 else 0
  {
    if v < 4 {
      PigeonFour(a, b, c, d, v);
    }
  }

  lemma SingletonsPermute(a: nat, b: nat, c: nat, d: nat)
    requires a < 4 && b < 4 && c < 4 && d < 4
    requires a != b && a != c && a != d && b != c && b != d && c != d
    ensures multiset{a} + multiset{b} + multiset{c} + multiset{d} == multiset{0} + multiset{1} + multiset{2} + multiset{3}
  {
    var m := multiset{a} + multiset{b} + multiset{c} + multiset{d};
    var n := multiset{0} + multiset{1} + multiset{2} + multiset{3};
    forall v: nat
      ensures m[v] == n[v]
    {
      CountFour(a, b, c, d, v);
    }
    assert m == n;
  }

  /** A shuffle of the four segment indices is a permutation of 0..3. */
  lemma OrderIsPermutationOfSegments(order: seq<nat>)
    requires IsOrder(order)
    ensures multiset(order) == multiset([0, 1, 2, 3])
  {
    var a, b, c, d := order[0], order[1], order[2], order[3];
    assert order == [a] + [b] + [c] + [d];
    assert multiset(order) == multiset{a} + multiset{b} + multiset{c} + multiset{d};
    assert [0, 1, 2, 3] == [0] + [1] + [2] + [3];
    assert multiset([0, 1, 2, 3]) == multiset{0} + multiset{1} + multiset{2} + multiset{3};
    SingletonsPermute(a, b, c, d);
  }

  /** permute_segments only reorders: its rows are, as a bag, the first 4*L rows. */
  lemma PermutePreservesRows<T>(data: seq<T>, order: seq<nat>)
    requires IsOrder(order)
    ensures multiset(PermuteSegments(data, order)) == multiset(data[..NumSegments * (|data| / NumSegments)])
  {
    OrderIsPermutationOfSegments(order);
    ConcatBag(data, order);
    ConcatBag(data, [0, 1, 2, 3]);
    SegmentBagReorder(data, order, [0, 1, 2, 3]);
    PermuteIdentity(data);
  }

  /** flip_size = int(length * 0.3). */
  function FlipSize(n: nat): (f: nat)
    ensures f <= n && (n > 0 ==> f < n)
  {
    (3 * n) / 10
  }

  /** partial_flip with the draw `start` of np.random.randint(0, length - flip_size);
      an empty series makes randint raise. */
  function PartialFlip<T>(data: seq<T>, start: nat): (r: Option<seq<T>>)
    requires |data| > 0 ==> start < |data| - FlipSize(|data|)
    ensures r.None? <==> |data| == 0
    ensures r.Some? ==> |r.value| == |data|
    ensures r.Some? ==> forall k :: 0 <= k < |data| && !(start <= k < start + FlipSize(|data|)) ==> r.value[k] == data[k]
    ensures r.Some? ==> forall k :: start <= k < start + FlipSize(|data|) ==> r.value[k] == data[2 * start + FlipSize(|data|) - 1 - k]
  {
    if |data| == 0 then None else Some(Reverse(data, start, FlipSize(|data|)))
  }

  /** The series with rows start .. start+f-1 in reverse order. */
  function Reverse<T>(data: seq<T>, start: nat, f: nat): (r: seq<T>)
    requires start + f <= |data|
    ensures |r| == |data|
    ensures forall k :: 0 <= k < |data| && !(start <= k < start + f) ==> r[k] == data[k]
    ensures forall k :: start <= k < start + f ==> r[k] == data[2 * start + f - 1 - k]
  {
    seq(|data|, k requires 0 <= k < |data| => if start <= k < start + f then data[2 * start + f - 1 - k] else data[k])
  }

  /** Flipping the same stretch twice restores the series. */
  lemma PartialFlipInvolution<T>(data: seq<T>, start: nat)
    requires |data| > 0 && start < |data| - FlipSize(|data|)
    ensures PartialFlip(PartialFlip(data, start).value, start) == Some(data)
  {
    var f := FlipSize(|data|);
    var once := PartialFlip(data, start).value;
    var twice := PartialFlip(once, start).value;
    assert |twice| == |data|;
    forall k | 0 <= k < |data|
      ensures twice[k] == data[k]
    {
      if start <= k < start + f {
        var k2 := 2 * start + f - 1 - k;
        assert start <= k2 < start + f;
        assert twice[k] == once[k2];
        assert once[k2] == data[2 * start + f - 1 - k2];
      }
    }
    assert twice == data;
  }

  /** Because randint's upper bound is exclusive, the last row is never flipped. */
  lemma PartialFlipKeepsLastRow<T>(data: seq<T>, start: nat)
    requires |data| > 0 && start < |data| - FlipSize(|data|)
    ensures PartialFlip(data, start).value[|data| - 1] == data[|data| - 1]
  {
  }

  /** temporal_dropout with its mask (True keeps the reading). */
  function TemporalDropout(data: seq<seq<real>>, mask: seq<seq<bool>>): (r: seq<seq<real>>)
    requires |mask| == |data| && forall i :: 0 <= i < |data| ==> |mask[i]| == |data[i]|
    ensures |r| == |data| && forall i :: 0 <= i < |data| ==> |r[i]| == |data[i]|
    ensures forall i, c :: 0 <= i < |data| && 0 <= c < |data[i]| ==>
      r[i][c] == (if mask[i][c] then data[i][c] else 0.0)
  {
    seq(|data|, i requires 0 <= i < |data| =>
      seq(|data[i]|, c requires 0 <= c < |data[i]| => if mask[i][c] then data[i][c] else 0.0))
  }

  /** Dropping out with the same mask twice changes nothing more, and a
      keep-everything mask is the identity. */
  lemma DropoutIdempotent(data: seq<seq<real>>, mask: seq<seq<bool>>)
    requires |mask| == |data| && forall i :: 0 <= i < |data| ==> |mask[i]| == |data[i]|
    ensures TemporalDropout(TemporalDropout(data, mask), mask) == TemporalDropout(data, mask)
    ensures (forall i, c :: 0 <= i < |data| && 0 <= c < |data[i]| ==> mask[i][c]) ==> TemporalDropout(data, mask) == data
  {
    var once := TemporalDropout(data, mask);
    var twice := TemporalDropout(once, mask);
    forall i | 0 <= i < |data|
      ensures twice[i] == once[i]
    {
    }
    if forall i, c :: 0 <= i < |data| && 0 <= c < |data[i]| ==> mask[i][c] {
      forall i | 0 <= i < |data|
        ensures once[i] == data[i]
      {
      }
    }
  }

  /** target_classes=[0, 2, 3] and times_per_sample=1 as train() calls it. */
  const TrainTargets: seq<nat> := [0, 2, 3]

  function Repeat(i: nat, times: nat): (r: seq<nat>)
    ensures |r| == times && forall k :: 0 <= k < times ==> r[k] == i
  {
    seq(times, _ => i)
  }

  /** For each pair of zip(X, y_labels) from index i on whose label is a
      target, `times` copies of its index: the sources of X_aug. */
  function Sources(labels: seq<nat>, targets: seq<nat>, times: nat, i: nat, m: nat): (r: seq<nat>)
    requires i <= m <= |labels|
    ensures forall k :: 0 <= k < |r| ==> i <= r[k] < m
    decreases m - i
  {
    if i == m then []
    else
      var here := if labels[i] in targets then Repeat(i, times) else [];
      var rest := Sources(labels, targets, times, i + 1, m);
      var r := here + rest;
      assert forall k :: 0 <= k < |r| ==> r[k] == (if k < |here| then here[k] else rest[k - |here|]);
      r
  }

  /** The sources are target samples, in increasing index order. */
  lemma {:induction false} SourcesSound(labels: seq<nat>, targets: seq<nat>, times: nat, i: nat, m: nat)
    requires i <= m <= |labels|
    ensures forall k :: 0 <= k < |Sources(labels, targets, times, i, m)| ==>
      labels[Sources(labels, targets, times, i, m)[k]] in targets
    ensures forall k, l :: 0 <= k < l < |Sources(labels, targets, times, i, m)| ==>
      Sources(labels, targets, times, i, m)[k] <= Sources(labels, targets, times, i, m)[l]
    decreases m - i
  {
    if i < m {
      SourcesSound(labels, targets, times, i + 1, m);
      var here := if labels[i] in targets then Repeat(i, times) else [];
      var rest := Sources(labels, targets, times, i + 1, m);
      var r := Sources(labels, targets, times, i, m);
      assert r == here + rest;
      forall k | 0 <= k < |r|
        ensures labels[r[k]] in targets
      {
        if k < |here| {
          assert labels[i] in targets && r[k] == i;
        } else {
          assert r[k] == rest[k - |here|];
        }
      }
      forall k, l | 0 <= k < l < |r|
        ensures r[k] <= r[l]
      {
        if l < |here| {
          assert r[k] == i == r[l];
        } else if k < |here| {
          assert r[k] == i && r[l] == rest[l - |here|];
        } else {
          assert r[k] == rest[k - |here|] && r[l] == rest[l - |here|];
        }
      }
    }
  }

  /** How many of labels[i..m] are targets. */
  function Matching(labels: seq<nat>, targets: seq<nat>, i: nat, m: nat): nat
    requires i <= m <= |labels|
    decreases m - i
  {
    if i == m then 0 else (if labels[i] in targets then 1 else 0) + Matching(labels, targets, i + 1, m)
  }

  lemma {:induction false} SourcesCount(labels: seq<nat>, targets: seq<nat>, times: nat, i: nat, m: nat)
    requires i <= m <= |labels|
    ensures |Sources(labels, targets, times, i, m)| == times * Matching(labels, targets, i, m)
    decreases m - i
  {
    if i < m {
      SourcesCount(labels, targets, times, i + 1, m);
      var here := if labels[i] in targets then Repeat(i, times) else [];
      var rest := Sources(labels, targets, times, i + 1, m);
      assert Sources(labels, targets, times, i, m) == here + rest;
      var c := Matching(labels, targets, i + 1, m);
      assert |rest| == times * c;
      if labels[i] in targets {
        MulSucc(times, c);
      }
    }
  }

  lemma MulSucc(a: nat, c: nat)
    ensures a * (c + 1) == a + a * c
  {
  }

  /** How many times x occurs in s. */
  function Occurrences(s: seq<nat>, x: nat): nat
    decreases |s|
  {
    if |s| == 0 then 0 else (if s[0] == x then 1 else 0) + Occurrences(s[1..], x)
  }

  lemma {:induction false} OccurrencesConcat(a: seq<nat>, b: seq<nat>, x: nat)
    ensures Occurrences(a + b, x) == Occurrences(a, x) + Occurrences(b, x)
    decreases |a|
  {
    if |a| > 0 {
      ConsConcat(a, b);
      OccurrencesConcat(a[1..], b, x);
    } else {
      assert a + b == b;
    }
  }

  lemma {:induction false} OccurrencesMultiplicity(s: seq<nat>, x: nat)
    ensures multiset(s)[x] == Occurrences(s, x)
    decreases |s|
  {
    if |s| > 0 {
      assert s == [s[0]] + s[1..];
      OccurrencesMultiplicity(s[1..], x);
    }
  }

  lemma {:induction false} SourcesOccurrences(labels: seq<nat>, targets: seq<nat>, times: nat, i: nat, m: nat, x: nat)
    requires i <= m <= |labels|
    ensures Occurrences(Sources(labels, targets, times, i, m), x) == (if i <= x < m && labels[x] in targets then times else 0)
    decreases m - i
  {
    if i < m {
      SourcesOccurrences(labels, targets, times, i + 1, m, x);
      var here := if labels[i] in targets then Repeat(i, times) else [];
      var rest := Sources(labels, targets, times, i + 1, m);
      OccurrencesConcat(here, rest, x);
      RepeatOccurrences(i, times, x);
      CopiesStep(labels[i] in targets, i == x, i < x < m && labels[x] in targets, times,
        Occurrences(rest, x), Occurrences(Repeat(i, times), x));
    }
  }

  lemma {:induction false} RepeatOccurrences(i: nat, times: nat, x: nat)
    ensures Occurrences(Repeat(i, times), x) == if x == i then times else 0
  {
    RepeatCount(i, times, x);
    OccurrencesMultiplicity(Repeat(i, times), x);
  }

  /** The count arithmetic of one Sources step. */
  lemma CopiesStep(hit: bool, same: bool, later: bool, times: nat, rest: nat, rep: nat)
    requires rest == (if later then times else 0)
    requires rep == (if same then times else 0)
    requires same ==> !later
    ensures (if hit then rep else 0) + rest == (if (same && hit) || later then times else 0)
  {
  }

  /** Every target sample gets exactly `times` copies. */
  lemma SourcesCopies(labels: seq<nat>, targets: seq<nat>, times: nat, i: nat, m: nat, x: nat)
    requires i <= m <= |labels|
    ensures multiset(Sources(labels, targets, times, i, m))[x] ==
      (if i <= x < m && labels[x] in targets then times else 0)
  {
    SourcesOccurrences(labels, targets, times, i, m, x);
    OccurrencesMultiplicity(Sources(labels, targets, times, i, m), x);
  }

  lemma {:induction false} RepeatCount(i: nat, times: nat, x: nat)
    ensures multiset(Repeat(i, times))[x] == if x == i then times else 0
    decreases times
  {
    if times > 0 {
      assert Repeat(i, times) == Repeat(i, times - 1) + [i];
      RepeatCount(i, times - 1, x);
    }
  }

  /** X_final and y_final (one-hot rows). */
  datatype Augmented<W> = Augmented(xs: seq<W>, ys: seq<seq<real>>)

  function OneHots(labels: seq<nat>): (r: seq<seq<real>>)
    requires forall i :: 0 <= i < |labels| ==> labels[i] < NumClasses
    ensures |r| == |labels| && forall i :: 0 <= i < |labels| ==> r[i] == OneHot(labels[i])
  {
    seq(|labels|, i requires 0 <= i < |labels| => OneHot(labels[i]))
  }

  /** The augmented copies: copy k is made from window src[k]. */
  function Copies<W>(xs: seq<W>, src: seq<nat>, augment: (nat, W) -> W): (r: seq<W>)
    requires forall k :: 0 <= k < |src| ==> src[k] < |xs|
    ensures |r| == |src| && forall k :: 0 <= k < |src| ==> r[k] == augment(k, xs[src[k]])
  {
    seq(|src|, k requires 0 <= k < |src| => augment(k, xs[src[k]]))
  }

  /** The labels of the copies: each copy keeps its source's label. */
  function CopyLabels(labels: seq<nat>, src: seq<nat>): (r: seq<nat>)
    requires forall k :: 0 <= k < |src| ==> src[k] < |labels|
    ensures |r| == |src| && forall k :: 0 <= k < |src| ==> r[k] == labels[src[k]]
  {
    seq(|src|, k requires 0 <= k < |src| => labels[src[k]])
  }

  /** The label rows: the originals' one-hot labels, then one per copy,
      each its source's label. */
  function LabelRows(labels: seq<nat>, src: seq<nat>): (r: seq<seq<real>>)
    requires forall i :: 0 <= i < |labels| ==> labels[i] < NumClasses
    requires forall k :: 0 <= k < |src| ==> src[k] < |labels|
    ensures |r| == |labels| + |src|
    ensures forall i :: 0 <= i < |labels| ==> r[i] == OneHot(labels[i])
    ensures forall k :: 0 <= k < |src| ==> r[|labels| + k] == OneHot(labels[src[k]])
  {
    var cl := CopyLabels(labels, src);
    var r := OneHots(labels) + OneHots(cl);
    forall k | 0 <= k < |src|
      ensures r[|labels| + k] == OneHot(labels[src[k]])
    {
      OneHotsAppendedAt(labels, cl, k);
    }
    r
  }

  /** augment_specific_classes with the corner case handled: the originals
      followed by the augmented copies, `augment(k, x)` being the k-th copy
      made from window x. */
  function AugmentSpecificClasses<W>(xs: seq<W>, labels: seq<nat>, targets: seq<nat>, times: nat,
                                     augment: (nat, W) -> W): (r: Augmented<W>)
    requires forall i :: 0 <= i < |labels| ==> labels[i] < NumClasses
    ensures |r.xs| >= |xs| && r.xs[..|xs|] == xs && |r.ys| >= |labels|
    ensures |r.xs| - |xs| == |r.ys| - |labels|
  {
    var m := if |xs| < |labels| then |xs| else |labels|;
    var src := Sources(labels, targets, times, 0, m);
    Augmented(xs + Copies(xs, src, augment), LabelRows(labels, src))
  }

  /** The originals come first, unchanged; then times copies per target
      sample, each carrying its source's label; with X and y_labels of
      equal length every row keeps its label. */
  lemma AugmentShape<W>(xs: seq<W>, labels: seq<nat>, targets: seq<nat>, times: nat, augment: (nat, W) -> W)
    requires forall i :: 0 <= i < |labels| ==> labels[i] < NumClasses
    requires |xs| == |labels|
    ensures var r := AugmentSpecificClasses(xs, labels, targets, times, augment);
      var src := Sources(labels, targets, times, 0, |xs|);
      && |r.xs| == |r.ys| == |xs| + times * Matching(labels, targets, 0, |xs|)
      && r.xs[..|xs|] == xs
      && (forall i :: 0 <= i < |xs| ==> r.ys[i] == OneHot(labels[i]))
      && (forall k :: 0 <= k < |src| ==>
            r.xs[|xs| + k] == augment(k, xs[src[k]]) && r.ys[|xs| + k] == OneHot(labels[src[k]])
            && labels[src[k]] in targets)
  {
    AugmentLengths(xs, labels, targets, times, augment);
    AugmentOriginals(xs, labels, targets, times, augment);
    AugmentCopies(xs, labels, targets, times, augment);
  }

  lemma AugmentLengths<W>(xs: seq<W>, labels: seq<nat>, targets: seq<nat>, times: nat, augment: (nat, W) -> W)
    requires forall i :: 0 <= i < |labels| ==> labels[i] < NumClasses
    requires |xs| == |labels|
    ensures var r := AugmentSpecificClasses(xs, labels, targets, times, augment);
      |r.xs| == |r.ys| == |xs| + times * Matching(labels, targets, 0, |xs|)
  {
    SourcesCount(labels, targets, times, 0, |xs|);
  }

  lemma AugmentOriginals<W>(xs: seq<W>, labels: seq<nat>, targets: seq<nat>, times: nat, augment: (nat, W) -> W)
    requires forall i :: 0 <= i < |labels| ==> labels[i] < NumClasses
    requires |xs| == |labels|
    ensures var r := AugmentSpecificClasses(xs, labels, targets, times, augment);
      && |r.ys| >= |xs|
      && (forall i :: 0 <= i < |xs| ==> r.ys[i] == OneHot(labels[i]))
  {
    assert AugmentSpecificClasses(xs, labels, targets, times, augment).ys
      == LabelRows(labels, Sources(labels, targets, times, 0, |xs|));
  }

  lemma AugmentCopies<W>(xs: seq<W>, labels: seq<nat>, targets: seq<nat>, times: nat, augment: (nat, W) -> W)
    requires forall i :: 0 <= i < |labels| ==> labels[i] < NumClasses
    requires |xs| == |labels|
    ensures var r := AugmentSpecificClasses(xs, labels, targets, times, augment);
      var src := Sources(labels, targets, times, 0, |xs|);
      forall k :: 0 <= k < |src| ==>
        && |xs| + k < |r.xs| && |xs| + k < |r.ys|
        && r.xs[|xs| + k] == augment(k, xs[src[k]]) && r.ys[|xs| + k] == OneHot(labels[src[k]])
        && labels[src[k]] in targets
  {
    CopiedWindows(xs, labels, targets, times, augment);
    CopiedLabels(xs, labels, targets, times, augment);
    SourcesInTargets(labels, targets, times, 0, |xs|);
  }

  lemma CopiedWindows<W>(xs: seq<W>, labels: seq<nat>, targets: seq<nat>, times: nat, augment: (nat, W) -> W)
    requires forall i :: 0 <= i < |labels| ==> labels[i] < NumClasses
    requires |xs| == |labels|
    ensures var r := AugmentSpecificClasses(xs, labels, targets, times, augment);
      var src := Sources(labels, targets, times, 0, |xs|);
      forall k :: 0 <= k < |src| ==> |xs| + k < |r.xs| && r.xs[|xs| + k] == augment(k, xs[src[k]])
  {
    var src := Sources(labels, targets, times, 0, |xs|);
    var copies := Copies(xs, src, augment);
    assert AugmentSpecificClasses(xs, labels, targets, times, augment).xs == xs + copies;
    forall k | 0 <= k < |src|
      ensures (xs + copies)[|xs| + k] == copies[k]
    {
    }
  }

  lemma CopiedLabels<W>(xs: seq<W>, labels: seq<nat>, targets: seq<nat>, times: nat, augment: (nat, W) -> W)
    requires forall i :: 0 <= i < |labels| ==> labels[i] < NumClasses
    requires |xs| == |labels|
    ensures var r := AugmentSpecificClasses(xs, labels, targets, times, augment);
      var src := Sources(labels, targets, times, 0, |xs|);
      forall k :: 0 <= k < |src| ==> |xs| + k < |r.ys| && r.ys[|xs| + k] == OneHot(labels[src[k]])
  {
  }

  lemma OneHotsAppendedAt(front: seq<nat>, back: seq<nat>, k: nat)
    requires forall i :: 0 <= i < |front| ==> front[i] < NumClasses
    requires forall i :: 0 <= i < |back| ==> back[i] < NumClasses
    requires k < |back|
    ensures (OneHots(front) + OneHots(back))[|front| + k] == OneHot(back[k])
  {
  }

  /** Every copy's source carries a target label. */
  lemma SourcesInTargets(labels: seq<nat>, targets: seq<nat>, times: nat, i: nat, m: nat)
    requires i <= m <= |labels|
    ensures forall k :: 0 <= k < |Sources(labels, targets, times, i, m)| ==>
      labels[Sources(labels, targets, times, i, m)[k]] in targets
  {
    SourcesSound(labels, targets, times, i, m);
  }

  /** augment_specific_classes as written: np.array([]) is one-dimensional,
      so np.concatenate([X, X_aug]) raises when no copy was made. */
  function AugmentSpecificClassesAsWritten<W>(xs: seq<W>, labels: seq<nat>, targets: seq<nat>, times: nat,
                                              augment: (nat, W) -> W): (r: Option<Augmented<W>>)
    requires forall i :: 0 <= i < |labels| ==> labels[i] < NumClasses
    ensures r.Some? ==> r.value == AugmentSpecificClasses(xs, labels, targets, times, augment)
    ensures r.None? ==> AugmentSpecificClasses(xs, labels, targets, times, augment).xs == xs
  {
    var m := if |xs| < |labels| then |xs| else |labels|;
    if |Sources(labels, targets, times, 0, m)| == 0 then None
    else Some(AugmentSpecificClasses(xs, labels, targets, times, augment))
  }

  /** The two agree whenever a copy is made, and the version as written
      fails exactly when no zipped sample is a target (or times is 0). */
  lemma AsWrittenFailsWithoutTargets<W>(xs: seq<W>, labels: seq<nat>, targets: seq<nat>, times: nat, augment: (nat, W) -> W)
    requires forall i :: 0 <= i < |labels| ==> labels[i] < NumClasses
    ensures AugmentSpecificClassesAsWritten(xs, labels, targets, times, augment).None? <==>
      times * Matching(labels, targets, 0, if |xs| < |labels| then |xs| else |labels|) == 0
    ensures AugmentSpecificClassesAsWritten(xs, labels, targets, times, augment).Some? ==>
      AugmentSpecificClassesAsWritten(xs, labels, targets, times, augment).value
        == AugmentSpecificClasses(xs, labels, targets, times, augment)
  {
    var m := if |xs| < |labels| then |xs| else |labels|;
    SourcesCount(labels, targets, times, 0, m);
  }

  /** A training split with only classes 1, 4 and 5 makes train() raise. */
  lemma AsWrittenCounterexample(w: seq<seq<real>>, augment: (nat, seq<seq<real>>) -> seq<seq<real>>)
    ensures AugmentSpecificClassesAsWritten([w], [1], TrainTargets, 1, augment).None?
    ensures |AugmentSpecificClasses([w], [1], TrainTargets, 1, augment).xs| == 1
  {
    assert 1 !in TrainTargets;
    assert Sources([1], TrainTargets, 1, 1, 1) == [];
  }
}

=== FILE: basics.dfy ===
/** Shared vocabulary: an optional value, numpy's max and argmax over a
    probability vector, and the "last n elements" view a bounded deque keeps. */
module Basics {

  datatype Option<T> = None | Some(value: T)

  /** The largest entry of a non-empty vector (numpy's max). */
  function Max(p: seq<real>): (m: real)
    requires |p| > 0
    ensures forall j :: 0 <= j < |p| ==> p[j] <= m
    ensures exists j :: 0 <= j < |p| && p[j] == m
  {
    if |p| == 1 then p[0]
    else
      var m := Max(p[..|p| - 1]);
      assert forall j :: 0 <= j < |p| - 1 ==> p[..|p| - 1][j] == p[j];
      if p[|p| - 1] > m then p[|p| - 1] else m
  }

  /** k is the first position that holds the maximum of p. */
  ghost predicate IsFirstMax(p: seq<real>, k: int) {
    && 0 <= k < |p|
    && (forall j :: 0 <= j < |p| ==> p[j] <= p[k])
    && (forall j :: 0 <= j < k ==> p[j] < p[k])
  }

  /** The first index of the maximum (numpy's argmax breaks ties to the left). */
  function ArgMax(p: seq<real>): (k: nat)
    requires |p| > 0
    ensures IsFirstMax(p, k)
  {
    if |p| == 1 then 0
    else
      var k := ArgMax(p[..|p| - 1]);
      assert forall j :: 0 <= j < |p| - 1 ==> p[..|p| - 1][j] == p[j];
      if p[|p| - 1] > p[k] then |p| - 1 else k
  }

  /** The arg-max and the max that the source computes separately agree. */
  lemma ArgMaxAttainsMax(p: seq<real>)
    requires |p| > 0
    ensures p[ArgMax(p)] == Max(p)
  {
  }

  /** The first maximum is unique: any index with that property is ArgMax. */
  lemma FirstMaxIsArgMax(p: seq<real>, k: int)
    requires IsFirstMax(p, k)
    ensures ArgMax(p) == k
  {
  }

  lemma ConcatAssoc<T>(a: seq<T>, b: seq<T>, c: seq<T>)
    ensures a + (b + c) == (a + b) + c
  {
  }

  lemma SplitAt<T>(xs: seq<T>, n: nat)
    requires n <= |xs|
    ensures xs[..n] + xs[n..] == xs
  {
  }

  /** Moving the head of xs onto the end of a. */
  lemma SnocConcat<T>(a: seq<T>, xs: seq<T>)
    requires |xs| > 0
    ensures (a + [xs[0]]) + xs[1..] == a + xs
  {
    assert xs == [xs[0]] + xs[1..];
  }

  /** The last element of a concatenation with a non-empty right part. */
  lemma LastOfConcat<T>(a: seq<T>, b: seq<T>)
    requires |b| > 0
    ensures (a + b)[|a + b| - 1] == b[|b| - 1]
  {
  }

  /** Head and tail of a concatenation whose left part is non-empty. */
  lemma ConsConcat<T>(xs: seq<T>, ys: seq<T>)
    requires |xs| > 0
    ensures xs + ys != [] && (xs + ys)[0] == xs[0] && (xs + ys)[1..] == xs[1..] + ys
  {
  }

  /** The last n elements of s, or all of s when it is shorter. */
  function LastN<T>(s: seq<T>, n: nat): (r: seq<T>)
    ensures |r| == if |s| <= n then |s| else n
    ensures forall i :: 0 <= i < |r| ==> r[i] == s[|s| - |r| + i]
  {
    if |s| <= n then s else s[|s| - n..]
  }

  /** Trimming to the last n and then extending is the same as trimming at the end. */
  lemma LastNAbsorbs<T>(a: seq<T>, b: seq<T>, n: nat)
    ensures LastN(LastN(a, n) + b, n) == LastN(a + b, n)
  {
    if |a| <= n {
      assert LastN(a, n) == a;
    } else {
      var t := LastN(a, n);
      assert t == a[|a| - n..];
      var l := LastN(t + b, n);
      var r := LastN(a + b, n);
      assert |l| == n == |r|;
      forall i | 0 <= i < n
        ensures l[i] == r[i]
      {
        if |b| + i < n {
          assert l[i] == t[|b| + i];
          assert r[i] == a[|a| - n + |b| + i];
        } else {
          assert l[i] == b[|b| + i - n];
          assert r[i] == b[|b| + i - n];
        }
      }
      assert l == r;
    }
  }
}

=== FILE: capture_job.dfy ===
/** One capture job, data_worker in the three data_collector.py files, and
    the per-label driver loops that run one job after another. The device
    is replaced by what each pump delivered (or that it raised) and the
    wall clock by the elapsed time read before each pump. */
module CaptureJob {
  import opened Basics
  import opened EmgWindow
  import opened Dataset

  /** Time box of one job in the collectors' drivers. */
  const CaptureSeconds: real := 10.0
  /** prediccion_etiquetas names labels 0..5 in the project and V2 collectors. */
  const ProjectLabels: nat := 6
  /** and labels 0..3 in the V1 collector. */
  const V1Labels: nat := 4

  /** What one m.run() did: the EMG samples whose handler calls it made, or an exception. */
  datatype Pump = Delivered(samples: seq<Sample>) | PumpRaised

  /** One loop iteration: the elapsed time checked, and the pump that follows if still in time. */
  datatype Tick = Tick(elapsed: real, pump: Pump)

  /** The device: connect raised, or the sequence of iterations it goes through. */
  datatype JobFeed = NoDevice | Device(ticks: seq<Tick>)

  /** How a job ends: flushed with its records after `pumps` pumps, crashed
      (nothing is written), or still looping when the clock readings run out. */
  datatype JobEnd = Flushed(records: seq<Row>, pumps: nat) | Crashed(pumps: nat) | Running

  /** The collection loop from some iteration on, with the records gathered so far. */
  function Collect(seconds: real, tag: int, ticks: seq<Tick>, acc: seq<Row>, pumps: nat): JobEnd
    decreases |ticks|
  {
    if ticks == [] then Running
    else if ticks[0].elapsed < seconds then
      match ticks[0].pump
      case PumpRaised => Crashed(pumps)
      case Delivered(ss) => Collect(seconds, tag, ticks[1..], acc + TagAll(ss, tag), pumps + 1)
    else Flushed(acc, pumps)
  }

  /** data_worker as a function: connect, look the label up in the
      dictionary (KeyError outside it), then collect. */
  function Job(seconds: real, tag: int, known: nat, feed: JobFeed): JobEnd {
    match feed
    case NoDevice => Crashed(0)
    case Device(ticks) => if 0 <= tag < known then Collect(seconds, tag, ticks, [], 0) else Crashed(0)
  }

  /** data_worker with its `while collect` loop; the handler appends one record per sample. */
  method DataWorker(seconds: real, tag: int, known: nat, feed: JobFeed) returns (end: JobEnd)
    ensures end == Job(seconds, tag, known, feed)
  {
    if feed.NoDevice? || !(0 <= tag < known) {
      return Crashed(0);
    }
    var ticks := feed.ticks;
    var myoData: seq<Row> := [];
    var i := 0;
    var collect := true;
    end := Running;
    while collect && i < |ticks|
      invariant 0 <= i <= |ticks|
      invariant collect ==> Collect(seconds, tag, ticks[i..], myoData, i) == Job(seconds, tag, known, feed)
      invariant collect ==> end == Running
      invariant !collect ==> end == Job(seconds, tag, known, feed)
      decreases |ticks| - i, collect
    {
      assert ticks[i..][0] == ticks[i] && ticks[i..][1..] == ticks[i + 1..];
      if ticks[i].elapsed < seconds {
        match ticks[i].pump
        case PumpRaised =>
          end := Crashed(i);
          collect := false;
        case Delivered(ss) =>
          var k := 0;
          var before := myoData;
          while k < |ss|
            invariant 0 <= k <= |ss|
            invariant myoData == before + TagAll(ss[..k], tag)
          {
            assert ss[..k + 1] == ss[..k] + [ss[k]];
            TagAllConcat(ss[..k], [ss[k]], tag);
            ConcatAssoc(before, TagAll(ss[..k], tag), [Tag(ss[k], tag)]);
            myoData := myoData + [Tag(ss[k], tag)];
            k := k + 1;
          }
          assert ss[..k] == ss;
          i := i + 1;
      } else {
        end := Flushed(myoData, i);
        collect := false;
      }
    }
    if collect {
      assert ticks[i..] == [];
    }
  }

  /** The samples delivered by a run of pumps, in order. */
  function Gathered(ts: seq<Tick>): seq<Sample>
    decreases |ts|
  {
    if ts == [] then []
    else (if ts[0].pump.Delivered? then ts[0].pump.samples else []) + Gathered(ts[1..])
  }

  /** n is the first iteration whose clock check finds the time box used up. */
  ghost predicate ExpiresFirstAt(ticks: seq<Tick>, seconds: real, n: nat) {
    && n < |ticks|
    && ticks[n].elapsed >= seconds
    && forall j :: 0 <= j < n ==> ticks[j].elapsed < seconds
  }

  ghost predicate AllDelivered(ts: seq<Tick>) {
    forall j :: 0 <= j < |ts| ==> ts[j].pump.Delivered?
  }

  lemma {:induction false} GatheredCons(ts: seq<Tick>, k: nat)
    requires 0 < k <= |ts|
    ensures Gathered(ts[..k]) == (if ts[0].pump.Delivered? then ts[0].pump.samples else []) + Gathered(ts[1..][..k - 1])
  {
    assert ts[..k][0] == ts[0];
    assert ts[..k][1..] == ts[1..][..k - 1];
  }

  /** Pumping goes on exactly while the clock is inside the time box: when
      it first runs out and every pump before it delivered, the job flushes
      the tagged samples of those pumps, once, and stops. */
  lemma {:induction false} CollectFlushesAtExpiry(seconds: real, tag: int, ticks: seq<Tick>, acc: seq<Row>, pumps: nat, n: nat)
    requires ExpiresFirstAt(ticks, seconds, n) && AllDelivered(ticks[..n])
    ensures Collect(seconds, tag, ticks, acc, pumps) == Flushed(acc + TagAll(Gathered(ticks[..n]), tag), pumps + n)
    decreases n
  {
    if n == 0 {
      assert ticks[..0] == [];
    } else {
      assert ticks[..n][0] == ticks[0];
      var ss := ticks[0].pump.samples;
      var rest := ticks[1..];
      assert ExpiresFirstAt(rest, seconds, n - 1) by {
        forall j | 0 <= j < n - 1 ensures rest[j].elapsed < seconds {
          assert rest[j] == ticks[j + 1];
        }
      }
      var pre := rest[..n - 1];
      assert AllDelivered(pre) by {
        forall j | 0 <= j < |pre| ensures pre[j].pump.Delivered? {
          assert pre[j] == ticks[..n][j + 1];
        }
      }
      CollectFlushesAtExpiry(seconds, tag, rest, acc + TagAll(ss, tag), pumps + 1, n - 1);
      GatheredCons(ticks, n);
      TagAllConcat(ss, Gathered(rest[..n - 1]), tag);
      ConcatAssoc(acc, TagAll(ss, tag), TagAll(Gathered(rest[..n - 1]), tag));
    }
  }

  /** Conversely, a flush after n more pumps happens only at the first
      expiry, after n delivering pumps, with exactly their records. */
  lemma {:induction false} CollectFlushOnlyAtExpiry(seconds: real, tag: int, ticks: seq<Tick>, acc: seq<Row>, pumps: nat)
    requires Collect(seconds, tag, ticks, acc, pumps).Flushed?
    ensures var e := Collect(seconds, tag, ticks, acc, pumps);
      && e.pumps >= pumps
      && ExpiresFirstAt(ticks, seconds, e.pumps - pumps)
      && AllDelivered(ticks[..e.pumps - pumps])
      && e.records == acc + TagAll(Gathered(ticks[..e.pumps - pumps]), tag)
    decreases |ticks|
  {
    var e := Collect(seconds, tag, ticks, acc, pumps);
    if ticks[0].elapsed < seconds {
      var ss := ticks[0].pump.samples;
      var rest := ticks[1..];
      CollectFlushOnlyAtExpiry(seconds, tag, rest, acc + TagAll(ss, tag), pumps + 1);
      var n := e.pumps - pumps;
      ExpiresCons(ticks, seconds, n);
      DeliveredCons(ticks, n);
      CollectFlushesAtExpiry(seconds, tag, ticks, acc, pumps, n);
    } else {
      assert ExpiresFirstAt(ticks, seconds, 0);
      assert ticks[..0] == [];
    }
  }

  /** The first expiry moves one iteration later behind an in-time tick. */
  lemma ExpiresCons(ticks: seq<Tick>, seconds: real, n: nat)
    requires 0 < n && |ticks| > 0 && ticks[0].elapsed < seconds
    requires ExpiresFirstAt(ticks[1..], seconds, n - 1)
    ensures ExpiresFirstAt(ticks, seconds, n)
  {
    forall j | 0 <= j < n ensures ticks[j].elapsed < seconds {
      if j > 0 { assert ticks[j] == ticks[1..][j - 1]; }
    }
  }

  lemma DeliveredCons(ticks: seq<Tick>, n: nat)
    requires 0 < n <= |ticks| && ticks[0].pump.Delivered?
    requires AllDelivered(ticks[1..][..n - 1])
    ensures AllDelivered(ticks[..n])
  {
    forall j | 0 <= j < n ensures ticks[..n][j].pump.Delivered? {
      if j > 0 { assert ticks[..n][j] == ticks[1..][..n - 1][j - 1]; }
    }
  }

  /** A job that flushes reports as many frames as it appends, all carrying its label. */
  lemma JobRecordsLabelled(seconds: real, tag: int, known: nat, feed: JobFeed)
    requires Job(seconds, tag, known, feed).Flushed?
    ensures feed.Device? && 0 <= tag < known
    ensures var e := Job(seconds, tag, known, feed);
      && ExpiresFirstAt(feed.ticks, seconds, e.pumps)
      && e.records == TagAll(Gathered(feed.ticks[..e.pumps]), tag)
      && AllLabelled(e.records, tag)
  {
    CollectFlushOnlyAtExpiry(seconds, tag, feed.ticks, [], 0);
    var e := Job(seconds, tag, known, feed);
    TagAllLabelled(Gathered(feed.ticks[..e.pumps]), tag);
  }

  /** An unknown label raises KeyError before the loop: nothing is collected. */
  lemma UnknownLabelWritesNothing(seconds: real, tag: int, known: nat, feed: JobFeed)
    requires !(0 <= tag < known)
    ensures Job(seconds, tag, known, feed) == Crashed(0)
  {
  }

  /** The two flush styles: to_csv in append mode (project and V2), and
      read-concat-write (V1). */
  datatype FlushMode = AppendMode | RewriteMode

  /** The file after a job. A flushed job writes its records; a crashed job,
      or a rewrite whose read of a missing file raises, leaves the file as
      it was. None is a rewrite over a file whose columns are not the nine:
      pandas then joins both column sets and fills the gaps with NaN, which
      integer rows do not represent. */
  function Persist(mode: FlushMode, f: File, e: JobEnd): (r: Option<File>)
    ensures !e.Flushed? ==> r == Some(f)
    ensures e.Flushed? && mode == AppendMode ==> r == Some(AppendRows(f, e.records))
    ensures e.Flushed? && mode == RewriteMode ==>
      var w := ReadConcatWrite(f, e.records);
      && (r.None? <==> w.Misaligned?)
      && (w.Rewritten? ==> r == Some(w.file))
      && (w.ReadFailed? ==> r == Some(f))
  {
    if !e.Flushed? then Some(f)
    else match mode
      case AppendMode => Some(AppendRows(f, e.records))
      case RewriteMode =>
        match ReadConcatWrite(f, e.records)
        case Rewritten(g) => Some(g)
        case ReadFailed => Some(f)
        case Misaligned => None
  }

  /** Only a rewrite over a present file with other columns is left
      unrepresented; appending always yields a file. */
  lemma UnrepresentedOnlyForOtherColumns(mode: FlushMode, f: File, e: JobEnd)
    ensures Persist(mode, f, e).None? <==>
      mode == RewriteMode && e.Flushed? && f.Some? && f.value.header != Header
  {
  }

  /** The rows a job contributes. */
  function Batch(e: JobEnd): seq<Row> {
    if e.Flushed? then e.records else []
  }

  /** On a file with the nine-column header both styles append the batch. */
  lemma PersistAppends(mode: FlushMode, f: File, e: JobEnd)
    requires f.Some? && f.value.header == Header
    ensures Persist(mode, f, e) == Some(Some(Table(Header, f.value.rows + Batch(e))))
  {
    if !e.Flushed? {
      assert f.value.rows + [] == f.value.rows;
    }
  }

  /** How a driver loop ends: all jobs joined; waiting forever on the job
      for `at`; or, for `at`, a rewrite the model does not represent, with
      the file as it was before that job. */
  datatype DriverEnd = Finished(file: File) | Blocked(file: File, at: int) | Unrepresented(file: File, at: int)

  /** for etiqueta_num in ...: start the job for label `from`, join it, go on. */
  function RunLabels(mode: FlushMode, known: nat, f: File, from: int, feeds: seq<JobFeed>): DriverEnd
    decreases |feeds|
  {
    if feeds == [] then Finished(f)
    else
      var e := Job(CaptureSeconds, from, known, feeds[0]);
      if e.Running? then Blocked(f, from)
      else
        var g := Persist(mode, f, e);
        if g.None? then Unrepresented(f, from)
        else RunLabels(mode, known, g.value, from + 1, feeds[1..])
  }

  /** The batches of the jobs for labels from, from + 1, ..., concatenated. */
  function Collected(known: nat, from: int, feeds: seq<JobFeed>): seq<Row>
    decreases |feeds|
  {
    if feeds == [] then []
    else Batch(Job(CaptureSeconds, from, known, feeds[0])) + Collected(known, from + 1, feeds[1..])
  }

  /** The Output column never decreases down the rows, and stays in [lo, hi). */
  ghost predicate LabelsOrdered(rows: seq<Row>, lo: int, hi: int) {
    && (forall i :: 0 <= i < |rows| ==> |rows[i]| == |Header| && lo <= rows[i][OutputColumn] < hi)
    && (forall i, j :: 0 <= i < j < |rows| ==> rows[i][OutputColumn] <= rows[j][OutputColumn])
  }

  lemma {:induction false} CollectedOrdered(known: nat, from: int, feeds: seq<JobFeed>)
    ensures LabelsOrdered(Collected(known, from, feeds), from, from + |feeds|)
    decreases |feeds|
  {
    if feeds != [] {
      var e := Job(CaptureSeconds, from, known, feeds[0]);
      var b := Batch(e);
      var rest := Collected(known, from + 1, feeds[1..]);
      CollectedOrdered(known, from + 1, feeds[1..]);
      if e.Flushed? {
        JobRecordsLabelled(CaptureSeconds, from, known, feeds[0]);
      }
      assert AllLabelled(b, from);
      OrderedConcat(b, rest, from, from + |feeds|);
    }
  }

  lemma OrderedConcat(b: seq<Row>, rest: seq<Row>, lo: int, hi: int)
    requires lo < hi
    requires AllLabelled(b, lo) && LabelsOrdered(rest, lo + 1, hi)
    ensures LabelsOrdered(b + rest, lo, hi)
  {
    var all := b + rest;
    forall i | 0 <= i < |all|
      ensures |all[i]| == |Header| && lo <= all[i][OutputColumn] < hi
    {
      if i >= |b| { assert all[i] == rest[i - |b|]; }
    }
    forall i, j | 0 <= i < j < |all|
      ensures all[i][OutputColumn] <= all[j][OutputColumn]
    {
      if j < |b| {
      } else if i < |b| {
        assert all[j] == rest[j - |b|];
      } else {
        assert all[i] == rest[i - |b|] && all[j] == rest[j - |b|];
      }
    }
  }

  /** Jobs run in label order, each joined before the next: if every job
      ends, the file gains exactly the concatenated batches; otherwise the
      loop waits on the first job that never ends. */
  lemma {:induction false} RunLabelsAppendsBatches(mode: FlushMode, known: nat, f: File, from: int, feeds: seq<JobFeed>)
    requires f.Some? && f.value.header == Header
    ensures var d := RunLabels(mode, known, f, from, feeds);
      d.Finished? ==> d.file == Some(Table(Header, f.value.rows + Collected(known, from, feeds)))
    ensures var d := RunLabels(mode, known, f, from, feeds);
      d.Blocked? <==> exists i :: 0 <= i < |feeds| && Job(CaptureSeconds, from + i, known, feeds[i]).Running?
    ensures !RunLabels(mode, known, f, from, feeds).Unrepresented?
    decreases |feeds|
  {
    if feeds == [] {
      assert f.value.rows + [] == f.value.rows;
    } else {
      var e := Job(CaptureSeconds, from, known, feeds[0]);
      PersistAppends(mode, f, e);
      var g := Persist(mode, f, e).value;
      RunLabelsAppendsBatches(mode, known, g, from + 1, feeds[1..]);
      ConcatAssoc(f.value.rows, Batch(e), Collected(known, from + 1, feeds[1..]));
      var d := RunLabels(mode, known, f, from, feeds);
      if e.Running? {
        assert Job(CaptureSeconds, from + 0, known, feeds[0]).Running?;
      } else {
        assert d == RunLabels(mode, known, g, from + 1, feeds[1..]);
        if d.Blocked? {
          var i :| 0 <= i < |feeds[1..]| && Job(CaptureSeconds, from + 1 + i, known, feeds[1..][i]).Running?;
          assert feeds[1..][i] == feeds[i + 1];
          assert Job(CaptureSeconds, from + (i + 1), known, feeds[i + 1]).Running?;
        } else {
          forall i | 0 <= i < |feeds|
            ensures !Job(CaptureSeconds, from + i, known, feeds[i]).Running?
          {
            if i > 0 { assert feeds[i] == feeds[1..][i - 1]; }
          }
        }
      }
    }
  }

  /** The V2 collector's main block: csvcreate once, then labels 0..5. */
  function DriverV2(f: File, feeds: seq<JobFeed>): DriverEnd
    requires |feeds| == ProjectLabels
  {
    RunLabels(AppendMode, ProjectLabels, CsvCreate(f), 0, feeds)
  }

  /** After a complete V2 session the file is the header over
      batch0 ++ ... ++ batch5, with every row labelled by its job, in label order. */
  lemma DriverV2Dataset(f: File, feeds: seq<JobFeed>)
    requires |feeds| == ProjectLabels
    ensures var d := DriverV2(f, feeds);
      d.Finished? ==>
        && d.file == Some(Table(Header, Collected(ProjectLabels, 0, feeds)))
        && LabelsOrdered(d.file.value.rows, 0, ProjectLabels)
  {
    RunLabelsAppendsBatches(AppendMode, ProjectLabels, CsvCreate(f), 0, feeds);
    CollectedOrdered(ProjectLabels, 0, feeds);
    assert [] + Collected(ProjectLabels, 0, feeds) == Collected(ProjectLabels, 0, feeds);
  }

  /** With the header in place, the V1 read-concat-write loop ends in the same file as appending. */
  lemma {:induction false} FlushModesAgree(known: nat, f: File, from: int, feeds: seq<JobFeed>)
    requires f.Some? && f.value.header == Header
    ensures RunLabels(RewriteMode, known, f, from, feeds) == RunLabels(AppendMode, known, f, from, feeds)
    decreases |feeds|
  {
    if feeds != [] {
      var e := Job(CaptureSeconds, from, known, feeds[0]);
      PersistAppends(RewriteMode, f, e);
      PersistAppends(AppendMode, f, e);
      FlushModesAgree(known, Persist(AppendMode, f, e).value, from + 1, feeds[1..]);
    }
  }

  /** The V1 loop over a kept file with other columns stops being
      represented at the first job that flushes. */
  lemma OtherColumnsStopRewrite(known: nat, f: File, from: int, feeds: seq<JobFeed>)
    requires f.Some? && f.value.header != Header
    requires |feeds| > 0 && Job(CaptureSeconds, from, known, feeds[0]).Flushed?
    ensures RunLabels(RewriteMode, known, f, from, feeds) == Unrepresented(f, from)
  {
  }

  /** Appending never meets an unrepresented rewrite, whatever the file. */
  lemma {:induction false} AppendAlwaysRepresented(known: nat, f: File, from: int, feeds: seq<JobFeed>)
    ensures !RunLabels(AppendMode, known, f, from, feeds).Unrepresented?
    decreases |feeds|
  {
    if feeds != [] {
      var e := Job(CaptureSeconds, from, known, feeds[0]);
      if !e.Running? {
        AppendAlwaysRepresented(known, Persist(AppendMode, f, e).value, from + 1, feeds[1..]);
      }
    }
  }
}

=== FILE: dataset.dfy ===
/** The capture dataset file as the collectors see it: a header of nine
    column names over rows of integers, or no file at all. The pandas CSV
    round trip is replaced by the table it denotes. */
module Dataset {
  import opened Basics
  import opened EmgWindow

  /** myo_cols: eight channel columns and the label column. */
  const Header: seq<string> := ["Channel_1", "Channel_2", "Channel_3", "Channel_4",
                                "Channel_5", "Channel_6", "Channel_7", "Channel_8", "Output"]

  /** Position of the Output column. */
  const OutputColumn: nat := 8

  type Row = seq<int>

  datatype Table = Table(header: seq<string>, rows: seq<Row>)

  /** The file on disk: absent, or present with its contents. */
  type File = Option<Table>

  /** The header has one column per channel plus the label, and the label comes last. */
  lemma HeaderShape()
    ensures |Header| == Channels + 1
    ensures Header[OutputColumn] == "Output" && OutputColumn == |Header| - 1
    ensures forall i, j :: 0 <= i < j < |Header| ==> Header[i] != Header[j]
  {
  }

  /** csvcreate: remove any existing file, then write the header alone, so
      the prior file does not matter. */
  function CsvCreate(f: File): (r: File)
    ensures r.Some? && r.value.header == Header && r.value.rows == []
  {
    Some(Table(Header, []))
  }

  /** Whatever was there before, csvcreate leaves the same file. */
  lemma CsvCreateForgetsPrior(f: File, g: File)
    ensures CsvCreate(f) == CsvCreate(g)
    ensures CsvCreate(CsvCreate(f)) == CsvCreate(f)
  {
  }

  /** add_to_queue in data_worker: the sample's channels followed by the job label. */
  function Tag(s: Sample, output: int): (r: Row)
    ensures |r| == |Header|
    ensures r[..Channels] == s && r[OutputColumn] == output
  {
    s + [output]
  }

  /** The channel part of a record. */
  function Untag(r: Row): (s: Sample)
    requires |r| == |Header|
    ensures s + [r[OutputColumn]] == r
  {
    r[..Channels]
  }

  /** Tagging loses nothing: the sample and the label come back out. */
  lemma TagRoundTrip(s: Sample, output: int)
    ensures Untag(Tag(s, output)) == s
    ensures Tag(Untag(Tag(s, output)), Tag(s, output)[OutputColumn]) == Tag(s, output)
  {
  }

  /** The records of one job, in arrival order. */
  function TagAll(xs: seq<Sample>, output: int): (r: seq<Row>)
    ensures |r| == |xs|
    ensures forall i :: 0 <= i < |xs| ==> r[i] == Tag(xs[i], output)
  {
    seq(|xs|, i requires 0 <= i < |xs| => Tag(xs[i], output))
  }

  lemma TagAllConcat(xs: seq<Sample>, ys: seq<Sample>, output: int)
    ensures TagAll(xs + ys, output) == TagAll(xs, output) + TagAll(ys, output)
  {
    var l := TagAll(xs + ys, output);
    var r := TagAll(xs, output) + TagAll(ys, output);
    assert |l| == |r|;
    forall i | 0 <= i < |l|
      ensures l[i] == r[i]
    {
      if i < |xs| {
        assert (xs + ys)[i] == xs[i];
      } else {
        assert (xs + ys)[i] == ys[i - |xs|];
      }
    }
  }

  /** Every row of a labelled record sequence carries a channel part of the
      device's width and the given label. */
  ghost predicate AllLabelled(rows: seq<Row>, output: int) {
    forall i :: 0 <= i < |rows| ==> |rows[i]| == |Header| && rows[i][OutputColumn] == output
  }

  lemma TagAllLabelled(xs: seq<Sample>, output: int)
    ensures AllLabelled(TagAll(xs, output), output)
  {
  }

  /** to_csv(mode='a', header=False): rows are appended and nothing already in
      the file is rewritten; an absent file is created without a header. */
  function AppendRows(f: File, recs: seq<Row>): (r: File)
    ensures r.Some?
    ensures f.Some? ==> r.value.header == f.value.header && r.value.rows == f.value.rows + recs
    ensures f.None? ==> r.value.header == [] && r.value.rows == recs
  {
    match f
    case None => Some(Table([], recs))
    case Some(t) => Some(Table(t.header, t.rows + recs))
  }

  /** The existing rows stay a prefix of the file after an append. */
  lemma AppendIsAppendOnly(f: File, recs: seq<Row>)
    requires f.Some?
    ensures AppendRows(f, recs).value.rows[..|f.value.rows|] == f.value.rows
    ensures AppendRows(f, recs).value.rows[|f.value.rows|..] == recs
  {
  }

  lemma AppendRowsTwice(f: File, a: seq<Row>, b: seq<Row>)
    requires f.Some?
    ensures AppendRows(AppendRows(f, a), b) == AppendRows(f, a + b)
  {
    ConcatAssoc(f.value.rows, a, b);
  }

  /** The outcome of the read-concat-write flush. */
  datatype RewriteResult =
    | Rewritten(file: File)
    /** read_csv on a missing file raises. */
    | ReadFailed
    /** A file whose columns differ from the nine; pandas would align
        columns, which this model does not represent. */
    | Misaligned

  /** pd.read_csv, pd.concat([existing, new], ignore_index=True), to_csv(index=False). */
  function ReadConcatWrite(f: File, recs: seq<Row>): (r: RewriteResult)
    ensures f.None? <==> r == ReadFailed
    ensures r.Rewritten? <==> f.Some? && f.value.header == Header
    ensures r.Rewritten? ==> r.file == Some(Table(Header, f.value.rows + recs))
  {
    match f
    case None => ReadFailed
    case Some(t) => if t.header == Header then Rewritten(Some(Table(Header, t.rows + recs))) else Misaligned
  }

  /** On a file with the nine-column header the two flush styles agree. */
  lemma FlushStylesAgree(f: File, recs: seq<Row>)
    requires f.Some? && f.value.header == Header
    ensures ReadConcatWrite(f, recs) == Rewritten(AppendRows(f, recs))
  {
  }
}

=== FILE: emg_window.dfy ===
/** The EMG sample window shared by the real-time scripts: the device's
    channel count and raw range, the bounded deque of recent samples
    (deque(maxlen=100)), the min-max normalisation fitted on rows of 0 and
    1023, and the split of a sample stream into consecutive full windows. */
module EmgWindow {
  import opened Basics

  const Channels: nat := 8
  const WindowSize: nat := 100
  const RawMin: int := 0
  const RawMax: int := 1023

  /** One EMG frame as the device delivers it: eight channel readings. */
  type Sample = s: seq<int> | |s| == Channels witness [0, 0, 0, 0, 0, 0, 0, 0]

  /** deque.append on a deque bounded by WindowSize: a full deque drops its oldest entry. */
  function Append(buf: seq<Sample>, s: Sample): (r: seq<Sample>)
    requires |buf| <= WindowSize
    ensures |r| <= WindowSize
    ensures r == LastN(buf + [s], WindowSize)
  {
    if |buf| < WindowSize then buf + [s] else buf[1..] + [s]
  }

  /** Appending every sample of xs in order. */
  function AppendAll(buf: seq<Sample>, xs: seq<Sample>): (r: seq<Sample>)
    requires |buf| <= WindowSize
    ensures |r| <= WindowSize
    decreases |xs|
  {
    if xs == [] then buf else AppendAll(Append(buf, xs[0]), xs[1..])
  }

  /** FIFO eviction: after any run of appends the deque holds exactly the
      WindowSize most recent samples, in arrival order. */
  lemma {:induction false} AppendAllKeepsMostRecent(buf: seq<Sample>, xs: seq<Sample>)
    requires |buf| <= WindowSize
    ensures AppendAll(buf, xs) == LastN(buf + xs, WindowSize)
    decreases |xs|
  {
    if |xs| == 0 {
      assert buf + xs == buf;
    } else {
      var b := Append(buf, xs[0]);
      AppendAllKeepsMostRecent(b, xs[1..]);
      LastNAbsorbs(buf + [xs[0]], xs[1..], WindowSize);
      SnocConcat(buf, xs);
    }
  }

  /** sklearn's MinMaxScaler with feature_range (0, 1) fitted on bounds lo and hi. */
  function MinMaxScale(x: real, lo: real, hi: real): real
    requires lo < hi
  {
    (x - lo) / (hi - lo)
  }

  /** The scaler fitted on [[0]*8, [1023]*8] divides by 1023. */
  function Normalize(x: real): (r: real)
    ensures r * (RawMax as real) == x
    ensures RawMin as real <= x <= RawMax as real ==> 0.0 <= r <= 1.0
  {
    MinMaxScale(x, RawMin as real, RawMax as real)
  }

  function NormalizeSample(s: Sample): (r: seq<real>)
    ensures |r| == Channels
    ensures forall c :: 0 <= c < Channels ==> r[c] * (RawMax as real) == s[c] as real
  {
    seq(Channels, c requires 0 <= c < Channels => Normalize(s[c] as real))
  }

  /** The scaled window handed to the classifier: same shape, every reading divided by 1023. */
  function NormalizeWindow(w: seq<Sample>): (r: seq<seq<real>>)
    ensures |r| == |w|
    ensures forall i :: 0 <= i < |w| ==> |r[i]| == Channels
    ensures forall i, c :: 0 <= i < |w| && 0 <= c < Channels ==> r[i][c] * (RawMax as real) == w[i][c] as real
  {
    seq(|w|, i requires 0 <= i < |w| => NormalizeSample(w[i]))
  }

  /** Readings inside the device range scale into [0, 1]. */
  lemma NormalizeWindowInUnitRange(w: seq<Sample>)
    requires forall i, c :: 0 <= i < |w| && 0 <= c < Channels ==> RawMin <= w[i][c] <= RawMax
    ensures forall i, c :: 0 <= i < |w| && 0 <= c < Channels ==>
      0.0 <= NormalizeWindow(w)[i][c] <= 1.0
  {
    var r := NormalizeWindow(w);
    forall i, c | 0 <= i < |w| && 0 <= c < Channels
      ensures 0.0 <= r[i][c] <= 1.0
    {
      assert r[i][c] == Normalize(w[i][c] as real);
    }
  }

  /** The consecutive, non-overlapping full windows of a stream. */
  function Chunks(xs: seq<Sample>): (r: seq<seq<Sample>>)
    ensures forall i :: 0 <= i < |r| ==> |r[i]| == WindowSize
    decreases |xs|
  {
    if |xs| < WindowSize then [] else [xs[..WindowSize]] + Chunks(xs[WindowSize..])
  }

  /** What is left after the last full window. */
  function Leftover(xs: seq<Sample>): (r: seq<Sample>)
    ensures |r| < WindowSize
    decreases |xs|
  {
    if |xs| < WindowSize then xs else Leftover(xs[WindowSize..])
  }

  /** A stream of at least one window starts with that window. */
  lemma ChunksStep(xs: seq<Sample>)
    requires |xs| >= WindowSize
    ensures Chunks(xs) == [xs[..WindowSize]] + Chunks(xs[WindowSize..])
    ensures Leftover(xs) == Leftover(xs[WindowSize..])
  {
  }

  function Flatten(ws: seq<seq<Sample>>): seq<Sample>
    decreases |ws|
  {
    if ws == [] then [] else ws[0] + Flatten(ws[1..])
  }

  /** The windows and the leftover partition the stream, and there are
      exactly |xs| / WindowSize windows. */
  lemma {:induction false} ChunksPartition(xs: seq<Sample>)
    ensures Flatten(Chunks(xs)) + Leftover(xs) == xs
    ensures |Chunks(xs)| == |xs| / WindowSize
    ensures |Leftover(xs)| == |xs| % WindowSize
    decreases |xs|
  {
    if |xs| >= WindowSize {
      var tail := xs[WindowSize..];
      ChunksPartition(tail);
      ChunksStep(xs);
      FlattenCons(xs[..WindowSize], Chunks(tail));
      ConcatAssoc(xs[..WindowSize], Flatten(Chunks(tail)), Leftover(tail));
      SplitAt(xs, WindowSize);
      DivModStep(|xs|);
    }
  }

  lemma FlattenCons(w: seq<Sample>, ws: seq<seq<Sample>>)
    ensures Flatten([w] + ws) == w + Flatten(ws)
  {
    assert ([w] + ws)[0] == w && ([w] + ws)[1..] == ws;
  }

  lemma DivModStep(n: nat)
    requires n >= WindowSize
    ensures n / WindowSize == 1 + (n - WindowSize) / WindowSize
    ensures n % WindowSize == (n - WindowSize) % WindowSize
  {
  }
}

=== FILE: gated_pipeline.dfy ===
/** The thresholded, clear-on-dispatch real-time classifier of
    project/RealTimeTestv2.py (identical in pyomyo/DatasetExtractV2).
    Every incoming sample is appended to a deque bounded by 100; once the
    deque is full the normalised window is classified, and a result whose
    top probability reaches 0.5 is sent to the remote endpoint as
    {"mensaje": label, "velocidad": 1}, after which the buffer is emptied.
    The classifier is a parameter; the outbound call is a trace event. */
module GatedPipeline {
  import opened Basics
  import opened EmgWindow
  import TrainingWindows

  const Threshold: real := 0.5
  const Speed: int := 1

  /** prediccion_etiquetas: the six movement names. */
  const LabelNames: map<nat, string> :=
    map[0 := "Mano Abierta", 1 := "Mano Cerrada", 2 := "Punzada Fina",
        3 := "Punzada Gruesa", 4 := "Mano Adentro", 5 := "Mano Afuera"]

  /** A probability vector as modelo_LSTM.keras returns it: one entry per
      class of the six-way softmax layer that the training script builds and
      checkpoints under that name. */
  type Probs = p: seq<real> | |p| == TrainingWindows.NumClasses witness [1.0, 0.0, 0.0, 0.0, 0.0, 0.0]
  type Classifier = seq<seq<real>> -> Probs

  /** The JSON payload put to the remote endpoint. */
  datatype Dispatch = Dispatch(mensaje: nat, velocidad: int)

  /** The module-level state: buffer_emg, ultima_prediccion, ultima_confianza. */
  datatype Pipeline = Pipeline(buffer: seq<Sample>, lastLabel: Option<nat>, lastConfidence: real)

  const Start: Pipeline := Pipeline([], None, 0.0)

  ghost predicate Valid(st: Pipeline) {
    |st.buffer| <= WindowSize
  }

  datatype Step = Step(state: Pipeline, sent: Option<Dispatch>)

  datatype Trace = Trace(state: Pipeline, sent: seq<Dispatch>)

  /** The classifier's answer for a buffer, after scaling. */
  function Predict(model: Classifier, buffer: seq<Sample>): Probs {
    model(NormalizeWindow(buffer))
  }

  /** process_data: classify a full buffer and dispatch a confident result. */
  function ProcessData(st: Pipeline, model: Classifier): (r: Step)
    requires Valid(st)
    ensures |st.buffer| < WindowSize ==> r == Step(st, None)
    ensures r.sent.Some? <==> |st.buffer| == WindowSize && Max(Predict(model, st.buffer)) >= Threshold
    ensures r.sent.None? ==> r.state == st
    ensures r.sent.Some? ==>
      var p := Predict(model, st.buffer);
      && r.sent.value.velocidad == Speed
      && IsFirstMax(p, r.sent.value.mensaje)
      && r.sent.value.mensaje in LabelNames
      && r.state == Pipeline([], Some(r.sent.value.mensaje), p[r.sent.value.mensaje])
  {
    if |st.buffer| < WindowSize then Step(st, None)
    else
      var p := Predict(model, st.buffer);
      var probMax := Max(p);
      var top := ArgMax(p);
      if probMax < Threshold then Step(st, None)
      else
        ArgMaxAttainsMax(p);
        Step(Pipeline([], Some(top), probMax), Some(Dispatch(top, Speed)))
  }

  /** add_to_queue: the EMG callback. It appends, then classifies once the deque is full. */
  function AddToQueue(st: Pipeline, s: Sample, model: Classifier): (r: Step)
    requires Valid(st)
    ensures Valid(r.state)
    ensures r.sent.Some? <==>
      |st.buffer| + 1 >= WindowSize && Max(Predict(model, LastN(st.buffer + [s], WindowSize))) >= Threshold
    ensures r.sent.Some? ==>
      var p := Predict(model, LastN(st.buffer + [s], WindowSize));
      && r.sent.value.velocidad == Speed
      && IsFirstMax(p, r.sent.value.mensaje)
      && r.sent.value.mensaje in LabelNames
      && r.state == Pipeline([], Some(r.sent.value.mensaje), p[r.sent.value.mensaje])
    ensures r.sent.None? ==>
      r.state == st.(buffer := LastN(st.buffer + [s], WindowSize))
  {
    var st1 := st.(buffer := Append(st.buffer, s));
    if |st1.buffer| >= WindowSize then ProcessData(st1, model) else Step(st1, None)
  }

  function Sent(s: Step): seq<Dispatch> {
    if s.sent.Some? then [s.sent.value] else []
  }

  /** Feeding a stream of samples through the callback, collecting the dispatches. */
  function Run(st: Pipeline, xs: seq<Sample>, model: Classifier): (r: Trace)
    requires Valid(st)
    ensures Valid(r.state)
    ensures |r.sent| <= |xs|
    decreases |xs|
  {
    if xs == [] then Trace(st, [])
    else
      var step := AddToQueue(st, xs[0], model);
      var rest := Run(step.state, xs[1..], model);
      Trace(rest.state, Sent(step) + rest.sent)
  }

  /** Running two streams one after the other is running their concatenation. */
  lemma {:induction false} RunSplit(st: Pipeline, xs: seq<Sample>, ys: seq<Sample>, model: Classifier)
    requires Valid(st)
    ensures var a := Run(st, xs, model);
            var b := Run(a.state, ys, model);
            Run(st, xs + ys, model) == Trace(b.state, a.sent + b.sent)
    decreases |xs|
  {
    if xs == [] {
      assert xs + ys == ys;
    } else {
      var step := AddToQueue(st, xs[0], model);
      ConsConcat(xs, ys);
      RunSplit(step.state, xs[1..], ys, model);
      var a := Run(step.state, xs[1..], model);
      var b := Run(a.state, ys, model);
      ConcatAssoc(Sent(step), a.sent, b.sent);
    }
  }

  /** Every dispatch consumes a whole window: dispatches times 100, plus what is
      still buffered, never exceeds the samples seen. No window is dispatched twice. */
  lemma {:induction false} DispatchesNeedFullWindows(st: Pipeline, xs: seq<Sample>, model: Classifier)
    requires Valid(st)
    ensures var r := Run(st, xs, model);
            |r.sent| * WindowSize + |r.state.buffer| <= |st.buffer| + |xs|
    decreases |xs|
  {
    if xs != [] {
      var step := AddToQueue(st, xs[0], model);
      DispatchesNeedFullWindows(step.state, xs[1..], model);
    }
  }

  /** Every label put to the endpoint has a name, so the lookup before the
      put never raises. */
  lemma {:induction false} DispatchesAreNamed(st: Pipeline, xs: seq<Sample>, model: Classifier)
    requires Valid(st)
    ensures forall d :: d in Run(st, xs, model).sent ==> d.mensaje in LabelNames
    decreases |xs|
  {
    if xs != [] {
      var step := AddToQueue(st, xs[0], model);
      DispatchesAreNamed(step.state, xs[1..], model);
    }
  }

  /** A run with no dispatch behaves as the bare deque: the buffer holds the
      100 most recent samples and the last prediction is untouched. */
  lemma {:induction false} SilentRunIsFifo(st: Pipeline, xs: seq<Sample>, model: Classifier)
    requires Valid(st)
    requires Run(st, xs, model).sent == []
    ensures Run(st, xs, model).state == st.(buffer := LastN(st.buffer + xs, WindowSize))
    decreases |xs|
  {
    if xs == [] {
      assert st.buffer + xs == st.buffer;
    } else {
      var step := AddToQueue(st, xs[0], model);
      assert step.sent.None?;
      SilentRunIsFifo(step.state, xs[1..], model);
      LastNAbsorbs(st.buffer + [xs[0]], xs[1..], WindowSize);
      SnocConcat(st.buffer, xs);
    }
  }

  /** process_data is never reached on a partial window: fewer than 100
      samples in total produce no dispatch and simply accumulate. */
  lemma {:induction false} ShortFeedIsSilent(st: Pipeline, xs: seq<Sample>, model: Classifier)
    requires Valid(st)
    requires |st.buffer| + |xs| < WindowSize
    ensures Run(st, xs, model) == Trace(st.(buffer := st.buffer + xs), [])
    decreases |xs|
  {
    if xs == [] {
      assert st.buffer + xs == st.buffer;
    } else {
      var step := AddToQueue(st, xs[0], model);
      assert step.state == st.(buffer := st.buffer + [xs[0]]);
      ShortFeedIsSilent(step.state, xs[1..], model);
      SnocConcat(st.buffer, xs);
    }
  }

  /** The last-prediction state always names the most recent dispatch, and changes only on one. */
  lemma {:induction false} LastLabelTracksDispatches(st: Pipeline, xs: seq<Sample>, model: Classifier)
    requires Valid(st)
    ensures var r := Run(st, xs, model);
            r.state.lastLabel == if |r.sent| == 0 then st.lastLabel else Some(r.sent[|r.sent| - 1].mensaje)
    decreases |xs|
  {
    if xs != [] {
      var step := AddToQueue(st, xs[0], model);
      var rest := Run(step.state, xs[1..], model);
      LastLabelTracksDispatches(step.state, xs[1..], model);
      assert Run(st, xs, model) == Trace(rest.state, Sent(step) + rest.sent);
      if |rest.sent| > 0 {
        LastOfConcat(Sent(step), rest.sent);
      }
    }
  }

  /** The dispatch a confident model produces for one window. */
  function DispatchFor(model: Classifier, w: seq<Sample>): Dispatch {
    Dispatch(ArgMax(Predict(model, w)), Speed)
  }

  function DispatchesFor(model: Classifier, ws: seq<seq<Sample>>): (r: seq<Dispatch>)
    ensures |r| == |ws|
    ensures forall i :: 0 <= i < |ws| ==> r[i] == DispatchFor(model, ws[i])
  {
    seq(|ws|, i requires 0 <= i < |ws| => DispatchFor(model, ws[i]))
  }

  lemma DispatchesForCons(model: Classifier, w: seq<Sample>, ws: seq<seq<Sample>>)
    ensures DispatchesFor(model, [w] + ws) == [DispatchFor(model, w)] + DispatchesFor(model, ws)
  {
  }

  ghost predicate AlwaysConfident(model: Classifier) {
    forall w :: Max(model(w)) >= Threshold
  }

  /** Running a single sample is one call of the callback. */
  lemma {:induction false} RunOne(st: Pipeline, s: Sample, model: Classifier)
    requires Valid(st)
    ensures var step := AddToQueue(st, s, model);
            Run(st, [s], model) == Trace(step.state, Sent(step))
  {
    assert [s][0] == s;
    assert [s][1..] == [];
  }

  /** The callback on the sample that completes a window dispatches the
      window's first-maximum label when the model is confident about it. */
  lemma CompletingSampleDispatches(st: Pipeline, s: Sample, model: Classifier)
    requires |st.buffer| + 1 == WindowSize
    requires Max(Predict(model, st.buffer + [s])) >= Threshold
    ensures var p := Predict(model, st.buffer + [s]);
            var k := ArgMax(p);
            AddToQueue(st, s, model) == Step(Pipeline([], Some(k), p[k]), Some(Dispatch(k, Speed)))
  {
    assert LastN(st.buffer + [s], WindowSize) == st.buffer + [s];
    var step := AddToQueue(st, s, model);
    var p := Predict(model, st.buffer + [s]);
    assert step.sent.Some?;
    FirstMaxIsArgMax(p, step.sent.value.mensaje);
  }

  /** Topping a partial buffer up to exactly 100 samples yields one dispatch
      for that window, when the model is confident about it. */
  lemma CompletingAWindowDispatches(st: Pipeline, xs: seq<Sample>, model: Classifier)
    requires |st.buffer| < WindowSize && |st.buffer| + |xs| == WindowSize
    requires Max(Predict(model, st.buffer + xs)) >= Threshold
    ensures var p := Predict(model, st.buffer + xs);
            var k := ArgMax(p);
            Run(st, xs, model) == Trace(Pipeline([], Some(k), p[k]), [Dispatch(k, Speed)])
  {
    var n := |xs| - 1;
    var front := xs[..n];
    var s := xs[n];
    assert xs == front + [s];
    SilentPrefix(st, front, s, model);
    var mid := st.(buffer := st.buffer + front);
    assert mid.buffer + [s] == st.buffer + xs;
    RunOne(mid, s, model);
    CompletingSampleDispatches(mid, s, model);
  }

  /** Samples that leave the window short only accumulate, so the run goes
      on from the grown buffer. */
  lemma SilentPrefix(st: Pipeline, front: seq<Sample>, s: Sample, model: Classifier)
    requires |st.buffer| + |front| < WindowSize
    ensures Run(st, front + [s], model) == Run(st.(buffer := st.buffer + front), [s], model)
  {
    RunSplit(st, front, [s], model);
    ShortFeedIsSilent(st, front, model);
    var b := Run(st.(buffer := st.buffer + front), [s], model);
    assert [] + b.sent == b.sent;
  }

  /** With a model that is always confident, starting from an empty buffer,
      there is exactly one dispatch per consecutive 100-sample window, in
      window order, and the buffer ends with the samples after the last window. */
  lemma {:induction false} ConfidentModelDispatchesEveryWindow(st: Pipeline, xs: seq<Sample>, model: Classifier)
    requires st.buffer == []
    requires AlwaysConfident(model)
    ensures Run(st, xs, model).sent == DispatchesFor(model, Chunks(xs))
    ensures Run(st, xs, model).state.buffer == Leftover(xs)
    decreases |xs|
  {
    if |xs| < WindowSize {
      ShortFeedIsSilent(st, xs, model);
      assert st.buffer + xs == xs;
    } else {
      var w := xs[..WindowSize];
      var tail := xs[WindowSize..];
      SplitAt(xs, WindowSize);
      assert st.buffer + w == w;
      assert Max(Predict(model, st.buffer + w)) >= Threshold;
      CompletingAWindowDispatches(st, w, model);
      var a := Run(st, w, model);
      RunSplit(st, w, tail, model);
      ConfidentModelDispatchesEveryWindow(a.state, tail, model);
      ChunksStep(xs);
      DispatchesForCons(model, w, Chunks(tail));
    }
  }

  /** 150 zero samples and a model answering [0.9, 0.02, ...]: exactly one
      dispatch, label 0, after the 100th sample; 50 samples stay buffered. */
  lemma ZeroFeedScenario()
    ensures var zero: Sample := [0, 0, 0, 0, 0, 0, 0, 0];
            var xs := seq(150, _ => zero);
            var model: Classifier := _ => [0.9, 0.02, 0.02, 0.02, 0.02, 0.02];
            var r := Run(Start, xs, model);
            r.sent == [Dispatch(0, 1)] && |r.state.buffer| == 50
  {
    var zero: Sample := [0, 0, 0, 0, 0, 0, 0, 0];
    var xs := seq(150, _ => zero);
    var p: Probs := [0.9, 0.02, 0.02, 0.02, 0.02, 0.02];
    var model: Classifier := _ => [0.9, 0.02, 0.02, 0.02, 0.02, 0.02];
    assert IsFirstMax(p, 0);
    FirstMaxIsArgMax(p, 0);
    assert Max(p) >= Threshold;
    assert AlwaysConfident(model);
    ConfidentModelDispatchesEveryWindow(Start, xs, model);
    assert Chunks(xs) == [xs[..100]] + Chunks(xs[100..]);
    assert Chunks(xs[100..]) == [];
    assert Leftover(xs) == xs[100..];
  }
}

=== FILE: json.dfy ===
/** JSON values as Python's json module hands them to the server: objects
    become dicts (a repeated key keeps its last value), and numbers are
    ints or floats. */
module PyJson {
  import opened Basics

  datatype Json =
    | JNull
    | JBool(b: bool)
    | JInt(i: int)
    | JFloat(r: real)
    | JString(s: string)
    | JArray(items: seq<Json>)
    | JObject(fields: seq<(string, Json)>)

  /** dict.get(key) on a decoded object: the value of the last field with that key. */
  function Get(fields: seq<(string, Json)>, key: string): (r: Option<Json>)
    ensures r.None? <==> forall i :: 0 <= i < |fields| ==> fields[i].0 != key
    ensures r.Some? ==> exists i :: (0 <= i < |fields| && fields[i] == (key, r.value)
      && forall j :: i < j < |fields| ==> fields[j].0 != key)
    decreases |fields|
  {
    if fields == [] then None
    else
      var last := fields[|fields| - 1];
      var front := fields[..|fields| - 1];
      assert forall i :: 0 <= i < |front| ==> front[i] == fields[i];
      if last.0 == key then Some(last.1) else Get(front, key)
  }

  /** The value written under a key is the one read back, whatever came before it. */
  lemma GetAfterPut(fields: seq<(string, Json)>, key: string, v: Json)
    ensures Get(fields + [(key, v)], key) == Some(v)
  {
  }

  /** Python's `x in range(n)`: ints (and bools, which are ints) by value,
      floats by equality with one of 0..n-1, anything else never. */
  predicate InRange(x: Json, n: nat) {
    match x
    case JBool(b) => (if b then 1 else 0) < n
    case JInt(i) => 0 <= i < n
    case JFloat(r) => r == r.Floor as real && 0 <= r.Floor < n
    case _ => false
  }

  /** The integer a value in range(n) compares equal to. */
  function AsIndex(x: Json, n: nat): (k: nat)
    requires InRange(x, n)
    ensures k < n
  {
    match x
    case JBool(b) => if b then 1 else 0
    case JInt(i) => i
    case JFloat(r) => r.Floor
  }

  /** Membership in range(n) is exactly being equal to one of 0..n-1. */
  lemma InRangeIffIndex(x: Json, n: nat)
    ensures InRange(x, n) <==> exists k :: 0 <= k < n && EqualsInt(x, k)
  {
    if InRange(x, n) {
      var k := AsIndex(x, n);
      assert EqualsInt(x, k);
    }
  }

  /** Python's `x == k` for an int k. */
  predicate EqualsInt(x: Json, k: int) {
    match x
    case JBool(b) => (if b then 1 else 0) == k
    case JInt(i) => i == k
    case JFloat(r) => r == k as real
    case _ => false
  }
}

=== FILE: mean_pipeline.dfy ===
/** The averaging real-time classifier of pyomyo/DatasetExtract/RealTimeTest.py.
    The window length is int(0.5 s * 200 Hz). A full buffer is reduced to
    its per-channel mean, scaled, classified; the label is announced only
    when it differs from the last announced one; and the buffer is cleared
    after every classification, with no confidence gate. Announcing looks
    the label up in a four-entry name table: a label outside it raises
    KeyError, which `main` does not catch, so the session ends there. */
module MeanPipeline {
  import opened Basics
  import opened EmgWindow

  const WindowSeconds: real := 0.5
  const SampleRate: nat := 200

  /** TAMANO_VENTANA = int(VENTANA_TIEMPO * FRECUENCIA_MUESTRAS); int truncates, and the product is positive. */
  function WindowLength(): (n: int)
    ensures n == WindowSize
  {
    (WindowSeconds * SampleRate as real).Floor
  }

  type Probs = p: seq<real> | |p| > 0 witness [1.0]
  /** The model takes one row of eight scaled channel means. */
  type Classifier = seq<real> -> Probs

  /** prediccion_etiquetas: the four movements this version names. */
  const LabelNames: map<nat, string> :=
    map[0 := "Mano Abierta", 1 := "Mano Cerrada", 2 := "Punzada Fina", 3 := "Punzada Gruesa"]

  /** buffer_emg and ultima_prediccion. */
  datatype MeanState = MeanState(buffer: seq<Sample>, lastAnnounced: Option<nat>)

  const Start: MeanState := MeanState([], None)

  ghost predicate Valid(st: MeanState) {
    |st.buffer| <= WindowSize
  }

  /** One callback: the label classified, if any, the label announced, if
      any, and whether naming the label raised. A raising call completes no
      classification. */
  datatype MeanStep = MeanStep(state: MeanState, classified: Option<nat>, announced: Option<nat>, raised: bool)

  /** A run of callbacks; `crashed` says it ended on a KeyError. */
  datatype MeanTrace = MeanTrace(state: MeanState, classified: seq<nat>, announced: seq<nat>, crashed: bool)

  function ChannelSum(w: seq<Sample>, c: nat): int
    requires c < Channels
    decreases |w|
  {
    if w == [] then 0 else ChannelSum(w[..|w| - 1], c) + w[|w| - 1][c]
  }

  /** np.mean(datos_emg, axis=0)[c]. */
  function ChannelMean(w: seq<Sample>, c: nat): real
    requires |w| > 0 && c < Channels
  {
    ChannelSum(w, c) as real / |w| as real
  }

  lemma {:induction false} ChannelSumBounds(w: seq<Sample>, c: nat)
    requires c < Channels
    requires forall i :: 0 <= i < |w| ==> RawMin <= w[i][c] <= RawMax
    ensures 0 <= ChannelSum(w, c) <= RawMax * |w|
    decreases |w|
  {
    if w != [] {
      ChannelSumBounds(w[..|w| - 1], c);
    }
  }

  /** The mean of in-range readings is in range. */
  lemma ChannelMeanBounds(w: seq<Sample>, c: nat)
    requires |w| > 0 && c < Channels
    requires forall i :: 0 <= i < |w| ==> RawMin <= w[i][c] <= RawMax
    ensures RawMin as real <= ChannelMean(w, c) <= RawMax as real
  {
    ChannelSumBounds(w, c);
    var s := ChannelSum(w, c) as real;
    var n := |w| as real;
    assert s <= (RawMax as real) * n;
    DivideBound(s, n, RawMax as real);
  }

  lemma DivideBound(s: real, n: real, b: real)
    requires n > 0.0 && s <= b * n
    ensures s / n <= b
  {
  }

  /** The classifier input: one row of the scaled per-channel means. */
  function MeanRow(w: seq<Sample>): (r: seq<real>)
    requires |w| > 0
    ensures |r| == Channels
  {
    seq(Channels, c requires 0 <= c < Channels => Normalize(ChannelMean(w, c)))
  }

  /** A buffer of in-range samples yields a classifier row in [0, 1]. */
  lemma MeanRowInUnitRange(w: seq<Sample>)
    requires |w| > 0
    requires forall i, c :: 0 <= i < |w| && 0 <= c < Channels ==> RawMin <= w[i][c] <= RawMax
    ensures forall c :: 0 <= c < Channels ==> 0.0 <= MeanRow(w)[c] <= 1.0
  {
    forall c | 0 <= c < Channels
      ensures 0.0 <= MeanRow(w)[c] <= 1.0
    {
      ChannelMeanBounds(w, c);
      assert MeanRow(w)[c] == Normalize(ChannelMean(w, c));
    }
  }

  function LabelFor(model: Classifier, w: seq<Sample>): nat
    requires |w| > 0
  {
    ArgMax(model(MeanRow(w)))
  }


  /** Whether announcing `top` raises: it differs from the last announced
      label and has no name. */
  ghost predicate Unnamed(st: MeanState, top: nat) {
    Some(top) != st.lastAnnounced && top !in LabelNames
  }

  /** process_data: classify a full buffer, announce a changed label, clear.
      A changed label without a name raises before anything is updated. */
  function ProcessData(st: MeanState, model: Classifier): (r: MeanStep)
    requires Valid(st)
    ensures |st.buffer| < WindowSize ==> r == MeanStep(st, None, None, false)
    ensures r.raised <==> |st.buffer| == WindowSize && Unnamed(st, LabelFor(model, st.buffer))
    ensures r.raised ==> r.state == st && r.classified.None? && r.announced.None?
    ensures |st.buffer| == WindowSize && !r.raised ==>
      && r.classified == Some(LabelFor(model, st.buffer))
      && r.state == MeanState([], r.classified)
      && (r.announced.Some? <==> r.classified != st.lastAnnounced)
      && (r.announced.Some? ==> r.announced == r.classified && r.announced.value in LabelNames)
  {
    if |st.buffer| < WindowSize then MeanStep(st, None, None, false)
    else
      var top := LabelFor(model, st.buffer);
      if Some(top) == st.lastAnnounced then MeanStep(MeanState([], Some(top)), Some(top), None, false)
      else if top !in LabelNames then MeanStep(st, None, None, true)
      else MeanStep(MeanState([], Some(top)), Some(top), Some(top), false)
  }

  /** add_to_queue: append to the bounded deque, then classify once it is full. */
  function AddToQueue(st: MeanState, s: Sample, model: Classifier): (r: MeanStep)
    requires Valid(st)
    ensures Valid(r.state)
    ensures r.classified.Some? <==> |st.buffer| + 1 >= WindowSize && !r.raised
    ensures r.raised <==>
      |st.buffer| + 1 >= WindowSize && Unnamed(st, LabelFor(model, LastN(st.buffer + [s], WindowSize)))
    ensures r.raised ==> r.state == st.(buffer := LastN(st.buffer + [s], WindowSize)) && r.announced.None?
    ensures r.classified.Some? ==>
      && r.state == MeanState([], r.classified)
      && r.classified == Some(LabelFor(model, LastN(st.buffer + [s], WindowSize)))
      && (r.announced.Some? <==> r.classified != st.lastAnnounced)
      && (r.announced.Some? ==> r.announced == r.classified && r.announced.value in LabelNames)
    ensures r.classified.None? && !r.raised ==> r.state == st.(buffer := st.buffer + [s]) && r.announced.None?
  {
    var st1 := st.(buffer := Append(st.buffer, s));
    if |st1.buffer| >= WindowSize then ProcessData(st1, model) else MeanStep(st1, None, None, false)
  }

  function OptSeq(o: Option<nat>): seq<nat> {
    if o.Some? then [o.value] else []
  }

  /** Feeding a stream through the callback. A KeyError leaves the callback,
      m.run() and `main`, so the samples after it are never read. */
  function Run(st: MeanState, xs: seq<Sample>, model: Classifier): (r: MeanTrace)
    requires Valid(st)
    ensures Valid(r.state)
    decreases |xs|
  {
    if xs == [] then MeanTrace(st, [], [], false)
    else
      var step := AddToQueue(st, xs[0], model);
      if step.raised then MeanTrace(step.state, [], [], true)
      else
        var rest := Run(step.state, xs[1..], model);
        MeanTrace(rest.state, OptSeq(step.classified) + rest.classified, OptSeq(step.announced) + rest.announced, rest.crashed)
  }

  /** Print-on-change as a reference: drop every label equal to the one announced before it. */
  function Collapse(last: Option<nat>, xs: seq<nat>): seq<nat>
    decreases |xs|
  {
    if xs == [] then []
    else if Some(xs[0]) == last then Collapse(last, xs[1..])
    else [xs[0]] + Collapse(Some(xs[0]), xs[1..])
  }

  /** The announcements are exactly the classifications with repeats of the
      previously announced label removed. */
  lemma {:induction false} AnnouncementsCollapseRepeats(st: MeanState, xs: seq<Sample>, model: Classifier)
    requires Valid(st)
    ensures var r := Run(st, xs, model);
      && r.announced == Collapse(st.lastAnnounced, r.classified)
      && r.state.lastAnnounced == (if r.classified == [] then st.lastAnnounced else Some(r.classified[|r.classified| - 1]))
    decreases |xs|
  {
    if xs != [] {
      var step := AddToQueue(st, xs[0], model);
      if !step.raised {
        AnnouncementsCollapseRepeats(step.state, xs[1..], model);
        var rest := Run(step.state, xs[1..], model);
        var r := Run(st, xs, model);
        assert r.classified == OptSeq(step.classified) + rest.classified;
        assert r.announced == OptSeq(step.announced) + rest.announced;
        if step.classified.Some? {
          var l := step.classified.value;
          var cs := [l] + rest.classified;
          assert r.classified == cs;
          assert cs[0] == l && cs[1..] == rest.classified;
          assert step.state.lastAnnounced == Some(l);
          if Some(l) == st.lastAnnounced {
            assert step.announced.None?;
            assert Collapse(st.lastAnnounced, cs) == Collapse(st.lastAnnounced, rest.classified);
          } else {
            assert step.announced == Some(l);
            assert Collapse(st.lastAnnounced, cs) == [l] + Collapse(Some(l), rest.classified);
          }
          if rest.classified != [] {
            assert cs[|cs| - 1] == rest.classified[|rest.classified| - 1];
          }
        } else {
          assert r.classified == rest.classified;
          assert r.announced == rest.announced;
        }
      }
    }
  }

  /** No label is announced twice in a row, the first announcement differs
      from the previous one, and with nothing announced yet the first
      classification is always announced. */
  lemma {:induction false} CollapseHasNoRepeats(last: Option<nat>, xs: seq<nat>)
    ensures var r := Collapse(last, xs);
      && (forall i :: 0 <= i < |r| - 1 ==> r[i] != r[i + 1])
      && (|r| > 0 ==> Some(r[0]) != last)
      && (last == None && |xs| > 0 ==> |r| > 0 && r[0] == xs[0])
    decreases |xs|
  {
    if xs != [] {
      CollapseHasNoRepeats(if Some(xs[0]) == last then last else Some(xs[0]), xs[1..]);
    }
  }

  /** Every announced label has a name, and a run that crashed stopped on a
      full window whose changed label has none. */
  lemma {:induction false} CrashOnlyOnUnnamedLabel(st: MeanState, xs: seq<Sample>, model: Classifier)
    requires Valid(st)
    ensures var r := Run(st, xs, model);
      && (forall i :: 0 <= i < |r.announced| ==> r.announced[i] in LabelNames)
      && (r.crashed ==> |r.state.buffer| == WindowSize && Unnamed(r.state, LabelFor(model, r.state.buffer)))
    decreases |xs|
  {
    if xs != [] {
      var step := AddToQueue(st, xs[0], model);
      if step.raised {
        assert step.state.lastAnnounced == st.lastAnnounced;
      } else {
        CrashOnlyOnUnnamedLabel(step.state, xs[1..], model);
      }
    }
  }

  /** A model whose argmax always has a name never ends the session. */
  ghost predicate WithinLabelTable(model: Classifier) {
    forall row :: ArgMax(model(row)) in LabelNames
  }

  lemma {:induction false} NamedModelNeverCrashes(st: MeanState, xs: seq<Sample>, model: Classifier)
    requires Valid(st) && WithinLabelTable(model)
    ensures !Run(st, xs, model).crashed
    decreases |xs|
  {
    if xs != [] {
      var step := AddToQueue(st, xs[0], model);
      NamedModelNeverCrashes(step.state, xs[1..], model);
    }
  }

  lemma {:induction false} RunSplit(st: MeanState, xs: seq<Sample>, ys: seq<Sample>, model: Classifier)
    requires Valid(st)
    ensures var a := Run(st, xs, model);
            var b := Run(a.state, ys, model);
            Run(st, xs + ys, model) ==
              if a.crashed then a
              else MeanTrace(b.state, a.classified + b.classified, a.announced + b.announced, b.crashed)
    decreases |xs|
  {
    if xs == [] {
      assert xs + ys == ys;
    } else {
      var step := AddToQueue(st, xs[0], model);
      ConsConcat(xs, ys);
      if !step.raised {
        var c0 := OptSeq(step.classified);
        var a0 := OptSeq(step.announced);
        RunSplit(step.state, xs[1..], ys, model);
        var a := Run(step.state, xs[1..], model);
        var b := Run(a.state, ys, model);
        var whole := Run(step.state, xs[1..] + ys, model);
        assert Run(st, xs, model) == MeanTrace(a.state, c0 + a.classified, a0 + a.announced, a.crashed);
        assert Run(st, xs + ys, model) == MeanTrace(whole.state, c0 + whole.classified, a0 + whole.announced, whole.crashed);
        if !a.crashed {
          assert whole == MeanTrace(b.state, a.classified + b.classified, a.announced + b.announced, b.crashed);
          ConcatAssoc(c0, a.classified, b.classified);
          ConcatAssoc(a0, a.announced, b.announced);
        }
      }
    }
  }

  lemma {:induction false} ShortFeedAccumulates(st: MeanState, xs: seq<Sample>, model: Classifier)
    requires |st.buffer| + |xs| < WindowSize
    ensures Run(st, xs, model) == MeanTrace(st.(buffer := st.buffer + xs), [], [], false)
    decreases |xs|
  {
    if xs == [] {
      assert st.buffer + xs == st.buffer;
    } else {
      var step := AddToQueue(st, xs[0], model);
      assert !step.raised && step.classified.None? && step.announced.None?;
      var next := st.(buffer := st.buffer + [xs[0]]);
      assert step.state == next;
      ShortFeedAccumulates(next, xs[1..], model);
      var rest := Run(next, xs[1..], model);
      assert rest == MeanTrace(next.(buffer := next.buffer + xs[1..]), [], [], false);
      SnocConcat(st.buffer, xs);
    }
  }

  lemma {:induction false} RunOne(st: MeanState, s: Sample, model: Classifier)
    requires Valid(st)
    ensures var step := AddToQueue(st, s, model);
            Run(st, [s], model) == MeanTrace(step.state, OptSeq(step.classified), OptSeq(step.announced), step.raised)
  {
    assert [s][0] == s;
    assert [s][1..] == [];
  }

  /** A full window fed into an empty buffer is classified once, on its last
      sample, unless naming its changed label raises; then the window stays
      buffered and the session ends. */
  lemma OneWindowOneClassification(st: MeanState, w: seq<Sample>, model: Classifier)
    requires st.buffer == [] && |w| == WindowSize
    ensures var r := Run(st, w, model);
      && (r.crashed <==> Unnamed(st, LabelFor(model, w)))
      && (!r.crashed ==> r.classified == [LabelFor(model, w)] && r.state.buffer == [])
      && (r.crashed ==> r.classified == [] && r.state.buffer == w)
  {
    var n := |w| - 1;
    assert w == w[..n] + [w[n]];
    RunSplit(st, w[..n], [w[n]], model);
    ShortFeedAccumulates(st, w[..n], model);
    var mid := st.(buffer := st.buffer + w[..n]);
    assert mid.buffer + [w[n]] == w;
    RunOne(mid, w[n], model);
  }

  function LabelsFor(model: Classifier, ws: seq<seq<Sample>>): (r: seq<nat>)
    requires forall i :: 0 <= i < |ws| ==> |ws[i]| == WindowSize
    ensures |r| == |ws|
    ensures forall i :: 0 <= i < |ws| ==> r[i] == LabelFor(model, ws[i])
  {
    seq(|ws|, i requires 0 <= i < |ws| => LabelFor(model, ws[i]))
  }

  lemma LabelsForCons(model: Classifier, w: seq<Sample>, ws: seq<seq<Sample>>)
    requires |w| == WindowSize && forall i :: 0 <= i < |ws| ==> |ws[i]| == WindowSize
    ensures LabelsFor(model, [w] + ws) == [LabelFor(model, w)] + LabelsFor(model, ws)
  {
  }

  /** Classifications fall on non-overlapping windows: from an empty buffer,
      one per consecutive 100 samples (so at sample counts 100, 200, ...),
      each on its own window. A run that does not crash classifies all
      n/100 windows and leaves the remainder buffered; one that crashes
      stops on the window after the last one classified, still buffered. */
  lemma {:induction false} ClassifiesEachWindowOnce(st: MeanState, xs: seq<Sample>, model: Classifier)
    requires st.buffer == []
    ensures var r := Run(st, xs, model);
      && |r.classified| <= |Chunks(xs)|
      && r.classified == LabelsFor(model, Chunks(xs))[..|r.classified|]
      && (!r.crashed ==> |r.classified| == |xs| / WindowSize && r.state.buffer == Leftover(xs))
      && (r.crashed ==> |r.classified| < |Chunks(xs)| && r.state.buffer == Chunks(xs)[|r.classified|])
    decreases |xs|
  {
    ChunksPartition(xs);
    if |xs| < WindowSize {
      ShortFeedAccumulates(st, xs, model);
      assert st.buffer + xs == xs;
    } else {
      var w := xs[..WindowSize];
      var tail := xs[WindowSize..];
      SplitAt(xs, WindowSize);
      ChunksStep(xs);
      OneWindowOneClassification(st, w, model);
      var a := Run(st, w, model);
      RunSplit(st, w, tail, model);
      if !a.crashed {
        ClassifiesEachWindowOnce(a.state, tail, model);
        ChunksPartition(tail);
        LabelsForCons(model, w, Chunks(tail));
        var b := Run(a.state, tail, model);
        PrefixCons(LabelFor(model, w), b.classified, LabelsFor(model, Chunks(tail)));
        if b.crashed {
          assert Chunks(xs)[|b.classified| + 1] == Chunks(tail)[|b.classified|];
        }
      }
    }
  }

  lemma PrefixCons(x: nat, a: seq<nat>, b: seq<nat>)
    requires |a| <= |b| && a == b[..|a|]
    ensures [x] + a == ([x] + b)[..|a| + 1]
  {
  }

  /** A five-way model that answers its fifth class ends the session on the
      first window: nothing is classified and the window stays buffered. */
  lemma FifthClassEndsSession()
    ensures var zero: Sample := [0, 0, 0, 0, 0, 0, 0, 0];
            var xs := seq(150, _ => zero);
            var model: Classifier := _ => [0.0, 0.0, 0.0, 0.0, 1.0];
            var r := Run(Start, xs, model);
            r.crashed && r.classified == [] && |r.state.buffer| == WindowSize
  {
    var zero: Sample := [0, 0, 0, 0, 0, 0, 0, 0];
    var xs := seq(150, _ => zero);
    var p: Probs := [0.0, 0.0, 0.0, 0.0, 1.0];
    var model: Classifier := _ => [0.0, 0.0, 0.0, 0.0, 1.0];
    assert IsFirstMax(p, 4);
    FirstMaxIsArgMax(p, 4);
    var w := xs[..WindowSize];
    assert LabelFor(model, w) == 4;
    assert 4 !in LabelNames;
    OneWindowOneClassification(Start, w, model);
    RunSplit(Start, w, xs[WindowSize..], model);
    assert xs == w + xs[WindowSize..];
  }
}

=== FILE: probe.dfy ===
/** The timed connection probe of project/reconectar.py: a child process
    connects to the armband and disconnects; the parent waits `timeout`
    seconds, and a child still alive then is terminated and reaped. The
    process runtime is replaced by what the child did and whether it was
    still alive at the deadline. */
module Probe {

  /** intentar_conectar(timeout=10). */
  const DefaultTimeout: real := 10.0

  /** A supervised child at its deadline: it has exited (for whatever reason) or is still alive. */
  datatype Attempt = Exited | AliveAtDeadline

  datatype DeviceCall = Connect | Disconnect

  /** What the child's connect did: returned, raised, or blocked past the deadline. */
  datatype WorkerRun = Connected | ConnectRaised | ConnectHung

  /** _conexion_worker: the calls made on its own device handle. */
  function WorkerCalls(w: WorkerRun): (r: seq<DeviceCall>)
    ensures |r| > 0 && r[0] == Connect
    ensures Disconnect in r <==> w == Connected
    ensures w == Connected ==> r == [Connect, Disconnect]
  {
    if w == Connected then [Connect, Disconnect] else [Connect]
  }

  /** A child that raised or finished has exited by the deadline; a blocked one has not. */
  function OutcomeOf(w: WorkerRun): (a: Attempt)
    ensures a == AliveAtDeadline <==> w == ConnectHung
  {
    if w == ConnectHung then AliveAtDeadline else Exited
  }

  datatype ProbeEvent = Start | JoinFor(timeout: real) | Terminate | Join

  datatype ProbeResult = ProbeResult(connected: bool, events: seq<ProbeEvent>, aliveAfter: bool)

  /** intentar_conectar: start one child, wait up to timeout, and report
      whether it had exited; a live child is terminated and joined first. */
  function IntentarConectar(timeout: real, outcome: Attempt): (r: ProbeResult)
    ensures !r.connected <==> outcome == AliveAtDeadline
    ensures |r.events| >= 2 && r.events[0] == Start && r.events[1] == JoinFor(timeout)
    ensures forall i :: 0 < i < |r.events| ==> r.events[i] != Start
    ensures !r.connected ==> r.events[2..] == [Terminate, Join]
    ensures r.connected ==> |r.events| == 2
    ensures !r.aliveAfter
  {
    var waited := [Start, JoinFor(timeout)];
    if outcome == AliveAtDeadline then ProbeResult(false, waited + [Terminate, Join], false)
    else ProbeResult(true, waited, false)
  }

  /** The probe answers True even when connect raised: only a child still
      blocked at the deadline counts as a failure. */
  lemma RaisedConnectReportsSuccess(timeout: real)
    ensures IntentarConectar(timeout, OutcomeOf(ConnectRaised)).connected
    ensures Disconnect !in WorkerCalls(ConnectRaised)
  {
  }

  /** The probe's answer is True exactly when the child did not block,
      and for a child that completed it means connect and disconnect both ran. */
  lemma ProbeAnswer(timeout: real, w: WorkerRun)
    ensures IntentarConectar(timeout, OutcomeOf(w)).connected <==> w != ConnectHung
    ensures IntentarConectar(timeout, OutcomeOf(w)).connected && Disconnect in WorkerCalls(w)
      ==> WorkerCalls(w) == [Connect, Disconnect]
  {
  }
}

=== FILE: realtime_session.dfy ===
/** The device lifecycle around the real-time callback, in its two versions:
    `main` in pyomyo/DatasetExtractV2/RealTimeTestv2.py, whose try/finally
    covers only the run loop, and `tiemporeal` in project/RealTimeTestv2.py,
    whose try/except/finally covers everything after the device is created.
    The device is replaced by the sequence of calls made on it and the point
    at which a call raised. */
module RealtimeSession {
  import opened Basics

  /** Calls made on the Myo object, in order. */
  datatype Call = Create | ResetHandlers | Connect | Register | SetLeds | Vibrate | Pump | Disconnect

  /** Where an exception was raised. */
  datatype Stage = AtCreate | AtConnect | AtSetup | AtPump

  /** How the session ended: a keyboard interrupt during a pump, an
      exception, or the process killed by its parent's terminate() while the
      stage was running (SIGTERM or TerminateProcess: no handler is
      installed, so neither `except` nor `finally` runs). */
  datatype Exit = Interrupted | Raised(at: Stage) | Terminated(at: Stage)

  /** The calls made and whether an exception leaves the function. */
  datatype Session = Session(calls: seq<Call>, escapes: bool)

  /** An entry of the device's EMG handler list. */
  datatype Handler = QueueHandler | OtherHandler(id: nat)

  /** `m.emg_handlers = []`, which runs only when the device object has that
      attribute. */
  function ClearHandlers(hs: seq<Handler>, hasList: bool): seq<Handler> {
    if hasList then [] else hs
  }

  /** add_emg_handler: the callback joins the handlers already there. */
  function AddHandler(hs: seq<Handler>, h: Handler): seq<Handler> {
    hs + [h]
  }

  /** How many entries of the list are `h`: each one is called per sample. */
  function Count(hs: seq<Handler>, h: Handler): nat
    decreases |hs|
  {
    if |hs| == 0 then 0 else Count(hs[..|hs| - 1], h) + (if hs[|hs| - 1] == h then 1 else 0)
  }

  /** The reset followed by add_emg_handler(add_to_queue). */
  function RegisterHandlers(prior: seq<Handler>, hasList: bool): (r: seq<Handler>)
    ensures |r| > 0 && r[|r| - 1] == QueueHandler
    ensures Count(r, QueueHandler) == Count(ClearHandlers(prior, hasList), QueueHandler) + 1
  {
    var r := AddHandler(ClearHandlers(prior, hasList), QueueHandler);
    assert r[..|r| - 1] == ClearHandlers(prior, hasList);
    r
  }

  /** With the reset, whatever was registered before, exactly one handler is
      active and it is the queue callback. */
  lemma ResetLeavesOneHandler(prior: seq<Handler>)
    ensures var r := RegisterHandlers(prior, true);
      && Count(r, QueueHandler) == 1
      && forall h :: h in r ==> h == QueueHandler
  {
    assert RegisterHandlers(prior, true) == [QueueHandler];
  }

  /** Without the reset every earlier handler stays active, so a queue
      callback registered before runs twice per sample. A hypothetical case:
      the device class is expected to have the handler list. */
  lemma PriorSurvivesWithoutReset(prior: seq<Handler>)
    ensures var r := RegisterHandlers(prior, false);
      && (forall h :: h in prior ==> h in r)
      && Count(r, QueueHandler) == Count(prior, QueueHandler) + 1
      && (QueueHandler in prior ==> Count(r, QueueHandler) >= 2)
  {
    var r := RegisterHandlers(prior, false);
    assert r == prior + [QueueHandler];
    if QueueHandler in prior {
      CountPositive(prior, QueueHandler);
    }
  }

  lemma {:induction false} CountPositive(hs: seq<Handler>, h: Handler)
    requires h in hs
    ensures Count(hs, h) >= 1
    decreases |hs|
  {
    if hs[|hs| - 1] != h {
      var front := hs[..|hs| - 1];
      assert hs == front + [hs[|hs| - 1]];
      CountPositive(front, h);
    }
  }

  /** One device call's effect on the handler list: the reset call clears
      it (when the attribute exists) and registration appends the queue
      callback; other calls leave it alone. */
  function Apply(c: Call, hs: seq<Handler>, hasList: bool): seq<Handler> {
    match c
    case ResetHandlers => ClearHandlers(hs, hasList)
    case Register => AddHandler(hs, QueueHandler)
    case _ => hs
  }

  /** The handler list after a sequence of device calls. */
  function HandlersAfter(calls: seq<Call>, hs: seq<Handler>, hasList: bool): seq<Handler>
    decreases |calls|
  {
    if |calls| == 0 then hs else HandlersAfter(calls[1..], Apply(calls[0], hs, hasList), hasList)
  }

  lemma {:induction false} HandlersConcat(a: seq<Call>, b: seq<Call>, hs: seq<Handler>, hasList: bool)
    ensures HandlersAfter(a + b, hs, hasList) == HandlersAfter(b, HandlersAfter(a, hs, hasList), hasList)
    decreases |a|
  {
    if |a| == 0 {
      assert a + b == b;
    } else {
      ConsConcat(a, b);
      HandlersConcat(a[1..], b, Apply(a[0], hs, hasList), hasList);
    }
  }

  ghost predicate Quiet(calls: seq<Call>) {
    forall i :: 0 <= i < |calls| ==> calls[i] != ResetHandlers && calls[i] != Register
  }

  lemma {:induction false} HandlersUntouched(calls: seq<Call>, hs: seq<Handler>, hasList: bool)
    requires Quiet(calls)
    ensures HandlersAfter(calls, hs, hasList) == hs
    decreases |calls|
  {
    if |calls| > 0 {
      assert calls[0] != ResetHandlers && calls[0] != Register;
      HandlersUntouched(calls[1..], hs, hasList);
    }
  }

  /** Calls that neither reset nor register, appended to a session, leave its handlers as they were. */
  lemma QuietTail(a: seq<Call>, t: seq<Call>, hs: seq<Handler>, hasList: bool)
    requires Quiet(t)
    ensures HandlersAfter(a + t, hs, hasList) == HandlersAfter(a, hs, hasList)
  {
    HandlersConcat(a, t, hs, hasList);
    HandlersUntouched(t, HandlersAfter(a, hs, hasList), hasList);
  }

  /** Create, reset, connect, register: the calls up to the registration. */
  const Registration: seq<Call> := [Create, ResetHandlers, Connect, Register]

  lemma HandlersOfRegistration(prior: seq<Handler>, hasList: bool)
    ensures HandlersAfter(Registration, prior, hasList) == RegisterHandlers(prior, hasList)
  {
    var c := Registration;
    assert c[1..] == [ResetHandlers, Connect, Register];
    assert c[1..][1..] == [Connect, Register];
    assert c[1..][1..][1..] == [Register];
    assert c[1..][1..][1..][1..] == [];
    var cleared := ClearHandlers(prior, hasList);
    assert HandlersAfter(c, prior, hasList) == HandlersAfter(c[1..], prior, hasList);
    assert HandlersAfter(c[1..], prior, hasList) == HandlersAfter(c[1..][1..], cleared, hasList);
    assert HandlersAfter(c[1..][1..], cleared, hasList) == HandlersAfter(c[1..][1..][1..], cleared, hasList);
  }

  function Pumps(n: nat): (r: seq<Call>)
    ensures |r| == n && forall i :: 0 <= i < n ==> r[i] == Pump
  {
    seq(n, _ => Pump)
  }

  /** Calls attempted before the session ends; the last one is the one that
      raised or was interrupted. `pumps` run loop iterations completed. */
  function Attempted(exit: Exit, pumps: nat): seq<Call> {
    var setup := [Create, ResetHandlers, Connect, Register, SetLeds, Vibrate];
    if exit.Interrupted? then setup + Pumps(pumps + 1)
    else match exit.at
      case AtCreate => [Create]
      case AtConnect => [Create, ResetHandlers, Connect]
      case AtSetup => [Create, ResetHandlers, Connect, Register, SetLeds]
      case AtPump => setup + Pumps(pumps + 1)
  }

  ghost predicate InRunLoop(exit: Exit) {
    exit == Interrupted || exit == Raised(AtPump)
  }

  /** V2 `main`: only the run loop sits inside try/finally; KeyboardInterrupt
      is caught, and the disconnect in `finally` has no handler of its own,
      so an exception it raises escapes even after a caught interrupt. A
      killed process runs no `finally` and raises nothing. */
  function MainV2(exit: Exit, pumps: nat, closeFails: bool): (r: Session)
    ensures Disconnect in r.calls <==> InRunLoop(exit)
    ensures InRunLoop(exit) ==> r.calls[|r.calls| - 1] == Disconnect
    ensures r.escapes <==> exit.Raised? || (InRunLoop(exit) && closeFails)
  {
    var tried := Attempted(exit, pumps);
    if exit == Interrupted then Session(tried + [Disconnect], closeFails)
    else if exit == Raised(AtPump) then Session(tried + [Disconnect], true)
    else Session(tried, exit.Raised?)
  }

  /** project `tiemporeal`: everything sits inside try/except/finally; the
      device is disconnected whenever it was created, and disconnect errors
      are swallowed, so nothing escapes. */
  function TiempoReal(exit: Exit, pumps: nat, closeFails: bool): (r: Session)
    ensures Disconnect in r.calls <==> exit != Raised(AtCreate) && !exit.Terminated?
    ensures exit != Raised(AtCreate) && !exit.Terminated? ==> r.calls[|r.calls| - 1] == Disconnect
    ensures !r.escapes
  {
    var tried := Attempted(exit, pumps);
    if exit == Raised(AtCreate) || exit.Terminated? then Session(tried, false)
    else Session(tried + [Disconnect], false)
  }

  /** The documented way to stop `tiemporeal` is terminate() from the
      parent: wherever it lands, the device is never disconnected, and the
      calls made are those an exception at the same point would have made. */
  lemma TerminatedNeverDisconnects(at: Stage, pumps: nat, closeFails: bool)
    ensures var s := TiempoReal(Terminated(at), pumps, closeFails);
      && Disconnect !in s.calls && !s.escapes
      && s.calls == Attempted(Raised(at), pumps)
      && (at != AtCreate ==> TiempoReal(Raised(at), pumps, closeFails).calls == s.calls + [Disconnect])
  {
  }

  /** The versions part on a failing disconnect after Ctrl+C: V2 lets the
      error out, `tiemporeal` reports it and returns. */
  lemma FailedCloseAfterInterrupt(pumps: nat)
    ensures MainV2(Interrupted, pumps, true).escapes
    ensures !MainV2(Interrupted, pumps, false).escapes
    ensures !TiempoReal(Interrupted, pumps, true).escapes
    ensures MainV2(Interrupted, pumps, true).calls == TiempoReal(Interrupted, pumps, true).calls
  {
  }

  /** The handler is registered once, at position 3 (after create, reset
      and connect), no pump comes before position 6, and a disconnect can
      only be the last call. */
  ghost predicate WellOrdered(calls: seq<Call>) {
    && (forall i :: 0 <= i < |calls| && calls[i] == Register ==> i == 3)
    && (forall i :: 0 <= i < |calls| && calls[i] == Pump ==> 6 <= i)
    && (forall i :: 0 <= i < |calls| && calls[i] == Disconnect ==> i == |calls| - 1)
  }

  function SessionOf(v2: bool, exit: Exit, pumps: nat, closeFails: bool): Session {
    if v2 then MainV2(exit, pumps, closeFails) else TiempoReal(exit, pumps, closeFails)
  }

  /** In both versions the handler is registered once, after connecting and
      before the first pump, and the device is released at most once, last.
      Once registered, the active handlers are those of the reset followed
      by the registration, so with the attribute present exactly the queue
      callback runs. */
  lemma SessionOrdering(exit: Exit, pumps: nat, v2: bool, closeFails: bool, prior: seq<Handler>, hasList: bool)
    ensures var s := SessionOf(v2, exit, pumps, closeFails);
      && (forall i :: 0 <= i < |s.calls| && s.calls[i] == Register ==> i == 3)
      && (forall i :: 0 <= i < |s.calls| && s.calls[i] == Pump ==> 6 <= i)
      && (forall i :: 0 <= i < |s.calls| && s.calls[i] == Disconnect ==> i == |s.calls| - 1)
      && (Register in s.calls ==> HandlersAfter(s.calls, prior, hasList) == RegisterHandlers(prior, hasList))
      && (Register in s.calls && hasList ==> HandlersAfter(s.calls, prior, hasList) == [QueueHandler])
  {
    var s := SessionOf(v2, exit, pumps, closeFails);
    if !exit.Interrupted? && exit.at != AtPump {
      EarlyExitOrdered(exit);
      assert WellOrdered(s.calls);
    } else {
      LoopOrdered(pumps);
      assert WellOrdered(s.calls);
    }
    if Register in s.calls {
      RegisteredHandlers(exit, pumps, v2, closeFails, prior, hasList);
      if hasList {
        assert RegisterHandlers(prior, true) == [QueueHandler];
      }
    }
  }

  /** A session that reached registration makes no reset or registration
      after it, so its handlers are those of the registration. */
  lemma RegisteredHandlers(exit: Exit, pumps: nat, v2: bool, closeFails: bool, prior: seq<Handler>, hasList: bool)
    requires Register in SessionOf(v2, exit, pumps, closeFails).calls
    ensures HandlersAfter(SessionOf(v2, exit, pumps, closeFails).calls, prior, hasList) == RegisterHandlers(prior, hasList)
  {
    SessionCallsShape(v2, exit, pumps, closeFails);
    RegisterNeedsSetup(exit, pumps);
    if !exit.Interrupted? && exit.at == AtSetup {
      SetupFailureHandlers(exit, pumps, prior, hasList);
    } else if exit.Interrupted? || exit.at == AtPump {
      LoopHandlers(exit, pumps, prior, hasList);
    } else {
      assert false;
    }
  }

  /** Either version makes the attempted calls, then possibly a disconnect. */
  lemma SessionCallsShape(v2: bool, exit: Exit, pumps: nat, closeFails: bool)
    ensures var calls := SessionOf(v2, exit, pumps, closeFails).calls;
      calls == Attempted(exit, pumps) || calls == Attempted(exit, pumps) + [Disconnect]
  {
  }

  /** Registration is reached only by sessions that got past connecting. */
  lemma RegisterNeedsSetup(exit: Exit, pumps: nat)
    ensures Register in Attempted(exit, pumps) || Register in Attempted(exit, pumps) + [Disconnect] ==>
      exit.Interrupted? || exit.at == AtSetup || exit.at == AtPump
  {
    if !exit.Interrupted? && exit.at == AtCreate {
      assert Attempted(exit, pumps) + [Disconnect] == [Create, Disconnect];
    } else if !exit.Interrupted? && exit.at == AtConnect {
      assert Attempted(exit, pumps) + [Disconnect] == [Create, ResetHandlers, Connect, Disconnect];
    }
  }

  lemma SetupFailureHandlers(exit: Exit, pumps: nat, prior: seq<Handler>, hasList: bool)
    requires !exit.Interrupted? && exit.at == AtSetup
    ensures var tried := Attempted(exit, pumps);
      && HandlersAfter(tried, prior, hasList) == RegisterHandlers(prior, hasList)
      && HandlersAfter(tried + [Disconnect], prior, hasList) == RegisterHandlers(prior, hasList)
  {
    var tried := Attempted(exit, pumps);
    assert tried == Registration + [SetLeds];
    assert Quiet([SetLeds]) && Quiet([Disconnect]);
    HandlersOfRegistration(prior, hasList);
    QuietTail(Registration, [SetLeds], prior, hasList);
    QuietTail(tried, [Disconnect], prior, hasList);
  }

  lemma LoopHandlers(exit: Exit, pumps: nat, prior: seq<Handler>, hasList: bool)
    requires exit.Interrupted? || exit.at == AtPump
    ensures var tried := Attempted(exit, pumps);
      && HandlersAfter(tried, prior, hasList) == RegisterHandlers(prior, hasList)
      && HandlersAfter(tried + [Disconnect], prior, hasList) == RegisterHandlers(prior, hasList)
  {
    var tried := Attempted(exit, pumps);
    var rest := [SetLeds, Vibrate] + Pumps(pumps + 1);
    assert tried == Registration + rest;
    forall i | 0 <= i < |rest|
      ensures rest[i] != ResetHandlers && rest[i] != Register
    {
      if i >= 2 {
        assert rest[i] == Pumps(pumps + 1)[i - 2];
      }
    }
    assert Quiet([Disconnect]);
    HandlersOfRegistration(prior, hasList);
    QuietTail(Registration, rest, prior, hasList);
    QuietTail(tried, [Disconnect], prior, hasList);
  }

  /** A session that fails before the run loop, with or without the final disconnect. */
  lemma EarlyExitOrdered(exit: Exit)
    requires !exit.Interrupted? && exit.at != AtPump
    ensures WellOrdered(Attempted(exit, 0)) && WellOrdered(Attempted(exit, 0) + [Disconnect])
  {
    var tried := Attempted(exit, 0);
    var closed := tried + [Disconnect];
    assert closed[..|tried|] == tried;
  }

  /** A session that reached the run loop, with or without the final disconnect. */
  lemma LoopOrdered(pumps: nat)
    ensures WellOrdered(Attempted(Interrupted, pumps)) && WellOrdered(Attempted(Interrupted, pumps) + [Disconnect])
    ensures Attempted(Interrupted, pumps) == Attempted(Raised(AtPump), pumps) == Attempted(Terminated(AtPump), pumps)
  {
    var setup := [Create, ResetHandlers, Connect, Register, SetLeds, Vibrate];
    var tried := Attempted(Interrupted, pumps);
    var calls := tried + [Disconnect];
    assert calls == setup + Pumps(pumps + 1) + [Disconnect];
    assert calls[..|tried|] == tried;
    forall i | 0 <= i < |calls|
      ensures calls[i] == Register ==> i == 3
      ensures calls[i] == Pump ==> 6 <= i
      ensures calls[i] == Disconnect ==> i == |calls| - 1
    {
      if i < 6 {
        assert calls[i] == setup[i];
      } else if i < |calls| - 1 {
        assert calls[i] == Pumps(pumps + 1)[i - 6];
      }
    }
  }
}

=== FILE: server.dfy ===
/** The orchestration decisions of project/server.py: the collect-data
    request with its bounded retry loop, the real-time on/off toggle, and
    the status codes of reconnect, get-accuracy, train-model and power-off.
    Processes are replaced by their state at the deadline, files by their
    decoded contents, and the HTTP layer by (status, reply) pairs. */
module Server {
  import opened Basics
  import opened PyJson
  import opened Dataset
  import opened CaptureJob
  import Probe
  import RealtimeSession

  /** seconds = 10, max_retries = 3, and each worker is joined for seconds + 15. */
  const Seconds: nat := 10
  const MaxRetries: nat := 3
  const JoinSeconds: nat := Seconds + 15

  /** The JSON replies the routes produce, by meaning. */
  datatype Reply =
    | Completed(step: Json)
    | InvalidStep
    | CollectTimedOut
    | RealtimeStarted
    | RealtimeStopped
    | Reconnected
    | ReconnectTimedOut
    | ReconnectFailed
    | Accuracy(value: Json)
    | AccuracyMissing
    | ServerError
    /** Flask's own error page for an exception the route does not catch:
        status 500 with an HTML body, not JSON. */
    | Unhandled
    | TrainingCompleted
    | TrainingFailed
    | PowerOffDone

  datatype Response = Response(status: nat, reply: Reply)

  /** What collect_data does besides answering, in order. */
  datatype Action = ResetDataset | Launch(attempt: nat) | Wait(attempt: nat, seconds: nat) | Terminate(attempt: nat) | Ended(attempt: nat)

  datatype Handled = Handled(response: Response, actions: seq<Action>)

  /** `etiqueta_num is None or etiqueta_num not in range(6)` rejects the
      request; a body that is not a JSON object makes data.get raise. */
  predicate StepValid(body: Json) {
    body.JObject? && var v := Get(body.fields, "step"); v.Some? && v.value != JNull && InRange(v.value, ProjectLabels)
  }

  /** The step as a label for the worker. */
  function StepOf(body: Json): (k: nat)
    requires StepValid(body)
    ensures k < ProjectLabels
  {
    AsIndex(Get(body.fields, "step").value, ProjectLabels)
  }

  /** The retry loop from attempt k on. */
  function Retry(step: Json, k: nat, outcome: nat -> Probe.Attempt): (r: Handled)
    requires k <= MaxRetries
    decreases MaxRetries - k
  {
    if k == MaxRetries then Handled(Response(500, CollectTimedOut), [])
    else
      if outcome(k) == Probe.Exited then Handled(Response(200, Completed(step)), [Launch(k), Wait(k, JoinSeconds), Ended(k)])
      else
        var rest := Retry(step, k + 1, outcome);
        Handled(rest.response, [Launch(k), Wait(k, JoinSeconds), Terminate(k)] + rest.actions)
  }

  /** The first attempt from k on whose worker had exited at its deadline. */
  ghost predicate FirstExitAt(k: nat, j: nat, outcome: nat -> Probe.Attempt) {
    k <= j < MaxRetries && outcome(j) == Probe.Exited && forall i :: k <= i < j ==> outcome(i) == Probe.AliveAtDeadline
  }

  function CountLaunches(acts: seq<Action>): nat
    decreases |acts|
  {
    if acts == [] then 0 else (if acts[0].Launch? then 1 else 0) + CountLaunches(acts[1..])
  }

  /** Workers running after a prefix of actions: a launch starts one, and a
      termination or an observed exit ends it. */
  function Live(acts: seq<Action>): int
    decreases |acts|
  {
    if acts == [] then 0
    else Live(acts[..|acts| - 1]) + (match acts[|acts| - 1]
      case Launch(_) => 1
      case Terminate(_) => -1
      case Ended(_) => -1
      case _ => 0)
  }

  lemma {:induction false} LiveConcat(a: seq<Action>, b: seq<Action>)
    ensures Live(a + b) == Live(a) + Live(b)
    decreases |b|
  {
    if b == [] {
      assert a + b == a;
    } else {
      var n := |b| - 1;
      assert (a + b)[..|a + b| - 1] == a + b[..n];
      LiveConcat(a, b[..n]);
    }
  }

  lemma {:induction false} CountLaunchesConcat(a: seq<Action>, b: seq<Action>)
    ensures CountLaunches(a + b) == CountLaunches(a) + CountLaunches(b)
    decreases |a|
  {
    if a == [] {
      assert a + b == b;
    } else {
      assert (a + b)[0] == a[0];
      assert (a + b)[1..] == a[1..] + b;
      CountLaunchesConcat(a[1..], b);
    }
  }

  /** Every prefix of a log has at most one worker running and none ended twice. */
  ghost predicate NeverOverlaps(acts: seq<Action>) {
    forall n :: 0 <= n <= |acts| ==> 0 <= Live(acts[..n]) <= 1
  }

  /** The retry loop answers 200 with the step at the first attempt whose
      worker had exited, and 500 exactly when every remaining attempt was
      still alive at its deadline. */
  lemma {:induction false} RetryOutcome(step: Json, k: nat, outcome: nat -> Probe.Attempt)
    requires k <= MaxRetries
    ensures var r := Retry(step, k, outcome);
      && (r.response.status == 200 <==> exists j :: FirstExitAt(k, j, outcome))
      && (r.response.status == 200 ==> r.response.reply == Completed(step))
      && (r.response.status == 500 <==> forall i :: k <= i < MaxRetries ==> outcome(i) == Probe.AliveAtDeadline)
      && (r.response.status == 200 || r.response.status == 500)
    decreases MaxRetries - k
  {
    if k < MaxRetries {
      if outcome(k) == Probe.Exited {
        assert FirstExitAt(k, k, outcome);
      } else {
        RetryOutcome(step, k + 1, outcome);
        assert Retry(step, k, outcome).response == Retry(step, k + 1, outcome).response;
        if Retry(step, k + 1, outcome).response.status == 200 {
          var j :| FirstExitAt(k + 1, j, outcome);
          assert FirstExitAt(k, j, outcome);
        }
        forall j | FirstExitAt(k, j, outcome)
          ensures FirstExitAt(k + 1, j, outcome)
        {
          assert j != k;
        }
      }
    }
  }

  /** The retry loop's log: at most three launches, each waited on for
      25 s, attempts that never overlap, and no dataset reset. */
  lemma {:induction false} RetryLog(step: Json, k: nat, outcome: nat -> Probe.Attempt)
    requires k <= MaxRetries
    ensures var r := Retry(step, k, outcome);
      && CountLaunches(r.actions) <= MaxRetries - k
      && Live(r.actions) == 0
      && NeverOverlaps(r.actions)
      && ResetDataset !in r.actions
    decreases MaxRetries - k
  {
    if k == MaxRetries {
      assert Retry(step, k, outcome).actions == [];
    } else if outcome(k) == Probe.Exited {
      ExitedAttemptLog(step, k, outcome);
    } else {
      RetryLog(step, k + 1, outcome);
      TimedOutAttemptLog(step, k, outcome);
    }
  }

  /** A log with at most `launches` launches, nothing left running, no two
      workers running at once and no dataset reset. */
  ghost predicate GoodLog(acts: seq<Action>, launches: nat) {
    CountLaunches(acts) <= launches && Live(acts) == 0 && NeverOverlaps(acts) && ResetDataset !in acts
  }

  /** The attempt whose worker exited ends the loop with its own three actions. */
  lemma ExitedAttemptLog(step: Json, k: nat, outcome: nat -> Probe.Attempt)
    requires k < MaxRetries && outcome(k) == Probe.Exited
    ensures GoodLog(Retry(step, k, outcome).actions, MaxRetries - k)
  {
    var acts := [Launch(k), Wait(k, JoinSeconds), Ended(k)];
    assert Retry(step, k, outcome).actions == acts;
    NeverOverlapsSingle(acts, Ended(k), k);
  }

  /** A timed-out attempt is terminated and followed by the later attempts' log. */
  lemma TimedOutAttemptLog(step: Json, k: nat, outcome: nat -> Probe.Attempt)
    requires k < MaxRetries && outcome(k) != Probe.Exited
    requires GoodLog(Retry(step, k + 1, outcome).actions, MaxRetries - (k + 1))
    ensures GoodLog(Retry(step, k, outcome).actions, MaxRetries - k)
  {
    var rest := Retry(step, k + 1, outcome).actions;
    assert Retry(step, k, outcome).actions == [Launch(k), Wait(k, JoinSeconds), Terminate(k)] + rest;
    AttemptLog(k, Terminate(k), rest);
  }

  /** One attempt's three actions followed by a well-formed log of later attempts. */
  lemma AttemptLog(k: nat, last: Action, rest: seq<Action>)
    requires last == Ended(k) || last == Terminate(k)
    requires NeverOverlaps(rest) && Live(rest) == 0 && ResetDataset !in rest
    ensures var acts := [Launch(k), Wait(k, JoinSeconds), last] + rest;
      && CountLaunches(acts) == 1 + CountLaunches(rest)
      && Live(acts) == 0
      && NeverOverlaps(acts)
      && ResetDataset !in acts
  {
    var head := [Launch(k), Wait(k, JoinSeconds), last];
    NeverOverlapsSingle(head, last, k);
    CountLaunchesConcat(head, rest);
    LiveConcat(head, rest);
    NeverOverlapsAppend(head, rest);
  }

  /** One attempt's log: launch, wait, and the event that ends the worker. */
  lemma NeverOverlapsSingle(acts: seq<Action>, last: Action, k: nat)
    requires last == Ended(k) || last == Terminate(k)
    requires acts == [Launch(k), Wait(k, JoinSeconds), last]
    ensures NeverOverlaps(acts) && Live(acts) == 0
    ensures CountLaunches(acts) == 1
  {
    var p0 := acts[..0];
    var p1 := acts[..1];
    var p2 := acts[..2];
    assert p0 == [];
    assert p1[..0] == p0;
    assert Live(p1) == 1;
    assert p2[..1] == p1;
    assert Live(p2) == 1;
    assert acts[..2] == p2;
    assert Live(acts) == 0;
    assert acts[..3] == acts;
    forall n | 0 <= n <= |acts|
      ensures 0 <= Live(acts[..n]) <= 1
    {
      if n == 0 { assert acts[..n] == p0; }
      else if n == 1 { assert acts[..n] == p1; }
      else if n == 2 { assert acts[..n] == p2; }
      else { assert acts[..n] == acts; }
    }
    var t1 := acts[1..];
    var t2 := t1[1..];
    assert t2 == [last] && t2[1..] == [];
    assert CountLaunches(t2) == 0;
    assert t1[0] == Wait(k, JoinSeconds);
    assert CountLaunches(t1) == 0;
  }

  lemma NeverOverlapsAppend(a: seq<Action>, b: seq<Action>)
    requires NeverOverlaps(a) && Live(a) == 0 && NeverOverlaps(b)
    ensures NeverOverlaps(a + b)
  {
    forall n | 0 <= n <= |a + b|
      ensures 0 <= Live((a + b)[..n]) <= 1
    {
      if n <= |a| {
        assert (a + b)[..n] == a[..n];
      } else {
        assert (a + b)[..n] == a + b[..n - |a|];
        LiveConcat(a, b[..n - |a|]);
      }
    }
  }

  /** collect_data, given each attempt's state at its deadline. A body
      that is not a JSON object has no `get`: the AttributeError is not
      caught, so Flask answers with its own error page. */
  function CollectData(body: Json, outcome: nat -> Probe.Attempt): (r: Handled)
    ensures !StepValid(body) ==> r.response.status in {400, 500} && r.actions == []
    ensures r.response.reply == Unhandled <==> !body.JObject?
    ensures StepValid(body) ==> r.response.status in {200, 500}
    ensures ResetDataset in r.actions <==> StepValid(body) && StepOf(body) == 0
    ensures ResetDataset in r.actions ==> (r.actions[0] == ResetDataset
      && forall i :: 0 < i < |r.actions| ==> r.actions[i] != ResetDataset)
  {
    if !body.JObject? then Handled(Response(500, Unhandled), [])
    else if !StepValid(body) then Handled(Response(400, InvalidStep), [])
    else
      var step := Get(body.fields, "step").value;
      var reset := if StepOf(body) == 0 then [ResetDataset] else [];
      RetryOutcome(step, 0, outcome);
      RetryLog(step, 0, outcome);
      var tries := Retry(step, 0, outcome);
      Handled(tries.response, reset + tries.actions)
  }

  /** A well-formed body with a step outside 0..5 is rejected with 400 before anything runs. */
  lemma InvalidStepRejected(body: Json, outcome: nat -> Probe.Attempt)
    requires body.JObject? && !StepValid(body)
    ensures CollectData(body, outcome) == Handled(Response(400, InvalidStep), [])
  {
  }

  /** For a valid step the answer is 200 with the step at the first exited
      attempt, and 500 iff all three were alive at their deadline; at most
      three workers are launched and they never overlap. */
  lemma {:induction false} CollectDataRetries(body: Json, outcome: nat -> Probe.Attempt)
    requires StepValid(body)
    ensures var r := CollectData(body, outcome);
      && (r.response.status == 200 <==> exists j :: FirstExitAt(0, j, outcome))
      && (r.response.status == 200 ==> r.response.reply == Completed(Get(body.fields, "step").value))
      && (r.response.status == 500 <==> forall i :: 0 <= i < MaxRetries ==> outcome(i) == Probe.AliveAtDeadline)
      && CountLaunches(r.actions) <= MaxRetries
      && NeverOverlaps(r.actions)
  {
    var step := Get(body.fields, "step").value;
    RetryOutcome(step, 0, outcome);
    RetryLog(step, 0, outcome);
    var tries := Retry(step, 0, outcome);
    var reset := if StepOf(body) == 0 then [ResetDataset] else [];
    var r := CollectData(body, outcome);
    assert r.actions == reset + tries.actions;
    CountLaunchesConcat(reset, tries.actions);
    if reset == [] {
      assert r.actions == tries.actions;
    } else {
      ResetKeepsNoOverlap(tries.actions);
    }
  }

  /** Clearing the dataset before the retry loop starts no worker. */
  lemma ResetKeepsNoOverlap(acts: seq<Action>)
    requires NeverOverlaps(acts)
    ensures NeverOverlaps([ResetDataset] + acts)
  {
    var all := [ResetDataset] + acts;
    forall n | 0 <= n <= |all|
      ensures 0 <= Live(all[..n]) <= 1
    {
      if n == 0 {
        assert all[..0] == [];
      } else {
        assert all[..n] == [ResetDataset] + acts[..n - 1];
        LiveConcat([ResetDataset], acts[..n - 1]);
        assert [ResetDataset][..0] == [];
      }
    }
  }

  /** How one collect job ends, as the server sees it at the join deadline. */
  function AttemptOf(e: JobEnd): (a: Probe.Attempt)
    ensures a == Probe.AliveAtDeadline <==> e.Running?
  {
    if e.Running? then Probe.AliveAtDeadline else Probe.Exited
  }

  /** The exit status is not inspected: a job that crashed before writing
      anything is still answered as completed. */
  lemma CrashedJobReportedCompleted(body: Json, pumps: nat, outcome: nat -> Probe.Attempt)
    requires StepValid(body) && outcome(0) == AttemptOf(Crashed(pumps))
    ensures CollectData(body, outcome).response == Response(200, Completed(Get(body.fields, "step").value))
  {
  }

  /** The dataset after collect_data when the first attempt's job ends as e:
      label 0 recreates the file first; a flushed job appends its batch. */
  function CollectDataFile(f: File, body: Json, e: JobEnd): (r: File)
    requires StepValid(body)
    ensures StepOf(body) == 0 ==> Persist(AppendMode, CsvCreate(f), e) == Some(r)
    ensures StepOf(body) != 0 ==> Persist(AppendMode, f, e) == Some(r)
  {
    var start := if StepOf(body) == 0 then CsvCreate(f) else f;
    Persist(AppendMode, start, e).value
  }

  function StepBody(k: nat): Json {
    JObject([("step", JInt(k))])
  }

  /** Six collect-data requests for steps 0..5, each completed on its first
      attempt, build the same dataset as the V2 collector's own driver. */
  function ClientSession(f: File, feeds: seq<JobFeed>, k: nat): (r: File)
    requires k <= |feeds| <= ProjectLabels
    decreases |feeds| - k
  {
    if k == |feeds| then f
    else
      var e := Job(CaptureSeconds, k, ProjectLabels, feeds[k]);
      assert Get(StepBody(k).fields, "step") == Some(JInt(k));
      ClientSession(CollectDataFile(f, StepBody(k), e), feeds, k + 1)
  }

  lemma {:induction false} ClientSessionMatchesDriver(f: File, feeds: seq<JobFeed>, k: nat)
    requires 0 < k <= |feeds| == ProjectLabels
    requires f.Some? && f.value.header == Header
    requires forall i :: 0 <= i < |feeds| ==> !Job(CaptureSeconds, i, ProjectLabels, feeds[i]).Running?
    ensures ClientSession(f, feeds, k) == Some(Table(Header, f.value.rows + Collected(ProjectLabels, k, feeds[k..])))
    decreases |feeds| - k
  {
    if k == |feeds| {
      assert feeds[k..] == [];
      assert f.value.rows + [] == f.value.rows;
    } else {
      var e := Job(CaptureSeconds, k, ProjectLabels, feeds[k]);
      ClientStepAppends(f, feeds, k);
      var g := CollectDataFile(f, StepBody(k), e);
      ClientSessionMatchesDriver(g, feeds, k + 1);
      CollectedFrom(ProjectLabels, feeds, k);
      ConcatAssoc(f.value.rows, Batch(e), Collected(ProjectLabels, k + 1, feeds[k + 1..]));
    }
  }

  /** A completed request for a step other than 0 appends its job's batch,
      and the session carries on from the new file. */
  lemma ClientStepAppends(f: File, feeds: seq<JobFeed>, k: nat)
    requires 0 < k < |feeds| == ProjectLabels
    requires f.Some? && f.value.header == Header
    ensures var e := Job(CaptureSeconds, k, ProjectLabels, feeds[k]);
      && StepValid(StepBody(k))
      && CollectDataFile(f, StepBody(k), e) == Some(Table(Header, f.value.rows + Batch(e)))
      && ClientSession(f, feeds, k) == ClientSession(CollectDataFile(f, StepBody(k), e), feeds, k + 1)
  {
    var e := Job(CaptureSeconds, k, ProjectLabels, feeds[k]);
    assert Get(StepBody(k).fields, "step") == Some(JInt(k));
    PersistAppends(AppendMode, f, e);
  }

  /** The batches from label k on: batch k, then those from k + 1. */
  lemma CollectedFrom(known: nat, feeds: seq<JobFeed>, k: nat)
    requires k < |feeds|
    ensures Collected(known, k, feeds[k..])
      == Batch(Job(CaptureSeconds, k, known, feeds[k])) + Collected(known, k + 1, feeds[k + 1..])
  {
    assert feeds[k..][0] == feeds[k] && feeds[k..][1..] == feeds[k + 1..];
  }

  /** Label 0 resets the dataset: a session of steps 0..5 whose jobs all end
      yields exactly the file of the standalone V2 collector. */
  lemma ClientSessionIsDriverV2(f: File, feeds: seq<JobFeed>)
    requires |feeds| == ProjectLabels
    requires forall i :: 0 <= i < |feeds| ==> !Job(CaptureSeconds, i, ProjectLabels, feeds[i]).Running?
    ensures DriverV2(f, feeds).Finished?
    ensures ClientSession(f, feeds, 0) == DriverV2(f, feeds).file
  {
    var e := Job(CaptureSeconds, 0, ProjectLabels, feeds[0]);
    assert Get(StepBody(0).fields, "step") == Some(JInt(0));
    var g := CollectDataFile(f, StepBody(0), e);
    var c := CsvCreate(f);
    PersistAppends(AppendMode, c, e);
    ClientSessionMatchesDriver(g, feeds, 1);
    RunLabelsAppendsBatches(AppendMode, ProjectLabels, c, 0, feeds);
    assert feeds[1..] == feeds[0..][1..];
    assert feeds[0..] == feeds;
    ConcatAssoc([], Batch(e), Collected(ProjectLabels, 1, feeds[1..]));
  }

  /** The realtime_process slot over time: every process ever started, the
      current one last, with whether it is alive; and whether the RealTimeTestv2
      module has been imported. Importing it loads the trained model, and a
      successful import is cached, so only the first one can fail. */
  datatype Realtime = Realtime(procs: seq<bool>, loaded: bool)

  /** Only the process in the slot can be alive. */
  ghost predicate AtMostOneLive(rt: Realtime) {
    forall i :: 0 <= i < |rt.procs| - 1 ==> !rt.procs[i]
  }

  /** A worker was only ever started after a successful import. */
  ghost predicate StartedAfterImport(rt: Realtime) {
    |rt.procs| > 0 ==> rt.loaded
  }

  /** /api/realtime: import the worker's module, then start a worker when
      the slot is empty or dead, otherwise terminate and join the live one;
      both answer 200. `imports` says whether a first import would succeed;
      when it raises (the model file is missing or unreadable) nothing is
      started or stopped and Flask answers its own 500 page. */
  function Toggle(rt: Realtime, imports: bool): (r: (Realtime, Response))
    ensures r.1.status == 200 <==> rt.loaded || imports
    ensures !(rt.loaded || imports) ==> r.0 == rt && r.1 == Response(500, Unhandled)
    ensures rt.loaded || imports ==> r.0.loaded
    ensures AtMostOneLive(rt) ==> AtMostOneLive(r.0)
    ensures StartedAfterImport(rt) ==> StartedAfterImport(r.0)
    ensures (rt.loaded || imports) && |rt.procs| > 0 && rt.procs[|rt.procs| - 1] ==>
      r.0.procs == rt.procs[..|rt.procs| - 1] + [false] && r.1.reply == RealtimeStopped
    ensures (rt.loaded || imports) && !(|rt.procs| > 0 && rt.procs[|rt.procs| - 1]) ==>
      r.0.procs == rt.procs + [true] && r.1.reply == RealtimeStarted
  {
    var n := |rt.procs|;
    if !rt.loaded && !imports then (rt, Response(500, Unhandled))
    else if n == 0 || !rt.procs[n - 1] then (Realtime(rt.procs + [true], true), Response(200, RealtimeStarted))
    else (Realtime(rt.procs[..n - 1] + [false], true), Response(200, RealtimeStopped))
  }

  /** A worker may end on its own (a crash inside tiemporeal). */
  function Dies(rt: Realtime, i: nat): (r: Realtime)
    requires i < |rt.procs|
    ensures |r.procs| == |rt.procs| && !r.procs[i] && r.loaded == rt.loaded
    ensures forall j :: 0 <= j < |rt.procs| && j != i ==> r.procs[j] == rt.procs[j]
    ensures AtMostOneLive(rt) ==> AtMostOneLive(r)
  {
    rt.(procs := rt.procs[i := false])
  }

  function Live1(ps: seq<bool>): nat
    decreases |ps|
  {
    if ps == [] then 0
    else Live1(ps[..|ps| - 1]) + (if ps[|ps| - 1] then 1 else 0)
  }

  /** At most one realtime worker is ever running, when toggles are handled
      one at a time. */
  lemma {:induction false} OneRealtimeWorker(rt: Realtime)
    requires AtMostOneLive(rt)
    ensures Live1(rt.procs) <= 1
    ensures Live1(rt.procs) == 1 <==> |rt.procs| > 0 && rt.procs[|rt.procs| - 1]
  {
    if rt.procs != [] {
      NoneLive(rt.procs[..|rt.procs| - 1]);
    }
  }

  lemma {:induction false} NoneLive(ps: seq<bool>)
    requires forall i :: 0 <= i < |ps| ==> !ps[i]
    ensures Live1(ps) == 0
    decreases |ps|
  {
    if ps != [] {
      NoneLive(ps[..|ps| - 1]);
    }
  }

  /** Toggling twice without interference starts and then stops a worker;
      once the first import succeeded, the second request reuses the cached
      module whatever a fresh import would do. */
  lemma ToggleTwice(rt: Realtime, imports: bool, again: bool)
    requires !(|rt.procs| > 0 && rt.procs[|rt.procs| - 1])
    requires rt.loaded || imports
    ensures var a := Toggle(rt, imports); var b := Toggle(a.0, again);
      a.1.reply == RealtimeStarted && b.1.reply == RealtimeStopped && b.0.procs == rt.procs + [false]
  {
    var a := Toggle(rt, imports);
    assert a.0.procs[..|a.0.procs| - 1] == rt.procs;
  }

  /** The stop branch terminates the live worker: wherever the kill lands,
      tiemporeal's `finally` does not run, so the worker never disconnects
      the device and reports nothing. */
  lemma StopLeavesDeviceConnected(rt: Realtime, imports: bool, at: RealtimeSession.Stage, pumps: nat, closeFails: bool)
    requires rt.loaded || imports
    requires |rt.procs| > 0 && rt.procs[|rt.procs| - 1]
    ensures Toggle(rt, imports).1 == Response(200, RealtimeStopped)
    ensures var s := RealtimeSession.TiempoReal(RealtimeSession.Terminated(at), pumps, closeFails);
      RealtimeSession.Disconnect !in s.calls && !s.escapes
  {
    RealtimeSession.TerminatedNeverDisconnects(at, pumps, closeFails);
  }

  /** A failed import is not cached: every request retries it, and until one
      succeeds no worker is ever started. */
  lemma FailedImportRetried(rt: Realtime, imports: bool)
    requires !rt.loaded && !imports
    ensures Toggle(Toggle(rt, false).0, imports) == (rt, Response(500, Unhandled))
  {
  }

  /** /api/reconnect: the probe's answer, or None when it raised. */
  function Reconnect(probe: Option<bool>): (r: Response)
    ensures r.status == 200 <==> probe == Some(true)
    ensures r.status == 408 <==> probe == Some(false)
    ensures r.status == 500 <==> probe.None?
  {
    match probe
    case Some(true) => Response(200, Reconnected)
    case Some(false) => Response(408, ReconnectTimedOut)
    case None => Response(500, ReconnectFailed)
  }

  /** Reconnect driven by the probe of reconectar.py: 408 exactly when the probe child was still blocked. */
  lemma ReconnectFollowsProbe(w: Probe.WorkerRun)
    ensures Reconnect(Some(Probe.IntentarConectar(Probe.DefaultTimeout, Probe.OutcomeOf(w)).connected)).status
      == (if w == Probe.ConnectHung then 408 else 200)
  {
  }

  /** model_metadata.json: missing, not valid JSON, or its decoded value. */
  datatype Metadata = NoFile | Unparsable | Decoded(value: Json)

  /** /api/get-accuracy. */
  function GetAccuracy(m: Metadata): (r: Response)
    ensures r.status == 200 <==> (m.Decoded? && m.value.JObject?
      && Get(m.value.fields, "accuracy").Some? && Get(m.value.fields, "accuracy").value != JNull)
    ensures r.status == 200 ==> r.reply == Accuracy(Get(m.value.fields, "accuracy").value)
    ensures r.status == 404 <==> (m.Decoded? && m.value.JObject?
      && (Get(m.value.fields, "accuracy").None? || Get(m.value.fields, "accuracy").value == JNull))
    ensures r.status in {200, 404, 500}
  {
    match m
    case NoFile => Response(500, ServerError)
    case Unparsable => Response(500, ServerError)
    case Decoded(v) =>
      if !v.JObject? then Response(500, ServerError)
      else
        var a := Get(v.fields, "accuracy");
        if a.Some? && a.value != JNull then Response(200, Accuracy(a.value)) else Response(404, AccuracyMissing)
  }

  /** What train() did: returned (success, val_acc), or raised. */
  datatype TrainOutcome = Trained(success: bool, valAcc: Json) | TrainRaised

  /** /api/train-model: on success the metadata file is rewritten with the accuracy. */
  function TrainModel(m: Metadata, t: TrainOutcome): (r: (Metadata, Response))
    ensures r.1.status == 200 <==> t.Trained? && t.success
    ensures r.1.status == 200 ==> r.0 == Decoded(JObject([("accuracy", t.valAcc)]))
    ensures r.1.status != 200 ==> r.0 == m
    ensures t.Trained? && !t.success ==> r.1.status == 501
    ensures t.TrainRaised? ==> r.1.status == 500
  {
    match t
    case TrainRaised => (m, Response(500, ServerError))
    case Trained(ok, acc) =>
      if ok then (Decoded(JObject([("accuracy", acc)])), Response(200, TrainingCompleted))
      else (m, Response(501, TrainingFailed))
  }

  /** The accuracy stored by a successful training is the one get-accuracy returns. */
  lemma TrainThenGetAccuracy(m: Metadata, acc: Json)
    requires acc != JNull
    ensures GetAccuracy(TrainModel(m, Trained(true, acc)).0) == Response(200, Accuracy(acc))
  {
    assert Get([("accuracy", acc)], "accuracy") == Some(acc);
  }

  /** /api/power-off: one reply per outcome of power_off_myo, which turns
      its own exceptions into False. */
  function PowerOff(poweredOff: bool): Response {
    if poweredOff then Response(200, PowerOffDone)
    else Response(200, PowerOffDone)
  }
}

=== FILE: startup_prompt.dfy ===
/** The module-level start-up of the V1 collector
    (pyomyo/DatasetExtract/data_collector.py): when the dataset file
    exists, ask until the trimmed, upper-cased answer is A or B; B deletes
    the file, A keeps it; then a missing file is created with the header.
    Afterwards labels 0..3 are captured with the read-concat-write flush,
    each in a spawned child that runs this start-up again. The console is
    replaced by the sequence of lines typed, one sequence per process. */
module StartupPrompt {
  import opened Basics
  import opened Dataset
  import opened CaptureJob

  /** The characters str.strip() removes that this model knows: ASCII
      whitespace, the information separators 0x1c-0x1f, NEL and NBSP. */
  predicate IsPySpace(c: char) {
    var n := c as int;
    (9 <= n <= 13) || (28 <= n <= 32) || n == 0x85 || n == 0xA0
  }

  /** Number of leading whitespace characters. */
  function LeadingSpace(s: string): (n: nat)
    ensures n <= |s|
    ensures forall k :: 0 <= k < n ==> IsPySpace(s[k])
    ensures n < |s| ==> !IsPySpace(s[n])
    decreases |s|
  {
    if s == [] || !IsPySpace(s[0]) then 0
    else
      var m := LeadingSpace(s[1..]);
      assert forall k :: 1 <= k < m + 1 ==> s[k] == s[1..][k - 1];
      m + 1
  }

  /** Start of the trailing whitespace run. */
  function TrailingStart(s: string): (m: nat)
    ensures m <= |s|
    ensures forall k :: m <= k < |s| ==> IsPySpace(s[k])
    ensures m > 0 ==> !IsPySpace(s[m - 1])
    decreases |s|
  {
    if s == [] || !IsPySpace(s[|s| - 1]) then |s|
    else TrailingStart(s[..|s| - 1])
  }

  /** str.strip(): drop the whitespace at both ends. */
  function Strip(s: string): (r: string)
    ensures |r| > 0 ==> !IsPySpace(r[0]) && !IsPySpace(r[|r| - 1])
    ensures var i := LeadingSpace(s);
      && i + |r| <= |s| && r == s[i..i + |r|]
      && (forall k :: i + |r| <= k < |s| ==> IsPySpace(s[k]))
  {
    var i := LeadingSpace(s);
    if i == |s| then
      assert s[i..i + 0] == [];
      []
    else
      var j := TrailingStart(s);
      assert i < j;
      var r := s[i..j];
      assert s[i..i + |r|] == r;
      r
  }

  /** A string with no whitespace at either end is its own strip. */
  lemma StripTrimmed(s: string)
    requires |s| > 0 ==> !IsPySpace(s[0]) && !IsPySpace(s[|s| - 1])
    ensures Strip(s) == s
  {
    if |s| > 0 {
      assert LeadingSpace(s) == 0;
      assert TrailingStart(s) == |s|;
      assert s[0..|s|] == s;
    }
  }

  /** Stripping twice is stripping once. */
  lemma StripIdempotent(s: string)
    ensures Strip(Strip(s)) == Strip(s)
  {
    StripTrimmed(Strip(s));
  }

  function UpperChar(c: char): (d: char)
    ensures 'a' <= c <= 'z' ==> d as int == c as int - 32
    ensures !('a' <= c <= 'z') ==> d == c
  {
    if 'a' <= c <= 'z' then (c as int - 32) as char else c
  }

  /** str.upper() on ASCII letters. */
  function Upper(s: string): (r: string)
    ensures |r| == |s|
    ensures forall k :: 0 <= k < |s| ==> r[k] == UpperChar(s[k])
  {
    seq(|s|, k requires 0 <= k < |s| => UpperChar(s[k]))
  }

  function Normalise(answer: string): string {
    Upper(Strip(answer))
  }

  /** The only answers accepted as A are "a" and "A" with any surrounding whitespace, and likewise for B. */
  lemma NormaliseAccepts(answer: string)
    ensures Normalise(answer) == "A" <==> Strip(answer) == "a" || Strip(answer) == "A"
    ensures Normalise(answer) == "B" <==> Strip(answer) == "b" || Strip(answer) == "B"
  {
    var t := Strip(answer);
    if |t| == 1 {
      assert Normalise(answer) == [UpperChar(t[0])];
      if t[0] == 'a' || t[0] == 'A' { assert t == "a" || t == "A"; }
      if t[0] == 'b' || t[0] == 'B' { assert t == "b" || t == "B"; }
    } else {
      assert |Normalise(answer)| != 1;
    }
  }

  predicate Valid(answer: string) {
    Normalise(answer) == "A" || Normalise(answer) == "B"
  }

  /** The `while True` prompt: the index of the first accepted line, or
      None when input runs out first (input() raises EOFError). */
  function Ask(answers: seq<string>): (r: Option<nat>)
    ensures r.Some? ==> r.value < |answers| && Valid(answers[r.value])
    ensures r.Some? ==> forall j :: 0 <= j < r.value ==> !Valid(answers[j])
    ensures r.None? ==> forall j :: 0 <= j < |answers| ==> !Valid(answers[j])
  {
    FirstFrom(answers, Valid, 0)
  }

  /** The index of the first line from i on that ok accepts. */
  function FirstFrom<T>(xs: seq<T>, ok: T -> bool, i: nat): (r: Option<nat>)
    requires i <= |xs|
    ensures r.Some? ==> i <= r.value < |xs| && ok(xs[r.value])
    ensures r.Some? ==> forall j :: i <= j < r.value ==> !ok(xs[j])
    ensures r.None? ==> forall j :: i <= j < |xs| ==> !ok(xs[j])
    decreases |xs| - i
  {
    if i == |xs| then None
    else if ok(xs[i]) then Some(i)
    else FirstFrom(xs, ok, i + 1)
  }

  /** Ask finds the first accepted line and nothing else. */
  lemma AskIsFirstValid(answers: seq<string>, k: nat)
    requires k < |answers| && Valid(answers[k])
    requires forall j :: 0 <= j < k ==> !Valid(answers[j])
    ensures Ask(answers) == Some(k)
  {
  }

  /** The start-up block: the file afterwards, or None when the prompt hit end of input. */
  function StartupV1(f: File, answers: seq<string>): (r: Option<File>)
    ensures r.None? <==> f.Some? && Ask(answers).None?
    ensures r.Some? ==> r.value.Some?
    ensures r.Some? && r.value != f ==> r.value == Some(Table(Header, []))
    ensures f.None? ==> r == Some(Some(Table(Header, [])))
    ensures f.Some? && r.Some? ==>
      (r.value == f <==> Normalise(answers[Ask(answers).value]) == "A" || f == Some(Table(Header, [])))
  {
    if f.None? then Some(Some(Table(Header, [])))
    else
      var k := Ask(answers);
      if k.None? then None
      else if Normalise(answers[k.value]) == "B" then Some(Some(Table(Header, [])))
      else Some(f)
  }

  /** The line the prompt settles on is A: the file is kept. */
  predicate Keeps(answers: seq<string>) {
    Ask(answers).Some? && Normalise(answers[Ask(answers).value]) == "A"
  }

  /** The line the prompt settles on is B: the file is recreated empty. */
  predicate Resets(answers: seq<string>) {
    Ask(answers).Some? && Normalise(answers[Ask(answers).value]) == "B"
  }

  /** What a child's start-up does to a file that exists: keep it (A),
      recreate it empty (B), or die at end of input before any answer. */
  datatype Choice = Keep | Reset | NoAnswer

  function ChildChoice(answers: seq<string>): (c: Choice)
    ensures c == Keep <==> Keeps(answers)
    ensures c == Reset <==> Resets(answers)
    ensures c == NoAnswer <==> Ask(answers).None?
  {
    var k := Ask(answers);
    if k.None? then NoAnswer
    else if Normalise(answers[k.value]) == "B" then Reset
    else Keep
  }

  /** Every child finds the file present (the parent's start-up created or
      kept it), so its start-up is the choice its lines decode to. */
  lemma ChildRepeatsStartup(f: File, answers: seq<string>)
    requires f.Some?
    ensures StartupV1(f, answers) ==
      match ChildChoice(answers)
      case Keep => Some(f)
      case Reset => Some(Some(Table(Header, [])))
      case NoAnswer => None
  {
  }

  function Choices(childAnswers: seq<seq<string>>): (r: seq<Choice>)
    ensures |r| == |childAnswers|
    ensures forall k :: 0 <= k < |r| ==> r[k] == ChildChoice(childAnswers[k])
  {
    seq(|childAnswers|, k requires 0 <= k < |childAnswers| => ChildChoice(childAnswers[k]))
  }

  /** The jobs for labels from, from + 1, ...: the collector runs on Windows
      (it imports msvcrt), where each job's process is spawned, re-imports the
      script and so runs the start-up block again before data_worker, with its
      own lines. A child whose prompt meets end of input dies there; its label
      contributes nothing and the parent, joining it, goes on. */
  function ChildrenV1(f: File, choices: seq<Choice>, from: int, feeds: seq<JobFeed>): DriverEnd
    requires |choices| == |feeds|
    decreases |feeds|
  {
    if feeds == [] then Finished(f)
    else if choices[0] == NoAnswer then ChildrenV1(f, choices[1..], from + 1, feeds[1..])
    else
      var start := if choices[0] == Reset then Some(Table(Header, [])) else f;
      var e := Job(CaptureSeconds, from, V1Labels, feeds[0]);
      if e.Running? then Blocked(start, from)
      else
        var g := Persist(RewriteMode, start, e);
        if g.None? then Unrepresented(start, from)
        else ChildrenV1(g.value, choices[1..], from + 1, feeds[1..])
  }

  /** The V1 collector: start-up in the parent, then labels 0..3, each in a
      child that first repeats the start-up. */
  function DriverV1(f: File, answers: seq<string>, childAnswers: seq<seq<string>>, feeds: seq<JobFeed>): Option<DriverEnd>
    requires |feeds| == V1Labels && |childAnswers| == V1Labels
  {
    var s := StartupV1(f, answers);
    if s.None? then None else Some(ChildrenV1(s.value, Choices(childAnswers), 0, feeds))
  }

  /** When every child answers A, the children's prompts change nothing and
      the loop is the plain read-concat-write loop over the labels. */
  lemma {:induction false} KeptByEveryChild(f: File, choices: seq<Choice>, from: int, feeds: seq<JobFeed>)
    requires |choices| == |feeds|
    requires forall k :: 0 <= k < |choices| ==> choices[k] == Keep
    ensures ChildrenV1(f, choices, from, feeds) == RunLabels(RewriteMode, V1Labels, f, from, feeds)
    decreases |feeds|
  {
    if feeds != [] {
      assert choices[0] == Keep;
      var e := Job(CaptureSeconds, from, V1Labels, feeds[0]);
      if !e.Running? {
        var g := Persist(RewriteMode, f, e);
        if g.Some? {
          forall k | 0 <= k < |choices[1..]| ensures choices[1..][k] == Keep {
            assert choices[1..][k] == choices[k + 1];
          }
          KeptByEveryChild(g.value, choices[1..], from + 1, feeds[1..]);
        }
      }
    }
  }

  /** After a reset in the first child, a completed loop holds exactly the
      batches from there on, whatever the file held. */
  lemma ResetFirstKeepsOwnBatches(f: File, choices: seq<Choice>, from: int, feeds: seq<JobFeed>)
    requires |choices| == |feeds| && |feeds| > 0
    requires choices[0] == Reset
    requires forall k :: 0 < k < |choices| ==> choices[k] == Keep
    ensures var d := ChildrenV1(f, choices, from, feeds);
      d.Finished? ==> d.file == Some(Table(Header, Collected(V1Labels, from, feeds)))
  {
    var h: File := Some(Table(Header, []));
    var e := Job(CaptureSeconds, from, V1Labels, feeds[0]);
    if !e.Running? {
      PersistAppends(RewriteMode, h, e);
      var g := Persist(RewriteMode, h, e).value;
      forall k | 0 <= k < |choices[1..]| ensures choices[1..][k] == Keep {
        assert choices[1..][k] == choices[k + 1];
      }
      KeptByEveryChild(g, choices[1..], from + 1, feeds[1..]);
      assert ChildrenV1(f, choices, from, feeds) == RunLabels(RewriteMode, V1Labels, h, from, feeds);
    }
    RunLabelsAppendsBatches(RewriteMode, V1Labels, h, from, feeds);
    assert [] + Collected(V1Labels, from, feeds) == Collected(V1Labels, from, feeds);
  }

  /** A loop that completes reached child k, with some file. */
  lemma {:induction false} PassesPrefix(f: File, choices: seq<Choice>, from: int, feeds: seq<JobFeed>, k: nat)
      returns (g: File)
    requires |choices| == |feeds| && k <= |feeds|
    ensures var d := ChildrenV1(f, choices, from, feeds);
      d.Finished? ==> d == ChildrenV1(g, choices[k..], from + k, feeds[k..])
    decreases k
  {
    if k == 0 {
      assert choices[0..] == choices && feeds[0..] == feeds;
      g := f;
    } else {
      var d := ChildrenV1(f, choices, from, feeds);
      var rest, later := choices[1..], feeds[1..];
      var h := f;
      if choices[0] != NoAnswer {
        var start := if choices[0] == Reset then Some(Table(Header, [])) else f;
        var e := Job(CaptureSeconds, from, V1Labels, feeds[0]);
        if !e.Running? && Persist(RewriteMode, start, e).Some? {
          h := Persist(RewriteMode, start, e).value;
        }
      }
      if d.Finished? {
        assert d == ChildrenV1(h, rest, from + 1, later);
        g := PassesPrefix(h, rest, from + 1, later, k - 1);
        assert rest[k - 1..] == choices[k..];
        assert later[k - 1..] == feeds[k..];
        assert from + 1 + (k - 1) == from + k;
      } else {
        g := f;
      }
    }
  }

  /** The last child to answer B wins: if the loop completes, the file holds
      only the batches of that child's label and the later ones, whatever
      the earlier jobs wrote. */
  lemma ChildResetDiscardsEarlier(f: File, choices: seq<Choice>, from: int, feeds: seq<JobFeed>, k: nat)
    requires |choices| == |feeds| && k < |feeds|
    requires choices[k] == Reset
    requires forall j :: k < j < |choices| ==> choices[j] == Keep
    ensures var d := ChildrenV1(f, choices, from, feeds);
      d.Finished? ==> d.file == Some(Table(Header, Collected(V1Labels, from + k, feeds[k..])))
  {
    var g := PassesPrefix(f, choices, from, feeds, k);
    var rest := choices[k..];
    assert rest[0] == choices[k];
    forall j | 0 < j < |rest| ensures rest[j] == Keep {
      assert rest[j] == choices[k + j];
    }
    ResetFirstKeepsOwnBatches(g, rest, from + k, feeds[k..]);
  }

  /** The batches of the children that got past their prompt. */
  function Survivors(choices: seq<Choice>, from: int, feeds: seq<JobFeed>): seq<Row>
    requires |choices| == |feeds|
    decreases |feeds|
  {
    if feeds == [] then []
    else
      (if choices[0] != NoAnswer then Batch(Job(CaptureSeconds, from, V1Labels, feeds[0])) else [])
      + Survivors(choices[1..], from + 1, feeds[1..])
  }

  /** Without a B in any child, a completed loop keeps the earlier rows and
      adds the batches of the children that got past their prompt; a child
      whose input ran out loses its label's batch. */
  lemma {:induction false} ChildrenWithoutReset(f: File, choices: seq<Choice>, from: int, feeds: seq<JobFeed>)
    requires |choices| == |feeds|
    requires f.Some? && f.value.header == Header
    requires forall k :: 0 <= k < |choices| ==> choices[k] != Reset
    ensures var d := ChildrenV1(f, choices, from, feeds);
      d.Finished? ==> d.file == Some(Table(Header, f.value.rows + Survivors(choices, from, feeds)))
    decreases |feeds|
  {
    if feeds == [] {
      assert f.value.rows + [] == f.value.rows;
    } else {
      var rest := choices[1..];
      assert forall k :: 0 <= k < |rest| ==> rest[k] == choices[k + 1];
      var e := Job(CaptureSeconds, from, V1Labels, feeds[0]);
      var tail := Survivors(rest, from + 1, feeds[1..]);
      if choices[0] == NoAnswer {
        ChildrenWithoutReset(f, rest, from + 1, feeds[1..]);
        assert [] + tail == tail;
      } else {
        PersistAppends(RewriteMode, f, e);
        var g := Persist(RewriteMode, f, e).value;
        ChildrenWithoutReset(g, rest, from + 1, feeds[1..]);
        ConcatAssoc(f.value.rows, Batch(e), tail);
      }
    }
  }

  /** When every child answers A, no batch is lost. */
  lemma {:induction false} SurvivorsOfKeepers(choices: seq<Choice>, from: int, feeds: seq<JobFeed>)
    requires |choices| == |feeds|
    requires forall k :: 0 <= k < |choices| ==> choices[k] == Keep
    ensures Survivors(choices, from, feeds) == Collected(V1Labels, from, feeds)
    decreases |feeds|
  {
    if feeds != [] {
      var rest := choices[1..];
      assert forall k :: 0 <= k < |rest| ==> rest[k] == choices[k + 1];
      SurvivorsOfKeepers(rest, from + 1, feeds[1..]);
    }
  }

  /** When the file ends up with the nine-column header (it was missing,
      reset with B, or kept with that header) and every child answers A, a
      complete V1 session leaves the earlier rows followed by
      batch0 ++ ... ++ batch3, in label order. */
  lemma DriverV1Dataset(f: File, answers: seq<string>, childAnswers: seq<seq<string>>, feeds: seq<JobFeed>)
    requires |feeds| == V1Labels && |childAnswers| == V1Labels
    requires f.Some? ==> f.value.header == Header
    requires forall k :: 0 <= k < V1Labels ==> Keeps(childAnswers[k])
    ensures var d := DriverV1(f, answers, childAnswers, feeds);
      d.Some? && d.value.Finished? ==>
        var start := StartupV1(f, answers).value.value;
        && d.value.file == Some(Table(Header, start.rows + Collected(V1Labels, 0, feeds)))
        && LabelsOrdered(Collected(V1Labels, 0, feeds), 0, V1Labels)
  {
    var s := StartupV1(f, answers);
    if s.Some? {
      KeptByEveryChild(s.value, Choices(childAnswers), 0, feeds);
      FlushModesAgree(V1Labels, s.value, 0, feeds);
      RunLabelsAppendsBatches(AppendMode, V1Labels, s.value, 0, feeds);
      CollectedOrdered(V1Labels, 0, feeds);
    }
  }

  /** A B in the child for label k (and A in the later ones) leaves a
      complete session with the header over batch_k ++ ... ++ batch3 only:
      the start-up rows and the earlier batches are deleted. */
  lemma DriverV1ChildReset(f: File, answers: seq<string>, childAnswers: seq<seq<string>>, feeds: seq<JobFeed>, k: nat)
    requires |feeds| == V1Labels && |childAnswers| == V1Labels && k < V1Labels
    requires Resets(childAnswers[k])
    requires forall j :: k < j < V1Labels ==> Keeps(childAnswers[j])
    ensures var d := DriverV1(f, answers, childAnswers, feeds);
      d.Some? && d.value.Finished? ==>
        && d.value.file == Some(Table(Header, Collected(V1Labels, k, feeds[k..])))
        && LabelsOrdered(d.value.file.value.rows, k, V1Labels)
  {
    var s := StartupV1(f, answers);
    if s.Some? {
      ChoicesAfterReset(childAnswers, k);
      ResetLabelsOrdered(s.value, Choices(childAnswers), feeds, k);
    }
  }

  lemma ResetLabelsOrdered(f: File, choices: seq<Choice>, feeds: seq<JobFeed>, k: nat)
    requires |choices| == |feeds| && k < |feeds|
    requires choices[k] == Reset
    requires forall j :: k < j < |choices| ==> choices[j] == Keep
    ensures var d := ChildrenV1(f, choices, 0, feeds);
      d.Finished? ==>
        && d.file == Some(Table(Header, Collected(V1Labels, k, feeds[k..])))
        && LabelsOrdered(d.file.value.rows, k, |feeds|)
  {
    ChildResetDiscardsEarlier(f, choices, 0, feeds, k);
    assert k + |feeds[k..]| == |feeds|;
    CollectedOrdered(V1Labels, k, feeds[k..]);
  }

  lemma ChoicesAfterReset(childAnswers: seq<seq<string>>, k: nat)
    requires k < |childAnswers| && Resets(childAnswers[k])
    requires forall j :: k < j < |childAnswers| ==> Keeps(childAnswers[j])
    ensures var cs := Choices(childAnswers);
      cs[k] == Reset && forall j :: k < j < |cs| ==> cs[j] == Keep
  {
  }

  /** A child whose console input runs out before it answers dies before
      data_worker: with no B anywhere, a complete session keeps the start-up
      rows and gains only the batches of the children that answered. */
  lemma DriverV1LosesSilentChildren(f: File, answers: seq<string>, childAnswers: seq<seq<string>>, feeds: seq<JobFeed>)
    requires |feeds| == V1Labels && |childAnswers| == V1Labels
    requires f.Some? ==> f.value.header == Header
    requires forall k :: 0 <= k < V1Labels ==> !Resets(childAnswers[k])
    ensures var d := DriverV1(f, answers, childAnswers, feeds);
      d.Some? && d.value.Finished? ==>
        d.value.file == Some(Table(Header, StartupV1(f, answers).value.value.rows + Survivors(Choices(childAnswers), 0, feeds)))
  {
    var s := StartupV1(f, answers);
    if s.Some? {
      ChildrenWithoutReset(s.value, Choices(childAnswers), 0, feeds);
    }
  }
}

=== FILE: training_windows.dfy ===
/** The training-set construction of project/LSTMnn.py before augmentation:
    the dataset's rows split into eight channels and a label, the channels
    scaled by the 0..1023 scaler, overlapping windows of 100 consecutive
    rows each labelled by the row right after it, and one-hot labels over
    six classes. */
module TrainingWindows {
  import opened Basics
  import opened EmgWindow
  import opened Dataset

  /** SECUENCIA_LONGITUD. */
  const SequenceLength: nat := 100
  /** num_classes of to_categorical. */
  const NumClasses: nat := 6

  /** df.iloc[:, :-1] and df.iloc[:, -1] on the nine-column table. */
  function Inputs(rows: seq<Row>): (xs: seq<Sample>)
    requires forall i :: 0 <= i < |rows| ==> |rows[i]| == |Header|
    ensures |xs| == |rows|
    ensures forall i :: 0 <= i < |rows| ==> xs[i] + [rows[i][OutputColumn]] == rows[i]
  {
    seq(|rows|, i requires 0 <= i < |rows| => Untag(rows[i]))
  }

  function Labels(rows: seq<Row>): (ys: seq<int>)
    requires forall i :: 0 <= i < |rows| ==> |rows[i]| == |Header|
    ensures |ys| == |rows|
    ensures forall i :: 0 <= i < |rows| ==> ys[i] == rows[i][OutputColumn]
  {
    seq(|rows|, i requires 0 <= i < |rows| => rows[i][OutputColumn])
  }

  /** Splitting the columns undoes the collector's tagging. */
  lemma SplitUndoesTag(xs: seq<Sample>, tag: int)
    ensures Inputs(TagAll(xs, tag)) == xs
    ensures forall i :: 0 <= i < |xs| ==> Labels(TagAll(xs, tag))[i] == tag
  {
    var rows := TagAll(xs, tag);
    forall i | 0 <= i < |xs|
      ensures Inputs(rows)[i] == xs[i]
    {
      TagRoundTrip(xs[i], tag);
    }
  }

  /** The windows of a series: one starting at every row that leaves a
      full window and a following row. */
  function Windows<T>(xs: seq<T>): (r: seq<seq<T>>)
    ensures |r| == if |xs| > SequenceLength then |xs| - SequenceLength else 0
    ensures forall i :: 0 <= i < |r| ==> |r[i]| == SequenceLength
  {
    var n := if |xs| > SequenceLength then |xs| - SequenceLength else 0;
    seq(n, i requires 0 <= i < n => xs[i..i + SequenceLength])
  }

  /** The label of each window: the row just past its end. */
  function WindowLabels<L>(ys: seq<L>): (r: seq<L>)
    ensures |r| == if |ys| > SequenceLength then |ys| - SequenceLength else 0
  {
    var n := if |ys| > SequenceLength then |ys| - SequenceLength else 0;
    seq(n, i requires 0 <= i < n => ys[i + SequenceLength])
  }

  /** The `for i in range(len(X) - 100)` loop building X_seq and y_seq. */
  method SlidingWindows<T, L>(xs: seq<T>, ys: seq<L>) returns (xSeq: seq<seq<T>>, ySeq: seq<L>)
    requires |xs| == |ys|
    ensures |xSeq| == |ySeq| == (if |xs| > SequenceLength then |xs| - SequenceLength else 0)
    ensures forall i :: 0 <= i < |xSeq| ==> xSeq[i] == xs[i..i + SequenceLength] && ySeq[i] == ys[i + SequenceLength]
  {
    xSeq := [];
    ySeq := [];
    var count := |xs| - SequenceLength;
    var i := 0;
    while i < count
      invariant 0 <= i && (count > 0 ==> i <= count)
      invariant count <= 0 ==> i == 0
      invariant |xSeq| == |ySeq| == i
      invariant forall k :: 0 <= k < i ==> xSeq[k] == xs[k..k + SequenceLength] && ySeq[k] == ys[k + SequenceLength]
    {
      xSeq := xSeq + [xs[i..i + SequenceLength]];
      ySeq := ySeq + [ys[i + SequenceLength]];
      i := i + 1;
    }
  }

  /** The loop builds exactly the reference windows and labels. */
  lemma SlidingWindowsReference<T, L>(xs: seq<T>, ys: seq<L>, xSeq: seq<seq<T>>, ySeq: seq<L>)
    requires |xs| == |ys| && |xSeq| == |ySeq| == |Windows(xs)|
    requires forall i :: 0 <= i < |xSeq| ==> xSeq[i] == xs[i..i + SequenceLength] && ySeq[i] == ys[i + SequenceLength]
    ensures xSeq == Windows(xs) && ySeq == WindowLabels(ys)
  {
  }

  /** Window i holds rows i..i+99, its label is row i+100, and the last row
      is never inside any window. */
  lemma WindowBounds<T>(xs: seq<T>, i: nat, j: nat)
    requires i < |Windows(xs)| && j < SequenceLength
    ensures Windows(xs)[i][j] == xs[i + j]
    ensures i + j < |xs| - 1
    ensures i + SequenceLength < |xs|
  {
  }

  /** Consecutive windows share 99 rows: the window slides by one. */
  lemma WindowsSlide<T>(xs: seq<T>, i: nat)
    requires i + 1 < |Windows(xs)|
    ensures Windows(xs)[i][1..] == Windows(xs)[i + 1][..SequenceLength - 1]
  {
  }

  /** to_categorical(y, 6)[k] for a class index. */
  function OneHot(k: nat): (v: seq<real>)
    requires k < NumClasses
    ensures |v| == NumClasses && v[k] == 1.0
    ensures forall j :: 0 <= j < NumClasses && j != k ==> v[j] == 0.0
  {
    seq(NumClasses, j => if j == k then 1.0 else 0.0)
  }

  /** np.argmax recovers the class from its one-hot row. */
  lemma OneHotArgMax(k: nat)
    requires k < NumClasses
    ensures ArgMax(OneHot(k)) == k
  {
    FirstMaxIsArgMax(OneHot(k), k);
  }

  /** to_categorical on a raw label column value: numpy indexing wraps a
      negative label from the end, and one outside -6..5 raises IndexError. */
  function ToCategorical(y: int): (r: Option<seq<real>>)
    ensures r.None? <==> !(-(NumClasses as int) <= y < NumClasses)
    ensures 0 <= y < NumClasses ==> r == Some(OneHot(y))
    ensures -(NumClasses as int) <= y < 0 ==> r == Some(OneHot(y + NumClasses))
  {
    if 0 <= y < NumClasses then Some(OneHot(y))
    else if -(NumClasses as int) <= y < 0 then Some(OneHot(y + NumClasses))
    else None
  }

  /** The collector's labels 0..5 survive one-hot encoding and argmax. */
  lemma CollectedLabelsRoundTrip(y: int)
    requires 0 <= y < NumClasses
    ensures ToCategorical(y).Some? && ArgMax(ToCategorical(y).value) == y
  {
    OneHotArgMax(y);
  }

  /** The scaled inputs of the windows: every reading divided by 1023. */
  function ScaledWindows(rows: seq<Row>): (r: seq<seq<seq<real>>>)
    requires forall i :: 0 <= i < |rows| ==> |rows[i]| == |Header|
  {
    Windows(NormalizeWindow(Inputs(rows)))
  }

  /** A window built from a job's rows holds that job's scaled samples and the job's label. */
  lemma WindowsOfOneJob(xs: seq<Sample>, tag: int, i: nat, j: nat)
    requires |xs| > SequenceLength && i < |xs| - SequenceLength && j < SequenceLength
    ensures var rows := TagAll(xs, tag);
      && ScaledWindows(rows)[i][j] == NormalizeSample(xs[i + j])
      && WindowLabels(Labels(rows))[i] == tag
  {
    SplitUndoesTag(xs, tag);
    var rows := TagAll(xs, tag);
    WindowBounds(NormalizeWindow(Inputs(rows)), i, j);
  }
}
